=== FILE: README.md ===
# data-syncer transfer pipeline in Dafny

This project models the decision and aggregation rules of the data-syncer file-transfer tool. Every part is modelled as an immutable datatype plus pure functions or short methods:

- **Local-path detection and protocol normalisation** in the service's transfer executor.
- **The two backend factories.**
  - The service's enum-based factory falls back to the local-copy backend.
  - The core library's string-based engine factory is case-insensitive and rejects anything other than FTP or SFTP.
- **The transfer executor.** It resolves the source path to a file list and logs exactly one report per run.
- **The six batch transfer variants:**
  - the simulated filtering `FileTransferService`;
  - the local-copy backend;
  - the FluentFTP upload service;
  - the SSH.NET upload service;
  - the FTP engine;
  - the SFTP engine.

  Each one turns a file list and per-file outcomes into a report: log entries, counters, byte totals and the overall success flag.
- **The service's single-file log store.** Its queued single-writer drain is a sequential state machine. Its query filters, sorts newest first and truncates.
- **The core library's per-day log store.** It uses one file per day: `transfer_log_yyyyMMdd.json`.
- **The settings manager.**
  - Updates, loading and saving, with the write error as an input.
  - The ordered first-failure validator, checked against the default `AppSettings`.
- **The bounded retry loop.**
- **The filter dialog.** It converts between KB and bytes, keeps the eight fixed file types and enforces the archive-path rule.
- **The log viewer.**
  - Storage fallback and search predicate.
  - Display fallbacks, row colours and the title count.
  - The CSV export line, together with an RFC 4180 (section 2) reader used to state what the export should read back as.

Everything the program gets from the outside world is an input to the model rather than a computed value:

- **The file system** is a pair of maps. Directory paths map to their top-level `FileItem`s; file paths map to `FileInfo` data.
- **FTP and SFTP sessions** are records holding the connect and disconnect errors.
- **Per-file library calls** are functions from a file to an outcome.
- **Write failures** are `Option<string>` errors.
- **Directory listings** are sequences.
- **Clocks** are integers.

Each component has its own record with exactly the fields that its code reads, because the repository's record declarations disagree with one another. `Records` holds the service-side records (`TransferLog`, `FileItem`, `FilterSettings`, the report DTO and the protocol enum, with `LOCAL` included). `Settings` holds the core library's `AppSettings` family.

Modules: `Wrappers`, `Text`, `Paths`, `Seqs`, `Records`, `Settings` (support); `LocalPaths`, `ServiceFactory`, `EngineFactory`, `Executor`, `SimulatedService`, `LocalTransfer`, `UploadServices`, `RemoteEngines`, `LoggingService`, `TransferLogManager`, `SettingsManager`, `RetryPolicy`, `FilterDialog`, `LogView`.

## Model

| member | source | states |
|---|---|---|
| LocalPaths.NullOrEmptyIsNotLocal | data-syncer/DataSyncer.WindowsService/Services/SimpleTransferExecutor.cs:137-138 | a null or empty path is never local |
| LocalPaths.IsLocalPath | data-syncer/DataSyncer.WindowsService/Services/SimpleTransferExecutor.cs:135-149 | a path is local exactly when it is present, non-empty and rooted once white space and quotes are trimmed; the drive and UNC tests add nothing to the rooted test |
| LocalPaths.IsLocalPathShapes | data-syncer/DataSyncer.WindowsService/Services/SimpleTransferExecutor.cs:140-148 | after stripping white space and quotes, a drive-letter root or a `\\` prefix makes a path local; overall, a path is local exactly when its cleaned form is rooted |
| LocalPaths.ShapesAreRooted | data-syncer/DataSyncer.WindowsService/Services/SimpleTransferExecutor.cs:143-148 | both explicit shapes are rooted, so only the rooted disjunct decides locality |
| LocalPaths.CleanPathOfClean | data-syncer/DataSyncer.WindowsService/Services/SimpleTransferExecutor.cs:140 | cleaning leaves a path with no surrounding white space or quotes unchanged |
| LocalPaths.CleanRootedIsLocal | data-syncer/DataSyncer.WindowsService/Services/SimpleTransferExecutor.cs:140-148 | every rooted path without surrounding white space or quotes counts as local |
| LocalPaths.EffectiveProtocol | data-syncer/DataSyncer.WindowsService/Services/SimpleTransferExecutor.cs:32-37 | the protocol becomes LOCAL exactly when it was LOCAL or both paths are local; otherwise it is the declared one |
| LocalPaths.RemoteDestinationForcedLocal | data-syncer/DataSyncer.WindowsService/Services/SimpleTransferExecutor.cs:32-37 | with a local source, a destination such as `/upload` forces the LOCAL protocol whatever was declared |
| LocalPaths.EffectiveProtocolIntended | data-syncer/DataSyncer.WindowsService/Services/SimpleTransferExecutor.cs:135-149 | with detection limited to drive letters and UNC prefixes, the protocol becomes LOCAL exactly when both paths have one of those shapes |
| LocalPaths.IntendedKeepsRemoteDestination | data-syncer/DataSyncer.WindowsService/Services/SimpleTransferExecutor.cs:32-37 | under the intended detection a `/`-rooted destination keeps the declared protocol, and intended-local implies as-written-local |
| LocalPaths.SlashIsNoShape | data-syncer/DataSyncer.WindowsService/Services/SimpleTransferExecutor.cs:143-148 | a path starting with `/` is neither a drive root nor a UNC path |
| ServiceFactory.CreateFileTransferService | data-syncer/DataSyncer.WindowsService/Implementations/FileTransferServiceFactory.cs:28-52 | FTP and SFTP both get the FluentFTP backend; LOCAL and every other value get the local-copy backend (a total map) |
| ServiceFactory.SelectedBackend | data-syncer/DataSyncer.WindowsService/Implementations/FileTransferServiceFactory.cs:38-46 | two local paths always reach the local-copy backend, and a remote SFTP job reaches the FTP client |
| EngineFactory.CreateEngine | data-syncer/DataSyncer.Core/Services/TransferEngineFactory.cs:8-16 | an engine is built exactly when the upper-cased protocol is FTP or SFTP, and holds the given settings; otherwise "Unsupported protocol: …" |
| EngineFactory.ChoiceDependsOnUpperCase | data-syncer/DataSyncer.Core/Services/TransferEngineFactory.cs:10-15 | two settings with the same upper-cased protocol get the same kind of engine |
| EngineFactory.ProtocolExamples | data-syncer/DataSyncer.Core/Services/TransferEngineFactory.cs:10-14 | "ftp" and "sFtp" are accepted; "LOCAL" and "" are rejected |
| EngineFactory.DefaultProtocolIsSftp | data-syncer/DataSyncer.Core/Modules/AppSettings.cs:17 | the default settings select the SFTP engine |
| Executor.ResolveSource | data-syncer/DataSyncer.WindowsService/Services/SimpleTransferExecutor.cs:48-82 | a directory yields its top-level files; otherwise a file yields one item for itself; anything else fails with "Source path not found: …" |
| Executor.ExecuteTransfer | data-syncer/DataSyncer.WindowsService/Services/SimpleTransferExecutor.cs:22-130 | exactly one report is logged; the backend, if called, gets default filters, the backend for the normalised protocol and a non-empty resolved list; a failure is logged under the declared protocol with "Transfer failed: " and rethrown |
| Executor.EmptyDirectoryLogsOnce | data-syncer/DataSyncer.WindowsService/Services/SimpleTransferExecutor.cs:84-101 | an empty source logs one successful "No files found to transfer" report of size 0 and never calls the backend |
| Executor.MissingSourceRethrows | data-syncer/DataSyncer.WindowsService/Services/SimpleTransferExecutor.cs:79-128 | a missing source is logged as a failure under the declared protocol and rethrown |
| Executor.QuotedDirectoryIsListed | data-syncer/DataSyncer.WindowsService/Services/SimpleTransferExecutor.cs:46-64 | surrounding quotes are stripped before the directory is listed |
| Executor.SingleFileIsOneItem | data-syncer/DataSyncer.WindowsService/Services/SimpleTransferExecutor.cs:65-78 | a single-file source reaches the backend as one item with that path and name |
| Executor.BackendReportIsLogged | data-syncer/DataSyncer.WindowsService/Services/SimpleTransferExecutor.cs:103-107 | the backend's report is logged unchanged when it returns |
| SimulatedService.TransferLoop | data-syncer/DataSyncer.Core/Services/FileTransferService.cs:18-55 | the entries are exactly those of the files that pass the type and size filters, one per file, in input order |
| SimulatedService.PassesFilters | data-syncer/DataSyncer.Core/Services/FileTransferService.cs:21-28 | a file passes exactly when the allow-list is empty or holds its extension and its size lies in [min, max]; an inverted range passes nothing |
| SimulatedService.TransferFiles | data-syncer/DataSyncer.Core/Services/FileTransferService.cs:13-59 | success is always reported; the number of entries is the number of kept files, which is at most the number of inputs, and each entry is a success named after its file |
| SimulatedService.DefaultFiltersKeepOnlyEmptyFiles | data-syncer/DataSyncer.Core/Services/FileTransferService.cs:21-28 | under default filters a file passes exactly when it has zero bytes |
| SimulatedService.DefaultFiltersDropNonEmptyFile | data-syncer/DataSyncer.Core/Services/FileTransferService.cs:25-28 | a one-byte file under default filters yields no entry |
| SimulatedService.TransferFilesIntended | data-syncer/DataSyncer.Core/Services/FileTransferService.cs:13-59 | the corrected service, where a maximum of 0 means "no maximum", still succeeds with at most one success entry per input |
| SimulatedService.IntendedDefaultsKeepEverything | data-syncer/DataSyncer.Core/Services/FileTransferService.cs:25-28 | with the correction, default filters keep every file, one entry each, in order |
| SimulatedService.IntendedAgreesWhenMaxSet | data-syncer/DataSyncer.Core/Services/FileTransferService.cs:25-28 | the correction changes nothing when a non-zero maximum is set |
| LocalTransfer.CopyFile | data-syncer/DataSyncer.WindowsService/Implementations/LocalFileTransfer.cs:66-92 | a missing source fails when it is sized, before any copy; an existing one takes the copy's outcome |
| LocalTransfer.FileEntry | data-syncer/DataSyncer.WindowsService/Implementations/LocalFileTransfer.cs:63-112 | an entry names the file, its source and destDir combined with its name, with protocol LOCAL; it is "Success" exactly when the copy happened and then carries the file's size; failures carry zero duration and the message |
| LocalTransfer.CopyLoop | data-syncer/DataSyncer.WindowsService/Implementations/LocalFileTransfer.cs:63-112 | one entry per input file, in order, however earlier files fared |
| LocalTransfer.TransferFiles | data-syncer/DataSyncer.WindowsService/Implementations/LocalFileTransfer.cs:27-125 | a destination that cannot be created gives failure with "Failed to create destination directory: …" and no entries; otherwise success with one entry per file |
| LocalTransfer.SuccessIgnoresFileFailures | data-syncer/DataSyncer.WindowsService/Implementations/LocalFileTransfer.cs:29-111 | the success flag does not depend on the per-file copy outcomes |
| LocalTransfer.FailedEntriesCount | data-syncer/DataSyncer.WindowsService/Implementations/LocalFileTransfer.cs:94-111 | the number of "Failed" entries equals the number of files whose copy failed |
| LocalTransfer.CopyTarget | data-syncer/DataSyncer.WindowsService/Implementations/LocalFileTransfer.cs:224-231 | an existing directory, or a destination ending in `\` or `/`, gets the source file name combined onto it (the name after the last separator or drive root, as `Paths.GetFileName` states); otherwise the destination is used as-is |
| Paths.GetFileName | data-syncer/DataSyncer.WindowsService/Implementations/LocalFileTransfer.cs:229 | `Path.GetFileName`: the longest separator-free suffix of the path that does not reach into a drive root; it is the whole path, follows a separator, or starts right after `C:` |
| Paths.DriveRelativeFileName | data-syncer/DataSyncer.WindowsService/Implementations/LocalFileTransfer.cs:229 | a drive-relative path without separators, such as `C:a.txt`, has everything after the drive as its file name |
| LocalTransfer.CopyDriveRelativeSource | data-syncer/DataSyncer.WindowsService/Implementations/LocalFileTransfer.cs:224-231 | the drive-relative source `C:a.txt` copied into `D:\out\` targets `D:\out\a.txt` |
| LocalTransfer.TransferFile | data-syncer/DataSyncer.WindowsService/Implementations/LocalFileTransfer.cs:210-251 | a missing source returns false without copying; otherwise the copy goes to the computed target, and the result is true exactly when that copy succeeds |
| LocalTransfer.CopyIntoDirectoryKeepsName | data-syncer/DataSyncer.WindowsService/Implementations/LocalFileTransfer.cs:224-228 | copying a file `folder + name` into a directory path ending in a separator targets that directory followed by `name`: the file name is kept, the folder dropped |
| LocalTransfer.TestConnection | data-syncer/DataSyncer.WindowsService/Implementations/LocalFileTransfer.cs:130-205 | the test passes exactly when the source is a non-blank directory that can be listed and the destination is non-blank and writable if it exists, or creatable if it does not |
| LocalTransfer.TestUsesOneDestinationProbe | data-syncer/DataSyncer.WindowsService/Implementations/LocalFileTransfer.cs:161-195 | an existing destination never depends on the creation probe, a missing one never on the write probe |
| LocalTransfer.SingleFileSourceFailsTest | data-syncer/DataSyncer.WindowsService/Implementations/LocalFileTransfer.cs:144-148 | a single-file source never passes the connection test, although the executor accepts one |
| UploadServices.UploadEntry | data-syncer/DataSyncer.WindowsService/Implementations/FluentFtpTransfer.cs:34-44 | an entry is named after the file; it is "Success" exactly when the upload returned true; its message is "Uploaded" when the upload returned true, "Upload failed" when it returned false, and the exception's message when it threw |
| UploadServices.SessionFailure | data-syncer/DataSyncer.WindowsService/Implementations/FluentFtpTransfer.cs:50-55 | a session-level failure adds one "Failed" entry with an empty file name |
| UploadServices.UploadLoop | data-syncer/DataSyncer.WindowsService/Implementations/FluentFtpTransfer.cs:32-45 | one entry per file, in order, with no early exit |
| UploadServices.UploadFiles | data-syncer/DataSyncer.WindowsService/Implementations/FluentFtpTransfer.cs:22-58 | a connect failure gives failure and only the session entry; a disconnect failure appends it after the per-file entries; otherwise success with the per-file entries |
| UploadServices.FluentFtpTransferFiles | data-syncer/DataSyncer.WindowsService/Implementations/FluentFtpTransfer.cs:22-58 | a completed session succeeds with one entry per file, "Success" exactly when the upload returned true, with the message "Uploaded", "Upload failed" or the exception's message; a connect failure gives one unnamed failure entry |
| UploadServices.SshNetTransferFiles | data-syncer/DataSyncer.WindowsService/Implementations/SshNetTransfer.cs:22-54 | the call throws, returning no report, exactly when the client constructor rejects the user name or port; otherwise a completed session succeeds with one entry per file, "Success" with "Uploaded" exactly when nothing was thrown and otherwise carrying the exception's message; a connect failure gives one unnamed failure entry |
| UploadServices.ClientRejects | data-syncer/DataSyncer.WindowsService/Implementations/SshNetTransfer.cs:26 | the SSH.NET client refuses a blank or white-space user name first, then a port outside 0..65535, and accepts everything else |
| UploadServices.DefaultConnectionThrows | data-syncer/DataSyncer.WindowsService/Implementations/SshNetTransfer.cs:26-27 | with the default connection settings (empty user name) the SFTP upload throws before its `try`, whatever the session |
| UploadServices.SuccessIgnoresFileOutcomes | data-syncer/DataSyncer.WindowsService/Implementations/SshNetTransfer.cs:38-51 | success depends only on the session, never on per-file outcomes |
| UploadServices.FailedEntriesMatchFailedFiles | data-syncer/DataSyncer.WindowsService/Implementations/FluentFtpTransfer.cs:36-44 | the failed entries are as many as the files whose upload did not return true |
| RemoteEngines.RemotePathFor | data-syncer/DataSyncer.Core/Services/FtpTransferEngine.cs:87 | the remote path is the combined path with every `\` replaced by `/`: the same length, no backslash, all other characters unchanged |
| RemoteEngines.RemotePathUnderRoot | data-syncer/DataSyncer.Core/Services/SftpTransferEngine.cs:87 | below the default remote directory "/", a plain name becomes "/" + name |
| RemoteEngines.Wrap32 | data-syncer/DataSyncer.Core/Services/FtpTransferEngine.cs:33 | the result lies in the 32-bit range and agrees with the input modulo 2^32 |
| RemoteEngines.FtpConfig | data-syncer/DataSyncer.Core/Services/FtpTransferEngine.cs:31-33 | passive mode selects PASV, otherwise PORT; a timeout that fits gives seconds × 1000 ms |
| RemoteEngines.LargeTimeoutWraps | data-syncer/DataSyncer.Core/Services/FtpTransferEngine.cs:33 | a timeout of 2147484 s wraps to a negative millisecond value |
| RemoteEngines.StartResult | data-syncer/DataSyncer.Core/Services/FtpTransferEngine.cs:77-83 | reading the length of a missing file throws "Could not find file '…'." out of the method; an existing file starts unsuccessful with its name, path and length |
| RemoteEngines.FtpSingleFile | data-syncer/DataSyncer.Core/Services/FtpTransferEngine.cs:75-121 | a missing file throws out of the method; otherwise the file succeeds exactly when the direction is not Bidirectional and the library status is Success, and a caught error gives "Transfer failed: …" |
| RemoteEngines.SftpSingleFile | data-syncer/DataSyncer.Core/Services/SftpTransferEngine.cs:75-126 | a missing file throws out of the method; otherwise the file succeeds exactly when the direction is not Bidirectional and the call does not throw |
| RemoteEngines.BidirectionalFailsEveryFile | data-syncer/DataSyncer.Core/Services/FtpTransferEngine.cs:90-105 | Bidirectional fails every existing file on both engines |
| RemoteEngines.Succeeded | data-syncer/DataSyncer.Core/Services/FtpTransferEngine.cs:43-51 | the number of successful results is at most the number of results |
| RemoteEngines.SucceededAll | data-syncer/DataSyncer.Core/Services/FtpTransferEngine.cs:57 | no failure exactly when every result succeeded |
| RemoteEngines.Tally | data-syncer/DataSyncer.Core/Services/FtpTransferEngine.cs:38-52 | transferred counts the successes, failed counts the rest, and bytes sums the sizes of the successes |
| RemoteEngines.Completed | data-syncer/DataSyncer.Core/Services/SftpTransferEngine.cs:38-52 | the loop keeps the results before the first file whose transfer threw, and that file did throw |
| RemoteEngines.RunBatch | data-syncer/DataSyncer.Core/Services/SftpTransferEngine.cs:21-73 | a connect failure gives failure with the prefixed message; otherwise the results are those gathered before any abort, transferred + failed = their number, none skipped; an abort fails with the prefixed exception message; a completed loop succeeds exactly when nothing failed and the session closed |
| RemoteEngines.FtpTransferFiles | data-syncer/DataSyncer.Core/Services/FtpTransferEngine.cs:21-73 | one result per file, in order, up to the first missing file, which aborts the batch with "FTP transfer failed: Could not find file '…'."; every file is tried exactly when all exist; counters and bytes as in the tally; with all files present, success exactly when no file failed; the transferred count is the number of successful results; with all files present, a disconnect failure gives "FTP transfer failed: …" with duration 0, and a clean disconnect gives the completed-count message and the measured duration; a connect failure gives "FTP transfer failed: …" |
| RemoteEngines.SftpTransferFiles | data-syncer/DataSyncer.Core/Services/SftpTransferEngine.cs:21-73 | the same for the SFTP engine, with "SFTP transfer failed: …": results up to the first missing file, transferred count equal to the successful results, disconnect failure and completed message as for FTP |
| RemoteEngines.MissingFileStopsBatch | data-syncer/DataSyncer.Core/Services/FtpTransferEngine.cs:38-52 | a missing file after existing ones stops the loop: exactly the files before it have results |
| RemoteEngines.TestConnection | data-syncer/DataSyncer.Core/Services/SftpTransferEngine.cs:128-152 | the test passes exactly when connect and disconnect both complete |
| LoggingService.NewService | data-syncer/DataSyncer.WindowsService/Services/LoggingService.cs:25-35 | a missing log file is created as an empty list; the queue starts empty and idle |
| LoggingService.GetAllLogs | data-syncer/DataSyncer.WindowsService/Services/LoggingService.cs:69-86 | the stored list, or empty when the file is missing or unreadable |
| LoggingService.ToLogEntry | data-syncer/DataSyncer.WindowsService/Services/LoggingService.cs:43-53 | status is "Success" exactly when the report succeeded, else "Failed"; paths, size, duration, error and protocol are copied |
| LoggingService.Enqueue | data-syncer/DataSyncer.WindowsService/Services/LoggingService.cs:56-59 | exactly one entry is appended to the back of the queue; nothing else changes |
| LoggingService.TryBeginDrain | data-syncer/DataSyncer.WindowsService/Services/LoggingService.cs:144-151 | a drain starts only when none is running, and then marks the writer busy |
| LoggingService.WriteOne | data-syncer/DataSyncer.WindowsService/Services/LoggingService.cs:178-196 | a successful write stores the readable list plus the entry; a failed write leaves the file |
| LoggingService.Written | data-syncer/DataSyncer.WindowsService/Services/LoggingService.cs:178-196 | the written entries are at most the queue |
| LoggingService.WrittenAll | data-syncer/DataSyncer.WindowsService/Services/LoggingService.cs:178-196 | when every write completes, the whole queue is written |
| LoggingService.WrittenNone | data-syncer/DataSyncer.WindowsService/Services/LoggingService.cs:178-196 | when no write completes, nothing is written |
| LoggingService.Drained | data-syncer/DataSyncer.WindowsService/Services/LoggingService.cs:178-196 | the stored list becomes the readable list followed by the entries whose write completed; with none, the file is untouched |
| LoggingService.WritePendingLogs | data-syncer/DataSyncer.WindowsService/Services/LoggingService.cs:141-210 | a drain while another is writing changes nothing; otherwise each queued entry is written in FIFO order, a failed write dropping only that entry, and the drain ends with an empty queue and the flag cleared |
| LoggingService.FailedWriteDropsOnlyItsEntry | data-syncer/DataSyncer.WindowsService/Services/LoggingService.cs:180-195 | a failed write between two successful ones drops only its own entry |
| LoggingService.LogTransfer | data-syncer/DataSyncer.WindowsService/Services/LoggingService.cs:41-63 | while a writer runs the entry only waits in the queue; otherwise the queue and the entry are drained, the stored list gains the entries whose write completed, and the service is idle again; if every write fails the file is unchanged |
| LoggingService.LogTwice | data-syncer/DataSyncer.WindowsService/Services/LoggingService.cs:41-63 | two transfers logged from idle are stored in call order |
| LoggingService.UnreadableFileIsReplaced | data-syncer/DataSyncer.WindowsService/Services/LoggingService.cs:182-190 | a drain over an unreadable file writes a list holding only the new entries |
| LoggingService.ClearLogs | data-syncer/DataSyncer.WindowsService/Services/LoggingService.cs:126-136 | a successful clear leaves an empty stored list; a failed write changes nothing |
| LoggingService.MatchAsWritten | data-syncer/DataSyncer.WindowsService/Services/LoggingService.cs:101-108 | when it evaluates, the predicate is the substring test on source, destination, status, protocol or a present error message; a null source path throws |
| LoggingService.FindAllAsWritten | data-syncer/DataSyncer.WindowsService/Services/LoggingService.cs:101-108 | the search succeeds exactly when no entry throws, and then keeps exactly the matching entries in order |
| LoggingService.NewestFirst | data-syncer/DataSyncer.WindowsService/Services/LoggingService.cs:112-118 | a negative limit throws; otherwise the result is sorted newest first, has min(count, limit) entries drawn from the input, and no dropped entry is newer than a kept one |
| LoggingService.GetLogs | data-syncer/DataSyncer.WindowsService/Services/LoggingService.cs:94-121 | a null or blank filter keeps all entries; otherwise the lower-cased filter selects the matches; then newest first and truncated |
| LoggingService.NullSourceBreaksSearch | data-syncer/DataSyncer.WindowsService/Services/LoggingService.cs:101-108 | an entry written by LogTransfer from a report without a source path makes every non-blank search throw |
| LoggingService.GetLogsNullSafe | data-syncer/DataSyncer.WindowsService/Services/LoggingService.cs:94-121 | with null-safe matching the query fails only for a negative limit, and returns the newest matches |
| LoggingService.NullSafeAgrees | data-syncer/DataSyncer.WindowsService/Services/LoggingService.cs:94-121 | wherever the as-written query succeeds, the null-safe query returns the same list |
| LoggingService.BlankSearchKeepsAll | data-syncer/DataSyncer.WindowsService/Services/LoggingService.cs:99 | a blank search with a large enough limit returns a permutation of every stored entry |
| TransferLogManager.LogFileName | data-syncer/DataSyncer.Core/Services/TransferLogManager.cs:31 | the name is the prefix, eight digits and ".json" |
| TransferLogManager.LogFileNameDecodes | data-syncer/DataSyncer.Core/Services/TransferLogManager.cs:31 | the year, month and day read back from the name's digits |
| TransferLogManager.LogFileNameInjective | data-syncer/DataSyncer.Core/Services/TransferLogManager.cs:31 | distinct valid dates use distinct files |
| TransferLogManager.NewStore | data-syncer/DataSyncer.Core/Services/TransferLogManager.cs:25-32 | the current file is fixed once from the start day |
| TransferLogManager.LogTransfer | data-syncer/DataSyncer.Core/Services/TransferLogManager.cs:37-73 | the entry is appended to the current day's list and every other day is unchanged; a failure changes nothing and does not escape |
| TransferLogManager.GetLogs | data-syncer/DataSyncer.Core/Services/TransferLogManager.cs:78-96 | that date's list, or empty when the file is missing or unparseable |
| TransferLogManager.LogTransferGoesToStartDay | data-syncer/DataSyncer.Core/Services/TransferLogManager.cs:31-65 | a store created on day d keeps appending to day d |
| TransferLogManager.LogTransferKeepsOtherDays | data-syncer/DataSyncer.Core/Services/TransferLogManager.cs:41-65 | logging never changes another day's logs |
| TransferLogManager.GatheredLength | data-syncer/DataSyncer.Core/Services/TransferLogManager.cs:107-124 | the gathered length is the sum of the parseable days' lengths |
| TransferLogManager.GatheredContains | data-syncer/DataSyncer.Core/Services/TransferLogManager.cs:107-124 | every entry of every parseable listed day is gathered |
| TransferLogManager.GetAllLogs | data-syncer/DataSyncer.Core/Services/TransferLogManager.cs:101-136 | the result is a newest-first permutation of every parseable day's entries, skipping corrupt days |
| TransferLogManager.DayLogsAppearInAll | data-syncer/DataSyncer.Core/Services/TransferLogManager.cs:78-136 | each day's own entries appear in the combined list |
| TransferLogManager.ClearLogs | data-syncer/DataSyncer.Core/Services/TransferLogManager.cs:141-164 | exactly the files whose deletion failed remain, unchanged |
| TransferLogManager.ClearedStoreIsEmpty | data-syncer/DataSyncer.Core/Services/TransferLogManager.cs:145-158 | after a full clear no day remains, and both queries return nothing for every day and every folder listing |
| SettingsManager.SaveSettings | data-syncer/DataSyncer.Core/Services/SettingsManager.cs:46-64 | a save throws exactly when the write fails, with "Failed to save settings: " and the error |
| SettingsManager.NewManager | data-syncer/DataSyncer.Core/Services/SettingsManager.cs:14-23 | a new manager's settings, as `GetSettings` returns them, are the defaults: an empty host and port 22 |
| SettingsManager.UpdateSettings | data-syncer/DataSyncer.Core/Services/SettingsManager.cs:66-70 | null throws and changes nothing; otherwise the new settings are installed, and a failed save is thrown afterwards |
| SettingsManager.UpdateThenGet | data-syncer/DataSyncer.Core/Services/SettingsManager.cs:20-70 | GetSettings returns the last installed value, and a later null update keeps it |
| SettingsManager.LoadSettings | data-syncer/DataSyncer.Core/Services/SettingsManager.cs:25-44 | a document installs its settings; a null document installs defaults; a missing file installs defaults and saves them; an unreadable file changes nothing and throws "Failed to load settings: …" |
| SettingsManager.MissingFileNeedsHost | data-syncer/DataSyncer.Core/Services/SettingsManager.cs:25-81 | settings created for a missing file fail validation with "Host is required" |
| SettingsManager.ValidateSettings | data-syncer/DataSyncer.Core/Services/SettingsManager.cs:72-128 | the result is valid exactly when every check passes; each of the seven messages appears exactly when its check is the first to fail, in the order host, port, username, local path given, local path exists, interval, weekly days |
| SettingsManager.PasswordIgnored | data-syncer/DataSyncer.Core/Services/SettingsManager.cs:72-128 | changing the password never changes the verdict |
| SettingsManager.DefaultSettingsNeedHost | data-syncer/DataSyncer.Core/Modules/AppSettings.cs:18 | default settings fail with "Host is required" |
| SettingsManager.DefaultPortAccepted | data-syncer/DataSyncer.Core/Modules/AppSettings.cs:19 | the default port 22 lies in 1..65535 |
| RetryPolicy.NewPolicy | data-syncer/DataSyncer.Core/Services/RetryPolicy.cs:11-15 | the defaults are 3 attempts and 2000 ms; given values are kept |
| RetryPolicy.Execute | data-syncer/DataSyncer.Core/Services/RetryPolicy.cs:17-33 | at least one attempt; none after the first success; a delay between consecutive attempts; the loop gives up exactly at max(1, maxRetries); a delay below -1 ms or above the timer maximum of 2^32 - 2 ms throws at the first wait and a delay of -1 ms waits forever there, so such a delay allows one attempt only |
| RetryPolicy.OversizedDelayThrows | data-syncer/DataSyncer.Core/Services/RetryPolicy.cs:28-30 | with a delay one past the timer maximum, an action that always fails runs once and the wait before the second attempt throws |
| RetryPolicy.NegativeDelayThrows | data-syncer/DataSyncer.Core/Services/RetryPolicy.cs:28-30 | with a delay of -5 ms, an action that always fails runs once and the wait before the second attempt throws |
| RetryPolicy.DefaultGivesUpAfterThree | data-syncer/DataSyncer.Core/Services/RetryPolicy.cs:11-33 | with the defaults, an action that always fails runs three times, waits twice and ends by rethrowing its failure |
| RetryPolicy.SingleAttempt | data-syncer/DataSyncer.Core/Services/RetryPolicy.cs:24-28 | with maxRetries ≤ 1 the action runs exactly once |
| FilterDialog.InitialDialog | data-syncer/DataSyncer.WinFormsUI/FormFilters.cs:31-142 | the initial controls are within their ranges |
| FilterDialog.TruncDiv | data-syncer/DataSyncer.WinFormsUI/FormFilters.cs:162-171 | C# division truncates toward zero, also for negative byte counts |
| FilterDialog.KilobytesRoundTrip | data-syncer/DataSyncer.WinFormsUI/FormFilters.cs:162-222 | KB × 1024 divided by 1024 gives back KB |
| FilterDialog.IndexOf | data-syncer/DataSyncer.WinFormsUI/FormFilters.cs:154-157 | the first position of a type in the list, or none when it is absent |
| FilterDialog.ChoicesDistinct | data-syncer/DataSyncer.WinFormsUI/FormFilters.cs:36 | the eight fixed types are distinct |
| FilterDialog.CheckTypes | data-syncer/DataSyncer.WinFormsUI/FormFilters.cs:152-159 | a box ends up checked exactly when it was checked already or its type is stored; unknown types are ignored |
| FilterDialog.LoadSettings | data-syncer/DataSyncer.WinFormsUI/FormFilters.cs:144-189 | min KB = bytes / 1024; max KB = min(bytes / 1024, 1000000) if bytes > 0, else 0; an out-of-range minimum size or age stops the load; a bad size leaves every control but the types untouched, and a bad age leaves every control but the types and the two sizes untouched |
| FilterDialog.SavedTypes | data-syncer/DataSyncer.WinFormsUI/FormFilters.cs:214-218 | the saved list names exactly the checked choices and nothing else |
| FilterDialog.CheckSavedTypes | data-syncer/DataSyncer.WinFormsUI/FormFilters.cs:152-218 | loading the saved types checks exactly the boxes that were checked |
| FilterDialog.SaveSettings | data-syncer/DataSyncer.WinFormsUI/FormFilters.cs:208-256 | saving is refused exactly when an archive move has no path; min bytes = KB × 1024; max bytes = KB × 1024 if KB > 0, else 0; the types are the checked ones |
| FilterDialog.SaveLoadRoundTrip | data-syncer/DataSyncer.WinFormsUI/FormFilters.cs:144-256 | saving, then loading into a fresh dialog, restores every control |
| FilterDialog.SubKilobyteMaximumBecomesUnbounded | data-syncer/DataSyncer.WinFormsUI/FormFilters.cs:164-222 | a stored maximum of 1..1023 bytes loads as 0 KB and saves back as "no maximum" |
| FilterDialog.LargeMinimumStopsLoad | data-syncer/DataSyncer.WinFormsUI/FormFilters.cs:162-188 | a minimum above 1000000 KB raises the range error and loads nothing but the types |
| FilterDialog.NegativeAgeStopsAfterSizes | data-syncer/DataSyncer.WinFormsUI/FormFilters.cs:161-180 | a negative stored age is refused after both sizes are loaded, so the age, the three check boxes and the archive path keep what the dialog showed |
| LogView.LoadLogsFromStorage | data-syncer/DataSyncer.WinFormsUI/FormLogs.cs:190-208 | the view shows all logs, or the chosen day; an empty day falls back to all logs and ticks "all dates" |
| LogView.StorageViewWithinAll | data-syncer/DataSyncer.WinFormsUI/FormLogs.cs:190-208 | whatever the storage view shows is among all stored logs |
| LogView.LoadLogsFromService | data-syncer/DataSyncer.WinFormsUI/FormLogs.cs:142-188 | the reply's data is shown; an empty reply shows nothing; a failure falls back to storage |
| LogView.FilterLogs | data-syncer/DataSyncer.WinFormsUI/FormLogs.cs:215-227 | a blank search shows everything; otherwise exactly the matching entries are shown, as an order-preserving subsequence, each matching entry as often as it occurs in the list and no other entry at all |
| LogView.MatchesSearchesTextFields | data-syncer/DataSyncer.WinFormsUI/FormLogs.cs:219-226 | the search looks only at file name, message, paths, status and protocol: the error message and numbers never change a match, an entry with none of the six matches nothing, and a file name containing the search matches |
| LogView.SearchFindsOwnFileName | data-syncer/DataSyncer.WinFormsUI/FormLogs.cs:219-226 | searching for an entry's own file name finds it |
| LogView.Title | data-syncer/DataSyncer.WinFormsUI/FormLogs.cs:259 | the title starts with "Transfer Logs (", ends with " entries)", and holds only digits between them |
| LogView.TitleCountReadsBack | data-syncer/DataSyncer.WinFormsUI/FormLogs.cs:259 | the number in the title reads back as the number of rows shown |
| LogView.DisplayFileName | data-syncer/DataSyncer.WinFormsUI/FormLogs.cs:232 | the file name when present; otherwise the source path's last component: a separator-free suffix that is the whole path, follows a separator, or follows a drive root (`C:data` shows `data`), and never reaches into a drive root |
| LogView.DriveRelativeSourceShown | data-syncer/DataSyncer.WinFormsUI/FormLogs.cs:232 | a log without a file name whose source is `C:data` shows `data` |
| LogView.DisplayProtocol | data-syncer/DataSyncer.WinFormsUI/FormLogs.cs:233 | a present protocol is shown as it is; a missing one shows "Unknown" |
| LogView.DisplayMessage | data-syncer/DataSyncer.WinFormsUI/FormLogs.cs:244 | the message, else the error message, else "" |
| LogView.RowColour | data-syncer/DataSyncer.WinFormsUI/FormLogs.cs:248-255 | green exactly for "success" in any case, pink exactly for "failed", otherwise uncoloured |
| LogView.StatusesAreColoured | data-syncer/DataSyncer.WinFormsUI/FormLogs.cs:248-255 | both statuses the services write get a colour |
| LogView.DisplayRows | data-syncer/DataSyncer.WinFormsUI/FormLogs.cs:228-257 | one row per shown entry, in order: its timestamp, status, size and duration, its displayed file name, protocol and message, and the status colour |
| LogView.ParseJoinEscaped | data-syncer/DataSyncer.WinFormsUI/FormLogs.cs:383-385 | quoting every field with its quotes doubled gives a line that reads back field by field |
| LogView.CsvFields | data-syncer/DataSyncer.WinFormsUI/FormLogs.cs:378-385 | an exported row has nine values, one per header column in order: timestamp, displayed file name, source, destination, status, displayed protocol, size, duration, displayed message; a missing path or status is empty |
| LogView.CsvLine | data-syncer/DataSyncer.WinFormsUI/FormLogs.cs:383-385 | the line as written (only the message escaped) reads back as the nine values whenever no other value holds a quote |
| LogView.CsvLineIntended | data-syncer/DataSyncer.WinFormsUI/FormLogs.cs:383-385 | the line with every field escaped reads back as the entry's nine values |
| LogView.AsWrittenAgreesWithoutQuotes | data-syncer/DataSyncer.WinFormsUI/FormLogs.cs:383-385 | when only the message may contain quotes, the as-written line equals the escaped line and reads back |
| LogView.QuotedFileNameBreaksExport | data-syncer/DataSyncer.WinFormsUI/FormLogs.cs:383-385 | a file name with an inner quote followed by anything but a quote or a comma makes the as-written line unreadable, while the escaped line reads back |
| LogView.ExportLinesAsWritten | data-syncer/DataSyncer.WinFormsUI/FormLogs.cs:352-399 | the export as written: nothing to export gives "No logs to export."; otherwise the header and one line per entry, which reads back when the entry holds no quote outside its message |
| LogView.ExportLines | data-syncer/DataSyncer.WinFormsUI/FormLogs.cs:352-399 | the corrected export of the fourth finding, every value escaped: "No logs to export." for an empty list, otherwise the header and one line per entry that always reads back |
| LogView.ExportAsWrittenAgrees | data-syncer/DataSyncer.WinFormsUI/FormLogs.cs:383-385 | on entries with no quote outside the message, the written export equals the corrected one |

## Left out

- File and JSON I/O are not modelled: no serialisation, folders, streams or `File.Exists`. Files, directories and listings are inputs given as maps and sequences.
- Network I/O is not modelled. The FluentFTP and SSH.NET clients are oracles: connect and disconnect errors, and the status or exception of each file.
- Clocks and timing are integers: `DateTime.Now`, `Stopwatch`, `Task.Delay` and `TimeSpan` durations. No date or time formatting is modelled, so the exported timestamp is the integer's digits.
- Concurrency is not modelled: async continuations and the locks in both log stores. The single-writer drain is a sequential state machine whose `writing` flag is an input.
- Logger calls, message boxes, the folder browser and every WinForms layout or event wiring are left out.
- The service's `GET_LOGS`/`CLEAR_LOGS` request envelope is left out, along with the named-pipe calls behind it and `LoadLogsAsync`'s choice between the service and storage. So is the viewer's clear button, which only sends that request or deletes files. Only the shape of the service's reply is modelled.
- Quartz scheduling, hosting, `TransferJob` and `Worker` are left out.
- Character classes and casing cover ASCII only. `char.IsWhiteSpace` is approximated by ASCII white space plus U+0085 and U+00A0. `ToLower` and `ToUpper` map ASCII letters only.
- `Path.Combine`, `GetFileName` and `GetExtension` follow the Windows rules for `\`, `/` and drive roots only. `GetFileName` never reaches back into a drive root, so `C:data` gives `data`. UNC and device roots (`\\server\share`, `\\?\`) are treated as ordinary separators, so `GetFileName` of a bare UNC share gives the share name where .NET gives an empty name. `Path.IsPathRooted` is the Windows test: a leading separator or a drive letter followed by a colon.
- Counter overflow is not modelled: transferred and failed counts, and byte sums, are unbounded. Only the timeout multiplication wraps (`Wrap32`).
- `List.Sort` is unstable in .NET. The model sorts with a stable insertion sort, and its contracts state only the order and the multiset, which hold for both.
- `JsonSerializer` is not modelled: a settings document is a whole `AppSettings` value, so the defaults it fills in for missing properties are not modelled.
- LocalTransfer.TransferFiles: the outer `catch` ("Error during local file transfer: …") is not modelled. Every exception a file can raise is caught per file, so nothing the model represents reaches it. Copy durations are oracle values.
- RemoteEngines.FtpTransferFiles: the per-file `TransferTime` is the clock value given, not a measured duration. The text of the exception a missing file raises is written as the .NET `FileNotFoundException` message; `result.Exception` is not modelled.
- UploadServices.SshNetTransferFiles: the constructor's exception is the rejected parameter's name, not the framework's message text. Null host, user name or password cannot occur in the model, so their `ArgumentNullException`s are not modelled. FluentFTP's `FtpClient` constructor is taken to accept every argument.
- RetryPolicy.Execute: the timer maximum is the .NET 6 and later value, 2^32 - 2 ms. Earlier runtimes reject any delay above 2^31 - 1 ms, which is not modelled. Fractions of a millisecond are not modelled either.
- FilterDialog.LoadSettings: the message of the `NumericUpDown` range exception is a fixed stand-in, since its text comes from the framework; only the "Error loading filter settings: " prefix is the dialog's own.

## Findings

| source | as written | input that shows it | evidently intended | confidence | as-written member | corrected member |
|---|---|---|---|---|---|---|
| data-syncer/DataSyncer.WindowsService/Services/SimpleTransferExecutor.cs:135-149 | `IsLocalPath` also accepts every rooted path, so `/upload` counts as local and the protocol is forced to LOCAL | source `C:\data`, destination `/upload`, protocol FTP | only drive-letter and UNC paths are local, so an FTP job to `/upload` stays FTP | medium, not executed | LocalPaths.RemoteDestinationForcedLocal | LocalPaths.IntendedKeepsRemoteDestination |
| data-syncer/DataSyncer.Core/Services/FileTransferService.cs:25-28 | `size > MaxFileSizeBytes` also applies when the maximum is 0, its default | the default `FilterSettings` and a one-byte file: the file is skipped | 0 means "no maximum", as in the filter dialog, so every file passes default filters | high, not executed | SimulatedService.DefaultFiltersDropNonEmptyFile | SimulatedService.IntendedDefaultsKeepEverything |
| data-syncer/DataSyncer.WindowsService/Services/LoggingService.cs:101-108 | the search calls `ToLower()` on `SourcePath` (and on the other paths), which may be null, so `FindAll` throws | an entry logged from a report with no source path, searched with "x" | a null field does not match, as in the log viewer's search | medium, not executed | LoggingService.NullSourceBreaksSearch | LoggingService.NullSafeAgrees |
| data-syncer/DataSyncer.WinFormsUI/FormLogs.cs:383-385 | only the message has its quotes doubled; the file name, paths, status and protocol are quoted as they are | a file name `a"b.txt` (legal on FTP and Unix servers) | every field escaped as section 2 of RFC 4180 requires, so each row reads back as nine fields | medium, not executed | LogView.QuotedFileNameBreaksExport | LogView.ExportLines |

=== FILE: engine_factory.dfy ===
/** `TransferEngineFactory`: chooses the FTP or SFTP engine from the
    protocol string, case-insensitively, and rejects everything else. */
module EngineFactory {
  import opened Wrappers
  import opened Text
  import opened Settings

  /** An engine holds the connection settings it was built with. */
  datatype Engine = FtpEngine(settings: ConnectionSettings) | SftpEngine(settings: ConnectionSettings)

  /** `CreateEngine`: the upper-cased protocol selects the engine; any other
      protocol, "LOCAL" and "" included, throws "Unsupported protocol: …". */
  function CreateEngine(cs: ConnectionSettings): (r: Result<Engine>)
    ensures r.Ok? <==> Upper(cs.protocol) == "FTP" || Upper(cs.protocol) == "SFTP"
    ensures r.Ok? ==> r.value.settings == cs
    ensures r.Ok? ==> (r.value.FtpEngine? <==> Upper(cs.protocol) == "FTP")
    ensures r.Err? ==> r.message == "Unsupported protocol: " + cs.protocol
  {
    var p := Upper(cs.protocol);
    if p == "FTP" then Ok(FtpEngine(cs))
    else if p == "SFTP" then Ok(SftpEngine(cs))
    else Err("Unsupported protocol: " + cs.protocol)
  }

  /** The choice depends on the upper-cased protocol only. */
  lemma ChoiceDependsOnUpperCase(a: ConnectionSettings, b: ConnectionSettings)
    requires Upper(a.protocol) == Upper(b.protocol)
    ensures CreateEngine(a).Ok? == CreateEngine(b).Ok?
    ensures CreateEngine(a).Ok? ==> CreateEngine(a).value.FtpEngine? == CreateEngine(b).value.FtpEngine?
  {
  }

  /** Lower-case and mixed-case spellings are accepted; "LOCAL" and "" are not. */
  lemma ProtocolExamples(cs: ConnectionSettings)
    ensures CreateEngine(cs.(protocol := "ftp")) == Ok(FtpEngine(cs.(protocol := "ftp")))
    ensures CreateEngine(cs.(protocol := "sFtp")) == Ok(SftpEngine(cs.(protocol := "sFtp")))
    ensures CreateEngine(cs.(protocol := "LOCAL")).Err?
    ensures CreateEngine(cs.(protocol := "")).Err?
  {
    assert Upper("ftp") == "FTP";
    assert Upper("sFtp") == "SFTP";
    assert Upper("LOCAL") == "LOCAL";
  }

  /** The default settings' protocol "SFTP" yields the SFTP engine. */
  lemma DefaultProtocolIsSftp()
    ensures CreateEngine(DefaultConnection()) == Ok(SftpEngine(DefaultConnection()))
  {
    assert Upper("SFTP") == "SFTP";
  }
}

=== FILE: executor.dfy ===
/** `SimpleTransferExecutor.ExecuteTransferAsync`: normalises the protocol,
    picks a backend, resolves the source path to a file list and hands it to
    the backend with default filters, logging exactly one transfer report
    whatever happens. The backend's behaviour is an oracle from the
    invocation to its report or the message of the exception it threw. */
module Executor {
  import opened Wrappers
  import opened Text
  import opened Records
  import opened LocalPaths
  import opened ServiceFactory

  const NoFilesMessage: string := "No files found to transfer"

  /** What the executor hands to the chosen backend. */
  datatype Invocation = Invocation(backend: Backend, files: seq<FileItem>, filters: FilterSettings)

  /** The reports given to `LoggingService.LogTransfer`, the backend call, if
      any, and the message of the exception rethrown to the caller, if any. */
  datatype Execution = Execution(logged: seq<TransferReport>, invoked: Option<Invocation>, rethrown: Option<string>)

  /** The source path with surrounding double quotes removed; null becomes "". */
  function TrimmedSource(settings: ServiceConnection): string {
    TrimChar(settings.sourcePath.GetOr(""), '"')
  }

  function SourceNotFound(path: string): string {
    "Source path not found: " + path
  }

  /** The file list of a source path: a directory's top-level files, or the
      single file itself; anything else is an error. Directories win. */
  function ResolveSource(fs: FileSystem, path: string): (r: Result<seq<FileItem>>)
    ensures path in fs.dirs ==> r == Ok(fs.dirs[path])
    ensures path !in fs.dirs && path in fs.files ==>
              r.Ok? && |r.value| == 1
              && r.value[0] == FileItem(fs.files[path].name, path, fs.files[path].length, fs.files[path].lastWriteTime)
    ensures path !in fs.dirs && path !in fs.files ==> r == Err(SourceNotFound(path))
  {
    if path in fs.dirs then Ok(fs.dirs[path])
    else if path in fs.files then
      var st := fs.files[path];
      Ok([FileItem(st.name, path, st.length, st.lastWriteTime)])
    else Err(SourceNotFound(path))
  }

  /** The report logged when the source holds no files. */
  function EmptyReport(settings: ServiceConnection, protocol: ProtocolType, elapsedMs: int): TransferReport {
    NewReport().(sourcePath := Some(TrimmedSource(settings)), destinationPath := settings.destinationPath,
                 protocol := protocol, success := true, errorMessage := Some(NoFilesMessage),
                 durationMs := elapsedMs, fileSize := 0)
  }

  /** The report logged by the `catch` block: the settings' own (untrimmed)
      source and declared protocol. */
  function FailureReport(settings: ServiceConnection, message: string, elapsedMs: int): TransferReport {
    NewReport().(sourcePath := settings.sourcePath, destinationPath := settings.destinationPath,
                 protocol := settings.protocol, success := false,
                 errorMessage := Some("Transfer failed: " + message), durationMs := elapsedMs, fileSize := 0)
  }

  function ExecuteTransfer(settings: ServiceConnection, fs: FileSystem,
                           backendRun: Invocation -> Result<TransferReport>, elapsedMs: int): (e: Execution)
    ensures |e.logged| == 1
    ensures e.rethrown.Some? ==> !e.logged[0].success && e.logged[0] == FailureReport(settings, e.rethrown.value, elapsedMs)
    ensures e.rethrown.None? && e.invoked.None? ==> e.logged[0] == EmptyReport(settings, EffectiveProtocol(settings.protocol, settings.sourcePath, settings.destinationPath), elapsedMs)
    ensures e.invoked.Some? ==>
              && e.invoked.value.filters == DefaultFilters()
              && e.invoked.value.backend == CreateFileTransferService(EffectiveProtocol(settings.protocol, settings.sourcePath, settings.destinationPath))
              && |e.invoked.value.files| > 0
              && ResolveSource(fs, TrimmedSource(settings)) == Ok(e.invoked.value.files)
    ensures e.invoked.Some? && e.rethrown.None? ==> backendRun(e.invoked.value).Ok? && e.logged == [backendRun(e.invoked.value).value]
    ensures e.invoked.Some? && e.rethrown.Some? ==> backendRun(e.invoked.value) == Err(e.rethrown.value)
  {
    var protocol := EffectiveProtocol(settings.protocol, settings.sourcePath, settings.destinationPath);
    var backend := CreateFileTransferService(protocol);
    var source := TrimmedSource(settings);
    match ResolveSource(fs, source)
    case Err(m) => Execution([FailureReport(settings, m, elapsedMs)], None, Some(m))
    case Ok(files) =>
      if |files| == 0 then Execution([EmptyReport(settings, protocol, elapsedMs)], None, None)
      else
        var call := Invocation(backend, files, DefaultFilters());
        match backendRun(call)
        case Err(m) => Execution([FailureReport(settings, m, elapsedMs)], Some(call), Some(m))
        case Ok(report) => Execution([report], Some(call), None)
  }

  /** An empty source directory logs one successful "No files found" report
      of size 0 and never calls the backend. */
  lemma EmptyDirectoryLogsOnce(settings: ServiceConnection, fs: FileSystem,
                               backendRun: Invocation -> Result<TransferReport>, elapsedMs: int)
    requires TrimmedSource(settings) in fs.dirs && fs.dirs[TrimmedSource(settings)] == []
    ensures ExecuteTransfer(settings, fs, backendRun, elapsedMs).invoked.None?
    ensures ExecuteTransfer(settings, fs, backendRun, elapsedMs).rethrown.None?
    ensures var r := ExecuteTransfer(settings, fs, backendRun, elapsedMs).logged[0];
            r.success && r.errorMessage == Some(NoFilesMessage) && r.fileSize == 0
  {
  }

  /** A source that is neither a directory nor a file is logged as a failure
      under the declared protocol, and the exception is rethrown. */
  lemma MissingSourceRethrows(settings: ServiceConnection, fs: FileSystem,
                              backendRun: Invocation -> Result<TransferReport>, elapsedMs: int)
    requires TrimmedSource(settings) !in fs.dirs && TrimmedSource(settings) !in fs.files
    ensures var e := ExecuteTransfer(settings, fs, backendRun, elapsedMs);
            && e.rethrown == Some(SourceNotFound(TrimmedSource(settings)))
            && e.invoked.None?
            && e.logged[0].protocol == settings.protocol
            && e.logged[0].errorMessage == Some("Transfer failed: " + SourceNotFound(TrimmedSource(settings)))
  {
  }

  /** A quoted directory path is resolved without its quotes: the backend
      receives the directory's top-level files. */
  lemma QuotedDirectoryIsListed(settings: ServiceConnection, fs: FileSystem, dir: string,
                                backendRun: Invocation -> Result<TransferReport>, elapsedMs: int)
    requires |dir| > 0 && dir[0] != '"' && dir[|dir| - 1] != '"'
    requires settings.sourcePath == Some("\"" + dir + "\"")
    requires dir in fs.dirs && |fs.dirs[dir]| > 0
    ensures var e := ExecuteTransfer(settings, fs, backendRun, elapsedMs);
            e.invoked.Some? && e.invoked.value.files == fs.dirs[dir]
  {
    TrimCharOfQuoted(dir, '"');
    assert TrimmedSource(settings) == dir;
  }

  /** A single-file source reaches the backend as one item named after the
      file. */
  lemma SingleFileIsOneItem(settings: ServiceConnection, fs: FileSystem,
                            backendRun: Invocation -> Result<TransferReport>, elapsedMs: int)
    requires TrimmedSource(settings) !in fs.dirs && TrimmedSource(settings) in fs.files
    ensures var e := ExecuteTransfer(settings, fs, backendRun, elapsedMs);
            && e.invoked.Some? && |e.invoked.value.files| == 1
            && e.invoked.value.files[0].fullPath == TrimmedSource(settings)
            && e.invoked.value.files[0].fileName == fs.files[TrimmedSource(settings)].name
  {
  }

  /** The backend's own report is logged as it stands when it returns. */
  lemma BackendReportIsLogged(settings: ServiceConnection, fs: FileSystem,
                              backendRun: Invocation -> Result<TransferReport>, elapsedMs: int)
    requires ResolveSource(fs, TrimmedSource(settings)).Ok? && |ResolveSource(fs, TrimmedSource(settings)).value| > 0
    ensures var e := ExecuteTransfer(settings, fs, backendRun, elapsedMs);
            e.invoked.Some? && (backendRun(e.invoked.value).Ok? ==> e.logged == [backendRun(e.invoked.value).value])
  {
  }
}

=== FILE: filter_dialog.dfy ===
/** The filter dialog (`FormFilters`): eight fixed file types, sizes edited
    in KB and stored in bytes, a minimum age, and the archive-path rule on
    save. The dialog's controls are a record; `NumericUpDown` bounds make
    loading an out-of-range value throw, which stops the load part-way. */
module FilterDialog {
  import opened Wrappers
  import opened Records

  const FileTypeChoices: seq<string> := [".txt", ".csv", ".jpg", ".png", ".pdf", ".xml", ".json", ".log"]
  const MaxSizeKb: int := 1000000
  const MaxAgeMinutes: int := 10080
  const ArchivePathRequired: string := "Please specify an archive path when 'Move to Archive' is enabled."
  const LoadErrorPrefix: string := "Error loading filter settings: "
  /** Stands for the message of the `ArgumentOutOfRangeException` that the
      `NumericUpDown.Value` setter throws; its exact text is the framework's
      and is not modelled. */
  const RangeExceptionMessage: string := "Value out of range"
  /** What the dialog shows when a loaded value is out of range. */
  const ValueOutOfRange: string := LoadErrorPrefix + RangeExceptionMessage

  /** The state of the dialog's controls; `checked` holds checked indices. */
  datatype Dialog = Dialog(
    checked: set<nat>,
    minKb: int,
    maxKb: int,
    minAge: int,
    includeSubfolders: bool,
    deleteAfter: bool,
    moveToArchive: bool,
    archivePath: string)

  /** What the controls can hold. */
  predicate WellFormed(d: Dialog) {
    && (forall i | i in d.checked :: i < |FileTypeChoices|)
    && 0 <= d.minKb <= MaxSizeKb
    && 0 <= d.maxKb <= MaxSizeKb
    && 0 <= d.minAge <= MaxAgeMinutes
  }

  /** The controls as `InitializeControls` leaves them. */
  function InitialDialog(): (d: Dialog)
    ensures WellFormed(d)
  {
    Dialog({}, 0, MaxSizeKb, 0, false, false, false, "")
  }

  /** C#'s `long / long` truncates toward zero. */
  function TruncDiv(a: int, b: int): (q: int)
    requires b > 0
    ensures a >= 0 ==> q == a / b
    ensures a < 0 ==> q == -((-a) / b)
  {
    if a >= 0 then a / b else -((-a) / b)
  }

  /** Whole kilobytes survive the trip through bytes. */
  lemma KilobytesRoundTrip(kb: int)
    requires kb >= 0
    ensures TruncDiv(kb * 1024, 1024) == kb
  {
  }

  /** At least `kb` whole kilobytes of bytes are at least `kb` kilobytes. */
  lemma KilobytesLowerBound(bytes: int, kb: int)
    requires kb >= 0 && bytes >= kb * 1024
    ensures TruncDiv(bytes, 1024) >= kb
  {
  }

  /** `Items.IndexOf`: the first position of `x`, if any. */
  function IndexOf(items: seq<string>, x: string): (r: Option<nat>)
    ensures r.Some? ==> r.value < |items| && items[r.value] == x
    ensures r.Some? ==> forall j | 0 <= j < r.value :: items[j] != x
    ensures r.None? ==> x !in items
  {
    if |items| == 0 then None
    else if items[0] == x then Some(0)
    else match IndexOf(items[1..], x)
      case None => None
      case Some(k) => Some(k + 1)
  }

  /** No item occurs twice. */
  predicate Distinct(items: seq<string>) {
    forall i, j | 0 <= i < j < |items| :: items[i] != items[j]
  }

  /** The eight choices are distinct, so each is found at its own index. */
  lemma ChoicesDistinct()
    ensures Distinct(FileTypeChoices)
  {
  }

  /** The type loop of `LoadSettings`: check every stored type found among
      the choices; unknown types are ignored. */
  function CheckTypes(choices: seq<string>, checked: set<nat>, types: seq<string>): (r: set<nat>)
    requires Distinct(choices)
    ensures forall i: nat :: i in r <==> i in checked || (i < |choices| && choices[i] in types)
    decreases |types|
  {
    if |types| == 0 then checked
    else
      var now := match IndexOf(choices, types[0])
                 case None => checked
                 case Some(k) => checked + {k};
      var r := CheckTypes(choices, now, types[1..]);
      assert forall t | t in types :: t == types[0] || t in types[1..];
      r
  }

  /** The outcome of `LoadSettings`: the controls and the error shown, if
      an assignment threw. */
  datatype LoadOutcome = LoadOutcome(dialog: Dialog, error: Option<string>)

  function LoadSettings(d: Dialog, stored: Option<FilterSettings>): (o: LoadOutcome)
    ensures stored.None? ==> o == LoadOutcome(d, None)
    ensures stored.Some? ==> o.dialog.checked == CheckTypes(FileTypeChoices, d.checked, stored.value.includeFileTypes)
    ensures stored.Some? && o.error.None? ==>
              && o.dialog.minKb == TruncDiv(stored.value.minFileSizeBytes, 1024)
              && o.dialog.maxKb == (if stored.value.maxFileSizeBytes > 0
                                    then (if TruncDiv(stored.value.maxFileSizeBytes, 1024) < MaxSizeKb
                                          then TruncDiv(stored.value.maxFileSizeBytes, 1024) else MaxSizeKb)
                                    else 0)
              && o.dialog.minAge == stored.value.minAgeMinutes
              && o.dialog.includeSubfolders == stored.value.includeSubfolders
              && o.dialog.deleteAfter == stored.value.deleteAfterTransfer
              && o.dialog.moveToArchive == stored.value.moveToArchiveAfterTransfer
              && o.dialog.archivePath == stored.value.archivePath
    ensures stored.Some? ==>
              (o.error.Some? <==>
                 !(0 <= TruncDiv(stored.value.minFileSizeBytes, 1024) <= MaxSizeKb)
                 || !(0 <= stored.value.minAgeMinutes <= MaxAgeMinutes))
    ensures stored.Some? && !(0 <= TruncDiv(stored.value.minFileSizeBytes, 1024) <= MaxSizeKb) ==>
              o.dialog == d.(checked := CheckTypes(FileTypeChoices, d.checked, stored.value.includeFileTypes))
    ensures stored.Some? && 0 <= TruncDiv(stored.value.minFileSizeBytes, 1024) <= MaxSizeKb
            && !(0 <= stored.value.minAgeMinutes <= MaxAgeMinutes) ==>
              o.dialog == d.(checked := CheckTypes(FileTypeChoices, d.checked, stored.value.includeFileTypes),
                             minKb := TruncDiv(stored.value.minFileSizeBytes, 1024),
                             maxKb := if stored.value.maxFileSizeBytes > 0
                                      then (if TruncDiv(stored.value.maxFileSizeBytes, 1024) < MaxSizeKb
                                            then TruncDiv(stored.value.maxFileSizeBytes, 1024) else MaxSizeKb)
                                      else 0)
    ensures WellFormed(d) ==> WellFormed(o.dialog)
  {
    ChoicesDistinct();
    match stored
    case None => LoadOutcome(d, None)
    case Some(s) =>
      var d1 := d.(checked := CheckTypes(FileTypeChoices, d.checked, s.includeFileTypes));
      var minKb := TruncDiv(s.minFileSizeBytes, 1024);
      if !(0 <= minKb <= MaxSizeKb) then LoadOutcome(d1, Some(ValueOutOfRange))
      else
        var q := TruncDiv(s.maxFileSizeBytes, 1024);
        var d2 := d1.(minKb := minKb, maxKb := if s.maxFileSizeBytes > 0 then (if q < MaxSizeKb then q else MaxSizeKb) else 0);
        if !(0 <= s.minAgeMinutes <= MaxAgeMinutes) then LoadOutcome(d2, Some(ValueOutOfRange))
        else
          LoadOutcome(d2.(minAge := s.minAgeMinutes, includeSubfolders := s.includeSubfolders,
                          deleteAfter := s.deleteAfterTransfer, moveToArchive := s.moveToArchiveAfterTransfer,
                          archivePath := s.archivePath), None)
  }

  /** The type loop of `BtnSave_Click`: the checked choices in index order. */
  function CheckedFrom(choices: seq<string>, checked: set<nat>, i: nat): (r: seq<string>)
    requires i <= |choices|
    requires Distinct(choices)
    ensures forall k | 0 <= k < |r| :: r[k] in choices[i..]
    ensures forall j | i <= j < |choices| :: choices[j] in r <==> j in checked
    decreases |choices| - i
  {
    if i == |choices| then []
    else
      var head := if i in checked then [choices[i]] else [];
      var r := head + CheckedFrom(choices, checked, i + 1);
      assert forall j | i < j < |choices| :: choices[j] !in head;
      assert choices[i] !in choices[i + 1..];
      assert forall k | 0 <= k < |r| :: r[k] in choices[i..] by {
        assert forall x | x in choices[i + 1..] :: x in choices[i..];
      }
      r
  }

  /** `types` names exactly the checked choices and nothing else. */
  predicate SelectsChecked(choices: seq<string>, types: seq<string>, checked: set<nat>) {
    && (forall k | 0 <= k < |types| :: types[k] in choices)
    && (forall j | 0 <= j < |choices| :: choices[j] in types <==> j in checked)
  }

  /** The saved type list: every checked choice, in index order. */
  function SavedTypes(choices: seq<string>, checked: set<nat>): (types: seq<string>)
    requires Distinct(choices)
    ensures SelectsChecked(choices, types, checked)
  {
    assert choices[0..] == choices;
    CheckedFrom(choices, checked, 0)
  }

  /** Checking the saved types of a set of checked boxes checks exactly
      those boxes again. */
  lemma CheckSavedTypes(choices: seq<string>, checked: set<nat>)
    requires Distinct(choices)
    requires forall i | i in checked :: i < |choices|
    ensures CheckTypes(choices, {}, SavedTypes(choices, checked)) == checked
  {
  }

  /** `BtnSave_Click`: KB become bytes, a maximum of 0 KB stays 0 ("no
      maximum"), and an archive move without a path is refused. */
  function SaveSettings(d: Dialog): (r: Result<FilterSettings>)
    requires WellFormed(d)
    ensures r.Err? <==> d.moveToArchive && d.archivePath == ""
    ensures r.Err? ==> r.message == ArchivePathRequired
    ensures r.Ok? ==>
              && r.value.minFileSizeBytes == d.minKb * 1024
              && (d.maxKb > 0 ==> r.value.maxFileSizeBytes == d.maxKb * 1024)
              && (d.maxKb == 0 ==> r.value.maxFileSizeBytes == 0)
              && r.value.minAgeMinutes == d.minAge
              && SelectsChecked(FileTypeChoices, r.value.includeFileTypes, d.checked)
  {
    ChoicesDistinct();
    var types := SavedTypes(FileTypeChoices, d.checked);
    var s := FilterSettings(types, d.minKb * 1024,
                            if d.maxKb > 0 then d.maxKb * 1024 else 0, d.includeSubfolders, d.minAge,
                            d.deleteAfter, d.moveToArchive, d.archivePath);
    if s.moveToArchiveAfterTransfer && s.archivePath == "" then Err(ArchivePathRequired) else Ok(s)
  }

  /** Saving, then loading into a fresh dialog, restores every control. */
  lemma SaveLoadRoundTrip(d: Dialog)
    requires WellFormed(d)
    requires !(d.moveToArchive && d.archivePath == "")
    ensures LoadSettings(InitialDialog(), Some(SaveSettings(d).value)) == LoadOutcome(d, None)
  {
    var s := SaveSettings(d).value;
    var o := LoadSettings(InitialDialog(), Some(s));
    assert TruncDiv(s.minFileSizeBytes, 1024) == d.minKb by {
      KilobytesRoundTrip(d.minKb);
    }
    assert o.error.None?;
    assert o.dialog.maxKb == d.maxKb by {
      KilobytesRoundTrip(d.maxKb);
    }
    assert o.dialog.checked == d.checked by {
      ChoicesDistinct();
      CheckSavedTypes(FileTypeChoices, d.checked);
    }
  }

  /** A stored maximum below 1 KB loads as 0 KB, which the dialog saves back
      as "no maximum". */
  lemma SubKilobyteMaximumBecomesUnbounded(bytes: int)
    requires 0 < bytes < 1024
    ensures var o := LoadSettings(InitialDialog(), Some(DefaultFilters().(maxFileSizeBytes := bytes)));
            o.error.None? && o.dialog.maxKb == 0 && SaveSettings(o.dialog).Ok?
            && SaveSettings(o.dialog).value.maxFileSizeBytes == 0
  {
  }

  /** A stored minimum above 1000000 KB makes the load stop after the file
      types: nothing else is loaded. */
  lemma LargeMinimumStopsLoad(d: Dialog, s: FilterSettings)
    requires s.minFileSizeBytes >= (MaxSizeKb + 1) * 1024
    ensures var o := LoadSettings(d, Some(s));
            o.error == Some(ValueOutOfRange) && o.dialog == d.(checked := CheckTypes(FileTypeChoices, d.checked, s.includeFileTypes))
  {
    KilobytesLowerBound(s.minFileSizeBytes, MaxSizeKb + 1);
  }

  /** A negative stored age stops the load after the sizes: the age, the
      check boxes and the archive path keep what the dialog showed. */
  lemma NegativeAgeStopsAfterSizes(d: Dialog, s: FilterSettings)
    requires 0 <= s.minFileSizeBytes < 1024 && s.maxFileSizeBytes == 0 && s.minAgeMinutes < 0
    ensures var o := LoadSettings(d, Some(s));
            && o.error == Some(ValueOutOfRange)
            && o.dialog.minKb == 0 && o.dialog.maxKb == 0
            && o.dialog.minAge == d.minAge && o.dialog.includeSubfolders == d.includeSubfolders
            && o.dialog.deleteAfter == d.deleteAfter && o.dialog.moveToArchive == d.moveToArchive
            && o.dialog.archivePath == d.archivePath
  {
    assert TruncDiv(s.minFileSizeBytes, 1024) == 0;
  }
}

=== FILE: local_paths.dfy ===
/** Local-path detection and protocol normalisation of the transfer executor:
    a job whose source and destination both look like local paths runs as a
    LOCAL transfer whatever protocol it declares. */
module LocalPaths {
  import opened Wrappers
  import opened Text
  import opened Paths
  import opened Records

  /** The path with surrounding white space, then surrounding quotes, removed. */
  function CleanPath(p: string): string {
    TrimChar(Trim(p), '"')
  }

  /** A drive-letter root such as `C:\` or `C:/`. */
  predicate DriveShape(c: string) {
    |c| >= 3 && IsLetter(c[0]) && c[1] == ':' && IsDirectorySeparator(c[2])
  }

  /** A UNC path such as `\\server\share`. */
  predicate UncShape(c: string) {
    StartsWith(c, "\\\\")
  }

  /** `IsLocalPath` as written: a drive-letter root, a UNC prefix, or any path
      `Path.IsPathRooted` accepts. Both shapes are rooted, so only the last
      test decides. */
  function IsLocalPath(path: Option<string>): (local: bool)
    ensures local <==> path.Some? && |path.value| > 0 && IsPathRooted(CleanPath(path.value))
  {
    match path
    case None => false
    case Some(p) =>
      |p| > 0 && (var c := CleanPath(p); ShapesAreRooted(c); DriveShape(c) || UncShape(c) || IsPathRooted(c))
  }

  /** Null and empty paths are never local. */
  lemma NullOrEmptyIsNotLocal(path: Option<string>)
    requires path.None? || path.value == ""
    ensures !IsLocalPath(path)
  {
  }

  /** Both string shapes make a path local, and apart from them exactly the
      rooted paths are local. */
  lemma IsLocalPathShapes(p: string)
    requires |p| > 0
    ensures DriveShape(CleanPath(p)) ==> IsLocalPath(Some(p))
    ensures UncShape(CleanPath(p)) ==> IsLocalPath(Some(p))
    ensures IsLocalPath(Some(p)) <==> IsPathRooted(CleanPath(p))
  {
    ShapesAreRooted(CleanPath(p));
  }

  lemma ShapesAreRooted(c: string)
    ensures DriveShape(c) ==> IsPathRooted(c)
    ensures UncShape(c) ==> IsPathRooted(c)
  {
    if |c| >= 2 {
      assert c[..2][0] == c[0];
    }
  }

  /** A path with no surrounding white space or quotes is already clean. */
  lemma CleanPathOfClean(c: string)
    requires |c| > 0
    requires !IsWhiteSpace(c[0]) && !IsWhiteSpace(c[|c| - 1])
    requires c[0] != '"' && c[|c| - 1] != '"'
    ensures CleanPath(c) == c
  {
    TrimUntouched(c);
    TrimCharUntouched(c, '"');
  }

  /** The protocol the executor runs with: LOCAL when both paths are local
      (or LOCAL was declared), the declared protocol otherwise. */
  function EffectiveProtocol(declared: ProtocolType, source: Option<string>, destination: Option<string>): (r: ProtocolType)
    ensures r == LOCAL <==> declared == LOCAL || (IsLocalPath(source) && IsLocalPath(destination))
    ensures r != LOCAL ==> r == declared
  {
    if declared != LOCAL && IsLocalPath(source) && IsLocalPath(destination) then LOCAL else declared
  }

  /** Because every rooted path counts as local, a job from a local folder
      to a Unix-style remote directory such as "/upload" is run as a LOCAL
      copy, whatever protocol it declares. */
  lemma RemoteDestinationForcedLocal(declared: ProtocolType, source: Option<string>, d: string)
    requires IsLocalPath(source)
    requires |d| > 0 && d[0] == '/' && !IsWhiteSpace(d[|d| - 1]) && d[|d| - 1] != '"'
    ensures EffectiveProtocol(declared, source, Some(d)) == LOCAL
  {
    CleanRootedIsLocal(d);
  }

  lemma CleanRootedIsLocal(p: string)
    requires |p| > 0 && IsPathRooted(p)
    requires !IsWhiteSpace(p[0]) && !IsWhiteSpace(p[|p| - 1])
    requires p[0] != '"' && p[|p| - 1] != '"'
    ensures IsLocalPath(Some(p))
  {
    CleanPathOfClean(p);
  }

  /** Local-path detection as its comment describes it: a drive-letter root
      or a UNC prefix, nothing else. */
  predicate IsLocalPathIntended(path: Option<string>) {
    match path
    case None => false
    case Some(p) => |p| > 0 && (var c := CleanPath(p); DriveShape(c) || UncShape(c))
  }

  function EffectiveProtocolIntended(declared: ProtocolType, source: Option<string>, destination: Option<string>): (r: ProtocolType)
    ensures r == LOCAL <==> declared == LOCAL || (IsLocalPathIntended(source) && IsLocalPathIntended(destination))
    ensures r != LOCAL ==> r == declared
  {
    if declared != LOCAL && IsLocalPathIntended(source) && IsLocalPathIntended(destination) then LOCAL else declared
  }

  /** With the intended detection a destination written as a Unix-style
      absolute path never turns a job local, and detection only ever narrows
      what the written code accepts. */
  lemma IntendedKeepsRemoteDestination(declared: ProtocolType, source: Option<string>, d: string)
    requires |CleanPath(d)| > 0 && CleanPath(d)[0] == '/'
    ensures EffectiveProtocolIntended(declared, source, Some(d)) == declared
    ensures IsLocalPathIntended(Some(d)) ==> IsLocalPath(Some(d))
  {
    SlashIsNoShape(CleanPath(d));
  }

  lemma SlashIsNoShape(c: string)
    requires |c| > 0 && c[0] == '/'
    ensures !DriveShape(c) && !UncShape(c)
  {
    if |c| >= 2 {
      assert c[..2][0] == c[0];
    }
  }
}

=== FILE: local_transfer.dfy ===
/** `LocalFileTransfer`: the local-copy backend. The file system is observed
    through a `FileSystem` snapshot; whether creating a directory, copying a
    file or probing write access throws is given by oracle parameters. */
module LocalTransfer {
  import opened Wrappers
  import opened Text
  import opened Paths
  import opened Seqs
  import opened Records

  const CopiedMessage: string := "File copied successfully"
  const LocalName: string := "LOCAL"

  /** What happened when one file was sized and copied: the copy's duration,
      or the message of the exception that interrupted it. */
  datatype CopyOutcome = Copied(durationMs: int) | CopyFailed(message: string)

  /** `FileInfo.Length` of a file that does not exist throws with this
      message; the copy is then never attempted. */
  function MissingFileMessage(path: string): string {
    "Could not find file '" + path + "'."
  }

  /** The outcome of the per-file `try`: sizing the source first, then the
      copy the oracle decides. */
  function CopyFile(fs: FileSystem, f: FileItem, copy: FileItem -> CopyOutcome): (o: CopyOutcome)
    ensures f.fullPath !in fs.files ==> o == CopyFailed(MissingFileMessage(f.fullPath))
    ensures f.fullPath in fs.files ==> o == copy(f)
  {
    if f.fullPath !in fs.files then CopyFailed(MissingFileMessage(f.fullPath)) else copy(f)
  }

  /** The entry logged for one file. */
  function FileEntry(fs: FileSystem, destDir: string, f: FileItem, copy: FileItem -> CopyOutcome, now: int): (e: TransferLog)
    ensures e.fileName == Some(f.fileName) && e.sourcePath == Some(f.fullPath)
    ensures e.destinationPath == Some(Combine(destDir, f.fileName))
    ensures e.protocol == Some(LocalName)
    ensures e.status == Some(StatusSuccess) <==> CopyFile(fs, f, copy).Copied?
    ensures e.status == Some(StatusSuccess) || e.status == Some(StatusFailed)
    ensures e.status == Some(StatusSuccess) ==> e.fileSize == fs.files[f.fullPath].length
    ensures e.status == Some(StatusFailed) ==>
              e.durationMs == 0 && e.errorMessage.Some? && e.message == e.errorMessage
  {
    var dest := Combine(destDir, f.fileName);
    match CopyFile(fs, f, copy)
    case Copied(d) =>
      TransferLog(now, Some(f.fileName), Some(f.fullPath), Some(dest), Some(StatusSuccess),
                  Some(CopiedMessage), None, fs.files[f.fullPath].length, d, Some(LocalName))
    case CopyFailed(m) =>
      TransferLog(now, Some(f.fileName), Some(f.fullPath), Some(dest), Some(StatusFailed),
                  Some(m), Some(m), 0, 0, Some(LocalName))
  }

  /** The per-file loop: one entry per file, in order, whatever the earlier
      files did. */
  function CopyLoop(fs: FileSystem, destDir: string, files: seq<FileItem>, copy: FileItem -> CopyOutcome, now: int): (logs: seq<TransferLog>)
    ensures |logs| == |files|
    ensures forall i | 0 <= i < |files| :: logs[i] == FileEntry(fs, destDir, files[i], copy, now)
  {
    if |files| == 0 then []
    else [FileEntry(fs, destDir, files[0], copy, now)] + CopyLoop(fs, destDir, files[1..], copy, now)
  }

  /** `TransferFilesAsync`. `createDirError` is the message of the exception
      `Directory.CreateDirectory` throws for the destination, if any. */
  function TransferFiles(files: seq<FileItem>, conn: ServiceConnection, fs: FileSystem,
                         createDirError: Option<string>, copy: FileItem -> CopyOutcome,
                         now: int, elapsedMs: int): (r: TransferReport)
    ensures r.protocol == LOCAL
    ensures r.sourcePath == Some(conn.sourcePath.GetOr(""))
    ensures r.destinationPath == Some(conn.destinationPath.GetOr(""))
    ensures var destDir := conn.destinationPath.GetOr("");
            if destDir !in fs.dirs && createDirError.Some? then
              && !r.success && r.logs == [] && r.durationMs == 0
              && r.errorMessage == Some("Failed to create destination directory: " + createDirError.value)
            else
              && r.success && r.errorMessage.None? && r.durationMs == elapsedMs
              && |r.logs| == |files|
              && (forall i | 0 <= i < |files| ::
                    && r.logs[i].fileName == Some(files[i].fileName)
                    && r.logs[i].destinationPath == Some(Combine(destDir, files[i].fileName))
                    && r.logs[i].protocol == Some(LocalName)
                    && (r.logs[i].status == Some(StatusSuccess) <==> CopyFile(fs, files[i], copy).Copied?))
  {
    var destDir := conn.destinationPath.GetOr("");
    var start := NewReport().(success := true, sourcePath := Some(conn.sourcePath.GetOr("")),
                              destinationPath := Some(destDir), protocol := LOCAL);
    if destDir !in fs.dirs && createDirError.Some? then
      start.(success := false, errorMessage := Some("Failed to create destination directory: " + createDirError.value))
    else
      start.(logs := CopyLoop(fs, destDir, files, copy, now), durationMs := elapsedMs)
  }

  /** Failed copies never clear the overall success flag: only the
      destination directory decides it. */
  lemma SuccessIgnoresFileFailures(files: seq<FileItem>, conn: ServiceConnection, fs: FileSystem,
                                   createDirError: Option<string>, a: FileItem -> CopyOutcome,
                                   b: FileItem -> CopyOutcome, now: int, elapsedMs: int)
    ensures TransferFiles(files, conn, fs, createDirError, a, now, elapsedMs).success
            == TransferFiles(files, conn, fs, createDirError, b, now, elapsedMs).success
  {
  }

  /** The number of failed entries equals the number of files whose copy
      failed. */
  lemma {:induction false} FailedEntriesCount(fs: FileSystem, destDir: string, files: seq<FileItem>,
                                               copy: FileItem -> CopyOutcome, now: int)
    ensures Count(CopyLoop(fs, destDir, files, copy, now), (e: TransferLog) => e.status == Some(StatusFailed))
            == Count(files, (f: FileItem) => CopyFile(fs, f, copy).CopyFailed?)
  {
    var isFailed := (e: TransferLog) => e.status == Some(StatusFailed);
    var fails := (f: FileItem) => CopyFile(fs, f, copy).CopyFailed?;
    if |files| > 0 {
      var logs := CopyLoop(fs, destDir, files, copy, now);
      FailedEntriesCount(fs, destDir, files[1..], copy, now);
      assert logs == [logs[0]] + CopyLoop(fs, destDir, files[1..], copy, now);
      assert isFailed(logs[0]) == fails(files[0]);
      CountCons(logs, isFailed);
      CountCons(files, fails);
    }
  }

  // ---------------------------------------------------------------------------
  // TransferFileAsync
  // ---------------------------------------------------------------------------

  /** The copy target: a destination that is an existing directory or ends in
      a separator gets the source's file name appended. */
  function CopyTarget(fs: FileSystem, sourcePath: string, destinationPath: string): (t: string)
    ensures (destinationPath in fs.dirs || EndsWith(destinationPath, "\\") || EndsWith(destinationPath, "/"))
            ==> t == Combine(destinationPath, GetFileName(sourcePath))
    ensures !(destinationPath in fs.dirs || EndsWith(destinationPath, "\\") || EndsWith(destinationPath, "/"))
            ==> t == destinationPath
  {
    if destinationPath in fs.dirs || EndsWith(destinationPath, "\\") || EndsWith(destinationPath, "/") then
      Combine(destinationPath, GetFileName(sourcePath))
    else destinationPath
  }

  /** A drive-relative source copied into a directory path keeps only the
      name after the drive: `C:a.txt` into `D:\out\` targets `D:\out\a.txt`. */
  lemma CopyDriveRelativeSource(fs: FileSystem)
    ensures CopyTarget(fs, "C:a.txt", "D:\\out\\") == "D:\\out\\a.txt"
  {
    assert HasNoSeparator("C:a.txt");
    DriveRelativeFileName("C:a.txt");
    assert "C:a.txt"[2..] == "a.txt";
    var dir := "D:\\out\\";
    assert EndsWith(dir, "\\") by {
      assert dir[|dir| - 1..] == "\\";
    }
    assert !IsPathRooted("a.txt");
    assert Combine(dir, "a.txt") == dir + "a.txt";
    assert dir + "a.txt" == "D:\\out\\a.txt";
  }

  /** Whether a single copy happened and, if it was attempted, to where.
      `copyOk` says whether creating the target's directory and copying to
      the target complete without an exception. */
  datatype SingleCopy = SingleCopy(copied: bool, target: Option<string>)

  function TransferFile(fs: FileSystem, sourcePath: string, destinationPath: string, copyOk: string -> bool): (r: SingleCopy)
    ensures sourcePath !in fs.files ==> !r.copied && r.target.None?
    ensures sourcePath in fs.files ==> r.target == Some(CopyTarget(fs, sourcePath, destinationPath))
    ensures r.copied <==> sourcePath in fs.files && copyOk(CopyTarget(fs, sourcePath, destinationPath))
  {
    if sourcePath !in fs.files then SingleCopy(false, None)
    else
      var target := CopyTarget(fs, sourcePath, destinationPath);
      SingleCopy(copyOk(target), Some(target))
  }

  /** Copying `folder\name` into a directory path keeps the source's file
      name. */
  lemma CopyIntoDirectoryKeepsName(fs: FileSystem, folder: string, name: string, dir: string)
    requires |dir| > 0 && IsDirectorySeparator(dir[|dir| - 1])
    requires |folder| == 0 || IsDirectorySeparator(folder[|folder| - 1])
    requires |name| > 0 && HasNoSeparator(name) && !IsPathRooted(name)
    ensures CopyTarget(fs, folder + name, dir) == dir + name
  {
    FileNameOfJoined(folder, name);
    assert EndsWith(dir, "\\") || EndsWith(dir, "/") by {
      assert dir[|dir| - 1..] == [dir[|dir| - 1]];
    }
    assert Combine(dir, name) == dir + name;
  }

  // ---------------------------------------------------------------------------
  // TestConnectionAsync
  // ---------------------------------------------------------------------------

  /** The oracles of a connection test: whether listing the source, creating
      (and removing) a missing destination, and writing a probe file into an
      existing destination complete without an exception. */
  datatype Probes = Probes(sourceListable: bool, destCreatable: bool, destWritable: bool)

  function TestConnection(conn: ServiceConnection, fs: FileSystem, probes: Probes): (ok: bool)
    ensures AllWhiteSpace(conn.sourcePath.GetOr("")) ==> !ok
    ensures conn.sourcePath.GetOr("") !in fs.dirs ==> !ok
    ensures AllWhiteSpace(conn.destinationPath.GetOr("")) ==> !ok
    ensures ok ==> probes.sourceListable
    ensures ok ==> (if conn.destinationPath.GetOr("") in fs.dirs then probes.destWritable else probes.destCreatable)
    ensures ok <==> (&& !AllWhiteSpace(conn.sourcePath.GetOr("")) && conn.sourcePath.GetOr("") in fs.dirs
                     && probes.sourceListable && !AllWhiteSpace(conn.destinationPath.GetOr(""))
                     && (if conn.destinationPath.GetOr("") in fs.dirs then probes.destWritable
                         else probes.destCreatable))
  {
    var source := conn.sourcePath.GetOr("");
    var dest := conn.destinationPath.GetOr("");
    if AllWhiteSpace(source) then false
    else if source !in fs.dirs then false
    else if !probes.sourceListable then false
    else if AllWhiteSpace(dest) then false
    else if dest !in fs.dirs then probes.destCreatable
    else probes.destWritable
  }

  /** A single-file source never passes the test, even though the executor
      accepts one. */
  lemma SingleFileSourceFailsTest(conn: ServiceConnection, fs: FileSystem, probes: Probes)
    requires conn.sourcePath.Some? && conn.sourcePath.value in fs.files && conn.sourcePath.value !in fs.dirs
    ensures !TestConnection(conn, fs, probes)
  {
  }

  /** Only one destination probe is consulted: writing into an existing
      destination, or creating a missing one. */
  lemma TestUsesOneDestinationProbe(conn: ServiceConnection, fs: FileSystem, probes: Probes, other: bool)
    ensures conn.destinationPath.GetOr("") in fs.dirs ==>
              TestConnection(conn, fs, probes.(destCreatable := other)) == TestConnection(conn, fs, probes)
    ensures conn.destinationPath.GetOr("") !in fs.dirs ==>
              TestConnection(conn, fs, probes.(destWritable := other)) == TestConnection(conn, fs, probes)
  {
  }
}

=== FILE: log_view.dfy ===
/** The log viewer (`FormLogs`): where its list comes from, the search box,
    the grid rows and the CSV export. Timestamps stay integers (the grid's
    `yyyy-MM-dd HH:mm:ss` and the export's culture format are not modelled),
    and the export's text is checked against a reader of quoted CSV fields. */
module LogView {
  import opened Wrappers
  import opened Text
  import opened Paths
  import opened Seqs
  import opened Records
  import TransferLogManager

  // ---------------------------------------------------------------------------
  // Loading (LoadLogsFromServiceAsync, LoadLogsFromStorage)
  // ---------------------------------------------------------------------------

  /** The list shown and the state of the "all dates" box afterwards. */
  datatype StorageView = StorageView(logs: seq<TransferLog>, allDates: bool)

  /** `LoadLogsFromStorage`: all days, or the chosen day; an empty day falls
      back to all days and ticks the box. */
  function LoadLogsFromStorage(s: TransferLogManager.DayStore, listing: seq<string>, allDates: bool,
                               date: TransferLogManager.Date): (v: StorageView)
    ensures allDates ==> v == StorageView(TransferLogManager.GetAllLogs(s, listing), true)
    ensures !allDates && |TransferLogManager.GetLogs(s, date)| > 0 ==>
              v == StorageView(TransferLogManager.GetLogs(s, date), false)
    ensures !allDates && |TransferLogManager.GetLogs(s, date)| == 0 ==>
              v == StorageView(TransferLogManager.GetAllLogs(s, listing), true)
  {
    if allDates then StorageView(TransferLogManager.GetAllLogs(s, listing), true)
    else
      var day := TransferLogManager.GetLogs(s, date);
      if |day| == 0 then StorageView(TransferLogManager.GetAllLogs(s, listing), true)
      else StorageView(day, false)
  }

  /** Whatever the storage view shows is among all stored entries, and it is
      empty only when there is nothing stored at all. */
  lemma StorageViewWithinAll(s: TransferLogManager.DayStore, listing: seq<string>, allDates: bool,
                             date: TransferLogManager.Date, k: nat)
    requires TransferLogManager.ListsFolder(s, listing)
    requires k < |LoadLogsFromStorage(s, listing, allDates, date).logs|
    ensures LoadLogsFromStorage(s, listing, allDates, date).logs[k] in TransferLogManager.GetAllLogs(s, listing)
  {
    if !allDates && |TransferLogManager.GetLogs(s, date)| > 0 {
      TransferLogManager.DayLogsAppearInAll(s, listing, date, k);
    }
  }

  /** What the service sent back for `GET_LOGS`: nothing, a reply without a
      `Data` list (or a null one), the list, or an exception. */
  datatype ServiceReply = NoReply | NoData | Data(logs: seq<TransferLog>) | Failed(message: string)

  /** `LoadLogsFromServiceAsync`: an exception falls back to local storage. */
  function LoadLogsFromService(reply: ServiceReply, fallback: StorageView): (logs: seq<TransferLog>)
    ensures reply.Failed? ==> logs == fallback.logs
    ensures reply.Data? ==> logs == reply.logs
    ensures reply.NoReply? || reply.NoData? ==> logs == []
  {
    match reply
    case NoReply => []
    case NoData => []
    case Data(logs) => logs
    case Failed(_) => fallback.logs
  }

  // ---------------------------------------------------------------------------
  // Search (DisplayFilteredLogs)
  // ---------------------------------------------------------------------------

  /** `field?.ToLower().Contains(search) ?? false`. */
  predicate FieldMatches(field: Option<string>, search: string) {
    field.Some? && Contains(Lower(field.value), search)
  }

  /** The viewer's search: file name, message, paths, status or protocol;
      a missing field never matches. */
  predicate Matches(log: TransferLog, search: string) {
    || FieldMatches(log.fileName, search)
    || FieldMatches(log.message, search)
    || FieldMatches(log.sourcePath, search)
    || FieldMatches(log.destinationPath, search)
    || FieldMatches(log.status, search)
    || FieldMatches(log.protocol, search)
  }

  function Shown(search: string): TransferLog -> bool {
    log => Matches(log, search)
  }

  /** The rows shown for the search text: every entry when it is blank,
      otherwise the matching entries in their original order. */
  function FilterLogs(all: seq<TransferLog>, text: string): (shown: seq<TransferLog>)
    ensures AllWhiteSpace(text) ==> shown == all
    ensures IsSubsequence(shown, all)
    ensures !AllWhiteSpace(text) ==> forall k | 0 <= k < |shown| :: Matches(shown[k], Lower(text))
    ensures forall i | 0 <= i < |all| :: Matches(all[i], Lower(text)) ==> all[i] in shown
    ensures !AllWhiteSpace(text) ==>
              forall x | x in all :: multiset(shown)[x] == if Matches(x, Lower(text)) then multiset(all)[x] else 0
  {
    if AllWhiteSpace(text) then
      SubsequenceOfSelf(all);
      all
    else
      FilterIsSubsequence(all, Shown(Lower(text)));
      FilterCountAll(all, Shown(Lower(text)));
      Filter(all, Shown(Lower(text)))
  }

  lemma {:induction false} SubsequenceOfSelf<T>(s: seq<T>)
    ensures IsSubsequence(s, s)
  {
    if |s| > 0 {
      SubsequenceOfSelf(s[1..]);
    }
  }

  /** Typing an entry's own file name into the search box finds it. */
  lemma SearchFindsOwnFileName(all: seq<TransferLog>, i: nat)
    requires i < |all| && all[i].fileName.Some?
    requires !AllWhiteSpace(all[i].fileName.value)
    ensures all[i] in FilterLogs(all, all[i].fileName.value)
  {
    ContainsSelf(Lower(all[i].fileName.value));
  }

  const TitlePrefix: string := "Transfer Logs ("
  const TitleSuffix: string := " entries)"

  /** The form's title after filtering. */
  function Title(count: nat): (t: string)
    ensures |t| == |TitlePrefix| + |NatToString(count)| + |TitleSuffix|
    ensures t[..|TitlePrefix|] == TitlePrefix && t[|t| - |TitleSuffix|..] == TitleSuffix
    ensures forall j | |TitlePrefix| <= j < |t| - |TitleSuffix| :: IsDigit(t[j])
  {
    TitlePrefix + NatToString(count) + TitleSuffix
  }

  /** The count in the title reads back as the number of rows shown. */
  lemma TitleCountReadsBack(all: seq<TransferLog>, text: string)
    ensures var t := Title(|FilterLogs(all, text)|);
            && (forall j | |TitlePrefix| <= j < |t| - |TitleSuffix| :: IsDigit(t[j]))
            && ParseNat(t[|TitlePrefix|..|t| - |TitleSuffix|]) == |FilterLogs(all, text)|
  {
    var n := |FilterLogs(all, text)|;
    var t := Title(n);
    assert t[|TitlePrefix|..|t| - |TitleSuffix|] == NatToString(n);
    ParseNatToString(n);
  }

  // ---------------------------------------------------------------------------
  // Grid rows
  // ---------------------------------------------------------------------------

  datatype Colour = LightGreen | LightPink | Plain

  /** A grid row: time, name, status, duration, size, protocol, message and
      background colour. */
  datatype Row = Row(timestamp: int, fileName: string, status: Option<string>, durationMs: int,
                     fileSize: int, protocol: string, message: string, colour: Colour)

  /** `FileName ?? Path.GetFileName(SourcePath ?? "")`. */
  function DisplayFileName(log: TransferLog): (name: string)
    ensures log.fileName.Some? ==> name == log.fileName.value
    ensures log.fileName.None? ==> HasNoSeparator(name) && EndsWith(log.sourcePath.GetOr(""), name)
    ensures log.fileName.None? && HasDriveRoot(log.sourcePath.GetOr("")) ==>
              |name| <= |log.sourcePath.GetOr("")| - 2
    ensures log.fileName.None? ==>
              var source := log.sourcePath.GetOr("");
              name == source || IsDirectorySeparator(source[|source| - |name| - 1])
              || (HasDriveRoot(source) && |name| == |source| - 2)
  {
    match log.fileName
    case Some(n) => n
    case None => GetFileName(log.sourcePath.GetOr(""))
  }

  /** A log with no file name and the drive-relative source `C:data` shows
      `data`. */
  lemma DriveRelativeSourceShown(log: TransferLog)
    requires log.fileName.None? && log.sourcePath == Some("C:data")
    ensures DisplayFileName(log) == "data"
  {
    assert HasNoSeparator("C:data");
    DriveRelativeFileName("C:data");
    assert "C:data"[2..] == "data";
  }

  /** `Protocol ?? "Unknown"`. */
  function DisplayProtocol(log: TransferLog): (p: string)
    ensures log.protocol.Some? ==> p == log.protocol.value
    ensures log.protocol.None? ==> p == "Unknown"
    ensures log.protocol.None? <==> p == "Unknown" && log.protocol != Some("Unknown")
  {
    log.protocol.GetOr("Unknown")
  }

  /** `Message ?? ErrorMessage ?? ""`. */
  function DisplayMessage(log: TransferLog): (m: string)
    ensures log.message.Some? ==> m == log.message.value
    ensures log.message.None? && log.errorMessage.Some? ==> m == log.errorMessage.value
    ensures log.message.None? && log.errorMessage.None? ==> m == ""
  {
    match log.message
    case Some(m) => m
    case None => log.errorMessage.GetOr("")
  }

  /** The background by status, compared case-insensitively. */
  function RowColour(status: Option<string>): (c: Colour)
    ensures c == LightGreen <==> status.Some? && Lower(status.value) == "success"
    ensures c == LightPink <==> status.Some? && Lower(status.value) == "failed"
  {
    if status.Some? && Lower(status.value) == "success" then LightGreen
    else if status.Some? && Lower(status.value) == "failed" then LightPink
    else Plain
  }

  /** The statuses the services write are both coloured. */
  lemma StatusesAreColoured()
    ensures RowColour(Some(StatusSuccess)) == LightGreen
    ensures RowColour(Some(StatusFailed)) == LightPink
  {
    assert Lower(StatusSuccess) == "success";
    assert Lower(StatusFailed) == "failed";
  }

  function ToRow(log: TransferLog): Row {
    Row(log.timestamp, DisplayFileName(log), log.status, log.durationMs, log.fileSize,
        DisplayProtocol(log), DisplayMessage(log), RowColour(log.status))
  }

  /** The grid: one row per shown entry, in order. */
  function DisplayRows(all: seq<TransferLog>, text: string): (rows: seq<Row>)
    ensures |rows| == |FilterLogs(all, text)|
    ensures forall k | 0 <= k < |rows| ::
              && rows[k].timestamp == FilterLogs(all, text)[k].timestamp
              && rows[k].status == FilterLogs(all, text)[k].status
              && rows[k].colour == RowColour(FilterLogs(all, text)[k].status)
              && rows[k].fileName == DisplayFileName(FilterLogs(all, text)[k])
              && rows[k].protocol == DisplayProtocol(FilterLogs(all, text)[k])
              && rows[k].message == DisplayMessage(FilterLogs(all, text)[k])
              && rows[k].fileSize == FilterLogs(all, text)[k].fileSize
              && rows[k].durationMs == FilterLogs(all, text)[k].durationMs
  {
    Map(FilterLogs(all, text), ToRow)
  }

  // ---------------------------------------------------------------------------
  // CSV export (BtnExport_Click)
  // ---------------------------------------------------------------------------

  const NoLogsMessage: string := "No logs to export."
  const CsvHeader: string := "Timestamp,Filename,Source,Destination,Status,Protocol,Size,Duration,Message"

  /** `Replace("\"", "\"\"")`: every double quote doubled. */
  function EscapeQuotes(s: string): (r: string)
    decreases |s|
  {
    if |s| == 0 then []
    else
      assert s == [s[0]] + s[1..];
      (if s[0] == '"' then "\"\"" else [s[0]]) + EscapeQuotes(s[1..])
  }

  /** Reads the body of one quoted field, the opening quote already
      consumed: a doubled quote is one quote, a single quote ends the
      field. Yields the field and what follows its closing quote. */
  function ReadQuoted(s: string): (r: Option<(string, string)>)
    ensures r.Some? ==> |r.value.1| < |s|
    decreases |s|
  {
    if |s| == 0 then None
    else if s[0] == '"' then
      if |s| >= 2 && s[1] == '"' then
        match ReadQuoted(s[2..])
        case None => None
        case Some((f, rest)) => Some(("\"" + f, rest))
      else Some(("", s[1..]))
    else
      match ReadQuoted(s[1..])
      case None => None
      case Some((f, rest)) => Some(([s[0]] + f, rest))
  }

  /** Reads a line of comma-separated quoted fields. */
  function ParseFields(s: string): (r: Option<seq<string>>)
    ensures r.Some? ==> |r.value| > 0
    decreases |s|
  {
    if |s| == 0 || s[0] != '"' then None
    else
      match ReadQuoted(s[1..])
      case None => None
      case Some((f, rest)) =>
        if |rest| == 0 then Some([f])
        else if rest[0] != ',' then None
        else
          match ParseFields(rest[1..])
          case None => None
          case Some(fs) => Some([f] + fs)
  }

  /** Each cell in double quotes, separated by commas. */
  function JoinQuoted(cells: seq<string>): string {
    if |cells| == 0 then ""
    else if |cells| == 1 then "\"" + cells[0] + "\""
    else "\"" + cells[0] + "\"," + JoinQuoted(cells[1..])
  }

  /** A single quote closes the field. */
  lemma ReadQuotedCloses(s: string, rest: string)
    requires s == "\"" + rest
    requires |rest| == 0 || rest[0] != '"'
    ensures ReadQuoted(s) == Some(("", rest))
  {
    assert s[1..] == rest;
  }

  /** A doubled quote reads as one quote. */
  lemma ReadQuotedPair(s: string, t: string, f: string, rest: string)
    requires s == "\"\"" + t
    requires ReadQuoted(t) == Some((f, rest))
    ensures ReadQuoted(s) == Some(("\"" + f, rest))
  {
    assert s[2..] == t;
  }

  /** Any other character is copied. */
  lemma ReadQuotedChar(s: string, c: char, t: string, f: string, rest: string)
    requires s == [c] + t
    requires c != '"' && ReadQuoted(t) == Some((f, rest))
    ensures ReadQuoted(s) == Some(([c] + f, rest))
  {
    assert s[1..] == t;
  }

  /** A string without double quotes is its own escape. */
  lemma {:induction false} EscapeWithoutQuotes(s: string)
    requires '"' !in s
    ensures EscapeQuotes(s) == s
    decreases |s|
  {
    if |s| > 0 {
      EscapeWithoutQuotes(s[1..]);
      assert [s[0]] + s[1..] == s;
    }
  }

  /** Escaping works one character at a time. */
  lemma EscapeCons(m: string)
    requires |m| > 0
    ensures EscapeQuotes(m) == (if m[0] == '"' then "\"\"" else [m[0]]) + EscapeQuotes(m[1..])
  {
  }

  /** One step of `ReadEscaped` for a leading quote, which is doubled. */
  lemma ReadEscapedQuote(m: string, rest: string)
    requires |m| > 0 && m[0] == '"'
    requires ReadQuoted(EscapeQuotes(m[1..]) + "\"" + rest) == Some((m[1..], rest))
    ensures ReadQuoted(EscapeQuotes(m) + "\"" + rest) == Some((m, rest))
  {
    var tail := EscapeQuotes(m[1..]) + "\"" + rest;
    EscapeCons(m);
    ReadQuotedPair(EscapeQuotes(m) + "\"" + rest, tail, m[1..], rest);
    assert "\"" + m[1..] == m;
  }

  /** One step of `ReadEscaped` for any other leading character. */
  lemma ReadEscapedOther(m: string, rest: string)
    requires |m| > 0 && m[0] != '"'
    requires ReadQuoted(EscapeQuotes(m[1..]) + "\"" + rest) == Some((m[1..], rest))
    ensures ReadQuoted(EscapeQuotes(m) + "\"" + rest) == Some((m, rest))
  {
    var tail := EscapeQuotes(m[1..]) + "\"" + rest;
    EscapeCons(m);
    ReadQuotedChar(EscapeQuotes(m) + "\"" + rest, m[0], tail, m[1..], rest);
    assert [m[0]] + m[1..] == m;
  }

  /** An escaped field followed by its closing quote reads back exactly. */
  lemma {:induction false} ReadEscaped(m: string, rest: string)
    requires |rest| == 0 || rest[0] != '"'
    ensures ReadQuoted(EscapeQuotes(m) + "\"" + rest) == Some((m, rest))
    decreases |m|
  {
    if |m| == 0 {
      ReadQuotedCloses(EscapeQuotes(m) + "\"" + rest, rest);
    } else {
      ReadEscaped(m[1..], rest);
      if m[0] == '"' {
        ReadEscapedQuote(m, rest);
      } else {
        ReadEscapedOther(m, rest);
      }
    }
  }

  /** A line that is one quoted field. */
  lemma ParseFieldsLast(s: string, body: string, f: string)
    requires s == "\"" + body && ReadQuoted(body) == Some((f, ""))
    ensures ParseFields(s) == Some([f])
  {
    assert s[1..] == body;
  }

  /** A quoted field followed by a comma and a readable line. */
  lemma ParseFieldsNext(s: string, body: string, f: string, more: string, fs: seq<string>)
    requires s == "\"" + body && ReadQuoted(body) == Some((f, "," + more))
    requires ParseFields(more) == Some(fs)
    ensures ParseFields(s) == Some([f] + fs)
  {
    assert s[1..] == body;
    assert ("," + more)[1..] == more;
  }

  /** A quoted field followed by anything but a comma or the end. */
  lemma ParseFieldsStuck(s: string, body: string, f: string, rest: string)
    requires s == "\"" + body && ReadQuoted(body) == Some((f, rest))
    requires |rest| > 0 && rest[0] != ','
    ensures ParseFields(s) == None
  {
    assert s[1..] == body;
  }

  /** A quoted field followed by a comma and an unreadable line. */
  lemma ParseFieldsFailsLater(s: string, body: string, f: string, more: string)
    requires s == "\"" + body && ReadQuoted(body) == Some((f, "," + more))
    requires ParseFields(more) == None
    ensures ParseFields(s) == None
  {
    assert s[1..] == body;
    assert ("," + more)[1..] == more;
  }

  /** The first cell of a joined line, and what follows it. */
  lemma JoinQuotedCons(cells: seq<string>)
    requires |cells| > 1
    ensures JoinQuoted(cells) == "\"" + cells[0] + "\"" + ("," + JoinQuoted(cells[1..]))
  {
  }

  /** A line of one escaped field reads back. */
  lemma ParseJoinOne(s: string, f: string)
    requires s == JoinQuoted([EscapeQuotes(f)])
    ensures ParseFields(s) == Some([f])
  {
    ReadEscaped(f, "");
    var body := EscapeQuotes(f) + "\"" + "";
    assert s == "\"" + body;
    ParseFieldsLast(s, body, f);
  }

  /** A quoted cell and what follows it, regrouped behind the opening quote. */
  lemma QuotedBody(s: string, cell: string, rest: string)
    requires s == "\"" + cell + "\"" + rest
    ensures s == "\"" + (cell + "\"" + rest)
  {
  }

  /** An escaped field put in front of a readable line reads back in front
      of its fields. */
  lemma ParseJoinStep(s: string, f: string, more: string, fs: seq<string>)
    requires s == "\"" + EscapeQuotes(f) + "\"" + ("," + more)
    requires ParseFields(more) == Some(fs)
    ensures ParseFields(s) == Some([f] + fs)
  {
    var rest := "," + more;
    ReadEscaped(f, rest);
    var body := EscapeQuotes(f) + "\"" + rest;
    QuotedBody(s, EscapeQuotes(f), rest);
    ParseFieldsNext(s, body, f, more, fs);
  }

  /** Quoting every escaped field makes a line that reads back field by
      field. */
  lemma {:induction false} ParseJoinEscaped(fields: seq<string>)
    requires |fields| > 0
    ensures ParseFields(JoinQuoted(Map(fields, EscapeQuotes))) == Some(fields)
    decreases |fields|
  {
    var cells := Map(fields, EscapeQuotes);
    if |fields| == 1 {
      assert cells == [EscapeQuotes(fields[0])];
      ParseJoinOne(JoinQuoted(cells), fields[0]);
      assert [fields[0]] == fields;
    } else {
      assert cells[1..] == Map(fields[1..], EscapeQuotes);
      ParseJoinEscaped(fields[1..]);
      JoinQuotedCons(cells);
      ParseJoinStep(JoinQuoted(cells), fields[0], JoinQuoted(cells[1..]), fields[1..]);
      assert [fields[0]] + fields[1..] == fields;
    }
  }

  /** The nine values written for an entry, before quoting. */
  function CsvFields(log: TransferLog): (f: seq<string>)
    ensures |f| == 9
    ensures f[0] == IntToString(log.timestamp)         // Timestamp
    ensures f[1] == DisplayFileName(log)               // Filename
    ensures f[2] == log.sourcePath.GetOr("")           // Source
    ensures f[3] == log.destinationPath.GetOr("")      // Destination
    ensures f[4] == log.status.GetOr("")               // Status
    ensures f[5] == DisplayProtocol(log)               // Protocol
    ensures f[6] == IntToString(log.fileSize)          // Size
    ensures f[7] == IntToString(log.durationMs)        // Duration
    ensures f[8] == DisplayMessage(log)                // Message
  {
    [IntToString(log.timestamp), DisplayFileName(log), log.sourcePath.GetOr(""),
     log.destinationPath.GetOr(""), log.status.GetOr(""), DisplayProtocol(log),
     IntToString(log.fileSize), IntToString(log.durationMs), DisplayMessage(log)]
  }

  /** The line as the export writes it: only the message has its quotes
      doubled, so the line reads back when no other value holds a quote. */
  function CsvLine(log: TransferLog): (line: string)
    ensures (forall i | 0 <= i < 8 :: '"' !in CsvFields(log)[i]) ==> ParseFields(line) == Some(CsvFields(log))
  {
    var f := CsvFields(log);
    if forall i | 0 <= i < 8 :: '"' !in f[i] then
      EscapeOnlyMessage(f);
      ParseJoinEscaped(f);
      JoinQuoted(f[..8] + [EscapeQuotes(f[8])])
    else
      JoinQuoted(f[..8] + [EscapeQuotes(f[8])])
  }

  /** Escaping only the last of nine values escapes them all when the first
      eight hold no quote. */
  lemma EscapeOnlyMessage(f: seq<string>)
    requires |f| == 9
    requires forall i | 0 <= i < 8 :: '"' !in f[i]
    ensures f[..8] + [EscapeQuotes(f[8])] == Map(f, EscapeQuotes)
  {
    forall i | 0 <= i < 8
      ensures EscapeQuotes(f[i]) == f[i]
    {
      EscapeWithoutQuotes(f[i]);
    }
  }

  /** The viewer searches the six text fields only: the error message and
      the numbers never make an entry match, and an entry without any of
      the six fields matches nothing. */
  lemma MatchesSearchesTextFields(log: TransferLog, search: string, e: Option<string>, t: int, n: int, d: int)
    ensures Matches(log.(errorMessage := e, timestamp := t, fileSize := n, durationMs := d), search) == Matches(log, search)
    ensures (&& log.fileName.None? && log.message.None? && log.sourcePath.None?
             && log.destinationPath.None? && log.status.None? && log.protocol.None?) ==> !Matches(log, search)
    ensures log.fileName.Some? && Contains(Lower(log.fileName.value), search) ==> Matches(log, search)
  {
  }

  /** The line with every field escaped. */
  function CsvLineIntended(log: TransferLog): (line: string)
    ensures ParseFields(line) == Some(CsvFields(log))
  {
    ParseJoinEscaped(CsvFields(log));
    JoinQuoted(Map(CsvFields(log), EscapeQuotes))
  }

  /** When no field but the message holds a double quote, the written line
      is the escaped one, so it reads back. */
  lemma AsWrittenAgreesWithoutQuotes(log: TransferLog)
    requires forall i | 0 <= i < 8 :: '"' !in CsvFields(log)[i]
    ensures CsvLine(log) == CsvLineIntended(log)
    ensures ParseFields(CsvLine(log)) == Some(CsvFields(log))
  {
    EscapeOnlyMessage(CsvFields(log));
  }

  lemma IntToStringHasNoQuote(n: int)
    ensures '"' !in IntToString(n)
  {
    var r := IntToString(n);
    if n >= 0 {
      assert forall i | 0 <= i < |r| :: IsDigit(r[i]);
    } else {
      assert r == "-" + NatToString(-n);
      assert forall i | 1 <= i < |r| :: IsDigit(r[i]);
    }
  }

  /** A field with an unescaped inner quote, followed by anything but a
      comma or a quote, stops the reader. */
  lemma InnerQuoteStops(line: string, x: string, y: string, rest: string)
    requires '"' !in x && |y| > 0 && y[0] != '"' && y[0] != ','
    requires line == "\"" + (x + "\"" + (y + rest))
    ensures ParseFields(line) == None
  {
    var tail := y + rest;
    EscapeWithoutQuotes(x);
    ReadEscaped(x, tail);
    var body := EscapeQuotes(x) + "\"" + tail;
    assert line == "\"" + body;
    ParseFieldsStuck(line, body, x, tail);
  }

  /** A quote-free field in front of an unreadable line leaves it unreadable. */
  lemma PlainFieldThenFailure(line: string, f: string, more: string)
    requires '"' !in f
    requires line == "\"" + f + "\"" + ("," + more)
    requires ParseFields(more) == None
    ensures ParseFields(line) == None
  {
    var body := f + "\"" + ("," + more);
    assert ReadQuoted(body) == Some((f, "," + more)) by {
      EscapeWithoutQuotes(f);
      ReadEscaped(f, "," + more);
    }
    assert line == "\"" + body;
    ParseFieldsFailsLater(line, body, f, more);
  }

  /** A file name holding a double quote that is followed by anything but a
      comma or another quote makes the written line unreadable, while the
      escaped line reads back. */
  lemma QuotedFileNameBreaksExport(log: TransferLog, x: string, y: string)
    requires '"' !in x && |y| > 0 && y[0] != '"' && y[0] != ','
    requires log.fileName == Some(x + "\"" + y)
    ensures ParseFields(CsvLine(log)) == None
    ensures ParseFields(CsvLineIntended(log)) == Some(CsvFields(log))
  {
    var f := CsvFields(log);
    var cells := f[..8] + [EscapeQuotes(f[8])];
    var more := JoinQuoted(cells[1..]);
    var after := JoinQuoted(cells[1..][1..]);
    JoinQuotedCons(cells);
    JoinQuotedCons(cells[1..]);
    assert cells[1..][0] == x + "\"" + y;
    assert more == "\"" + (x + "\"" + (y + ("\"" + ("," + after))));
    InnerQuoteStops(more, x, y, "\"" + ("," + after));
    IntToStringHasNoQuote(log.timestamp);
    PlainFieldThenFailure(CsvLine(log), f[0], more);
  }

  /** `BtnExport_Click` with every field escaped: nothing to export is a
      message; otherwise the header and one line per entry of the whole
      list (the search does not narrow the export). */
  function ExportLines(all: seq<TransferLog>): (r: Result<seq<string>>)
    ensures r.Err? <==> |all| == 0
    ensures r.Err? ==> r.message == NoLogsMessage
    ensures r.Ok? ==> |r.value| == |all| + 1 && r.value[0] == CsvHeader
    ensures r.Ok? ==> forall i | 0 <= i < |all| :: ParseFields(r.value[i + 1]) == Some(CsvFields(all[i]))
  {
    if |all| == 0 then Err(NoLogsMessage)
    else Ok([CsvHeader] + Map(all, CsvLineIntended))
  }

  /** `BtnExport_Click` as written: the same header and one line per entry,
      each written by `CsvLine`; a line reads back whenever its entry holds
      no quote outside the message. */
  function ExportLinesAsWritten(all: seq<TransferLog>): (r: Result<seq<string>>)
    ensures r.Err? <==> |all| == 0
    ensures r.Err? ==> r.message == NoLogsMessage
    ensures r.Ok? ==> |r.value| == |all| + 1 && r.value[0] == CsvHeader
    ensures r.Ok? ==> forall i | 0 <= i < |all| ::
              (forall j | 0 <= j < 8 :: '"' !in CsvFields(all[i])[j]) ==> ParseFields(r.value[i + 1]) == Some(CsvFields(all[i]))
  {
    if |all| == 0 then Err(NoLogsMessage)
    else Ok([CsvHeader] + Map(all, CsvLine))
  }

  /** The written export and the corrected one agree on every list whose
      entries hold no quote outside their messages. */
  lemma ExportAsWrittenAgrees(all: seq<TransferLog>)
    requires forall i | 0 <= i < |all| :: forall j | 0 <= j < 8 :: '"' !in CsvFields(all[i])[j]
    ensures ExportLinesAsWritten(all) == ExportLines(all)
  {
    forall i | 0 <= i < |all|
      ensures CsvLine(all[i]) == CsvLineIntended(all[i])
    {
      AsWrittenAgreesWithoutQuotes(all[i]);
    }
    assert Map(all, CsvLine) == Map(all, CsvLineIntended);
  }
}

=== FILE: logging_service.dfy ===
/** The Windows service's `LoggingService`: one JSON file holding a list of
    transfer-log entries, a queue of entries waiting to be written, and a flag
    that keeps a second writer out. The lock and the fire-and-forget task are
    modelled as a sequential state machine; whether writing the file throws
    is an oracle parameter. */
module LoggingService {
  import opened Wrappers
  import opened Text
  import opened Seqs
  import opened Records

  /** The log file as `GetAllLogs` finds it: missing, unreadable or not a
      JSON list, the JSON document `null`, or a list of entries. */
  datatype LogFile = Missing | Unreadable | NullDocument | Stored(entries: seq<TransferLog>)

  /** The service's state: the file, the pending queue (front first) and the
      writing flag. */
  datatype LogService = LogService(file: LogFile, pending: seq<TransferLog>, writing: bool)

  /** Construction: the file is created as "[]" when missing. */
  function NewService(file: LogFile): (s: LogService)
    ensures s.pending == [] && !s.writing
    ensures file.Missing? ==> s.file == Stored([])
    ensures !file.Missing? ==> s.file == file
  {
    LogService(if file.Missing? then Stored([]) else file, [], false)
  }

  /** `GetAllLogs`: the stored list, or empty whenever there is none. */
  function GetAllLogs(file: LogFile): (logs: seq<TransferLog>)
    ensures !file.Stored? ==> logs == []
    ensures file.Stored? ==> logs == file.entries
  {
    match file
    case Stored(entries) => entries
    case _ => []
  }

  // ---------------------------------------------------------------------------
  // LogTransfer and the single-writer drain
  // ---------------------------------------------------------------------------

  /** The entry `LogTransfer` builds from a report. File name and message
      are left unset. */
  function ToLogEntry(report: TransferReport, now: int): (e: TransferLog)
    ensures e.timestamp == now
    ensures e.status == Some(StatusSuccess) <==> report.success
    ensures e.status == Some(StatusFailed) <==> !report.success
    ensures e.sourcePath == report.sourcePath && e.destinationPath == report.destinationPath
    ensures e.fileSize == report.fileSize && e.durationMs == report.durationMs
    ensures e.errorMessage == report.errorMessage
    ensures e.protocol == Some(ProtocolName(report.protocol))
    ensures e.fileName.None? && e.message.None?
  {
    TransferLog(now, None, report.sourcePath, report.destinationPath,
                Some(if report.success then StatusSuccess else StatusFailed),
                None, report.errorMessage, report.fileSize, report.durationMs,
                Some(ProtocolName(report.protocol)))
  }

  function Enqueue(s: LogService, e: TransferLog): (t: LogService)
    ensures t.pending == s.pending + [e]
    ensures t.file == s.file && t.writing == s.writing
  {
    s.(pending := s.pending + [e])
  }

  /** The guard at the top of `WritePendingLogsAsync`: a drain starts only
      when none is running, and then raises the flag. */
  function TryBeginDrain(s: LogService): (r: (LogService, bool))
    ensures s.writing ==> r == (s, false)
    ensures !s.writing ==> r.1 && r.0 == s.(writing := true)
  {
    if s.writing then (s, false) else (s.(writing := true), true)
  }

  /** One pass of the drain loop body on a dequeued entry: read the file,
      append, write back. A failed write drops the entry. */
  function WriteOne(file: LogFile, e: TransferLog, writable: bool): (f: LogFile)
    ensures writable ==> f == Stored(GetAllLogs(file) + [e])
    ensures !writable ==> f == file
  {
    if writable then Stored(GetAllLogs(file) + [e]) else file
  }

  /** The entries of `queue` whose write succeeds, in order: `ok(i)` says
      whether writing `queue[i]` completes. Each write is caught on its own,
      so a failure drops that entry only. */
  function Written(queue: seq<TransferLog>, ok: nat -> bool): (w: seq<TransferLog>)
    ensures |w| <= |queue|
  {
    if |queue| == 0 then []
    else Written(queue[..|queue| - 1], ok) + (if ok(|queue| - 1) then [queue[|queue| - 1]] else [])
  }

  /** When every write completes, every entry is written. */
  lemma {:induction false} WrittenAll(queue: seq<TransferLog>, ok: nat -> bool)
    requires forall i: nat | i < |queue| :: ok(i)
    ensures Written(queue, ok) == queue
  {
    if |queue| > 0 {
      WrittenAll(queue[..|queue| - 1], ok);
      assert queue[..|queue| - 1] + [queue[|queue| - 1]] == queue;
    }
  }

  /** When no write completes, nothing is written. */
  lemma {:induction false} WrittenNone(queue: seq<TransferLog>, ok: nat -> bool)
    requires forall i: nat | i < |queue| :: !ok(i)
    ensures Written(queue, ok) == []
  {
    if |queue| > 0 {
      WrittenNone(queue[..|queue| - 1], ok);
    }
  }

  /** The file after draining `queue` into `file`: untouched when no write
      completed, otherwise the readable list followed by the written
      entries. */
  function Drained(file: LogFile, queue: seq<TransferLog>, ok: nat -> bool): (f: LogFile)
    ensures GetAllLogs(f) == GetAllLogs(file) + Written(queue, ok)
    ensures Written(queue, ok) == [] ==> f == file
  {
    var w := Written(queue, ok);
    if |w| == 0 then file else Stored(GetAllLogs(file) + w)
  }

  /** Draining one more entry is one more `WriteOne`. */
  lemma DrainedStep(file: LogFile, queue: seq<TransferLog>, k: nat, ok: nat -> bool)
    requires k < |queue|
    ensures Drained(file, queue[..k + 1], ok) == WriteOne(Drained(file, queue[..k], ok), queue[k], ok(k))
  {
    assert queue[..k + 1][..k] == queue[..k];
  }

  /** `WritePendingLogsAsync`: a drain started while another is running
      changes nothing; otherwise the pending entries are written in FIFO
      order, each one whose write completes appended to the stored list,
      and the drain ends with an empty queue and the flag cleared. */
  method WritePendingLogs(s: LogService, ok: nat -> bool) returns (t: LogService)
    ensures s.writing ==> t == s
    ensures !s.writing ==> t == LogService(Drained(s.file, s.pending, ok), [], false)
  {
    var started: bool;
    t, started := TryBeginDrain(s).0, TryBeginDrain(s).1;
    if !started {
      return;
    }
    var k := 0;
    while |t.pending| > 0
      invariant 0 <= k <= |s.pending|
      invariant t.pending == s.pending[k..]
      invariant t.writing
      invariant t.file == Drained(s.file, s.pending[..k], ok)
      decreases |t.pending|
    {
      var e := t.pending[0];
      DrainedStep(s.file, s.pending, k, ok);
      t := t.(pending := t.pending[1..], file := WriteOne(t.file, e, ok(k)));
      k := k + 1;
    }
    assert s.pending[..k] == s.pending;
    t := t.(writing := false);
  }

  /** `LogTransfer`: enqueue one entry, then trigger a drain. While another
      drain is running the entry only waits in the queue. */
  method LogTransfer(s: LogService, report: TransferReport, now: int, ok: nat -> bool) returns (t: LogService)
    ensures s.writing ==> t == s.(pending := s.pending + [ToLogEntry(report, now)])
    ensures !s.writing ==> t.pending == [] && !t.writing
    ensures !s.writing ==>
              GetAllLogs(t.file) == GetAllLogs(s.file) + Written(s.pending + [ToLogEntry(report, now)], ok)
    ensures !s.writing && (forall i: nat | i <= |s.pending| :: ok(i)) ==>
              t.file == Stored(GetAllLogs(s.file) + s.pending + [ToLogEntry(report, now)])
    ensures (forall i: nat | i <= |s.pending| :: !ok(i)) ==> t.file == s.file
  {
    var entry := ToLogEntry(report, now);
    t := Enqueue(s, entry);
    t := WritePendingLogs(t, ok);
    if !s.writing && forall i: nat | i <= |s.pending| :: ok(i) {
      WrittenAll(s.pending + [entry], ok);
    }
    if forall i: nat | i <= |s.pending| :: !ok(i) {
      WrittenNone(s.pending + [entry], ok);
    }
  }

  /** Two transfers logged from an idle service whose writes complete end
      up at the end of the stored list in the order they were logged. */
  method LogTwice(s: LogService, a: TransferReport, b: TransferReport, now1: int, now2: int) returns (t: LogService)
    requires !s.writing && s.pending == []
    ensures GetAllLogs(t.file) == GetAllLogs(s.file) + [ToLogEntry(a, now1), ToLogEntry(b, now2)]
    ensures !t.writing && t.pending == []
  {
    var m := LogTransfer(s, a, now1, _ => true);
    t := LogTransfer(m, b, now2, _ => true);
    assert GetAllLogs(s.file) + [ToLogEntry(a, now1)] + [ToLogEntry(b, now2)]
           == GetAllLogs(s.file) + [ToLogEntry(a, now1), ToLogEntry(b, now2)];
  }

  /** A write that fails in the middle of a drain drops only its own entry:
      the entries before and after it are still appended. */
  lemma {:induction false} FailedWriteDropsOnlyItsEntry(file: LogFile, a: TransferLog, b: TransferLog, c: TransferLog, ok: nat -> bool)
    requires ok(0) && !ok(1) && ok(2)
    ensures Drained(file, [a, b, c], ok) == Stored(GetAllLogs(file) + [a, c])
  {
    var q := [a, b, c];
    assert q[..2][..1] == [a];
    assert q[..1][..0] == [];
    assert Written(q[..1], ok) == [a];
    assert Written(q[..2], ok) == [a];
    assert q[..2] == [a, b];
    assert Written(q, ok) == [a, c];
  }

  /** An unreadable file is replaced, not repaired: the next drain writes a
      list holding only the queued entries. */
  lemma UnreadableFileIsReplaced(s: LogService, e: TransferLog, ok: nat -> bool)
    requires s.file.Unreadable? && ok(0)
    ensures Drained(s.file, [e], ok) == Stored([e])
  {
    assert [e][..0] == [];
  }

  /** `ClearLogs`: writes "[]"; a failed write leaves the file as it was. */
  function ClearLogs(s: LogService, writable: bool): (t: LogService)
    ensures writable ==> GetAllLogs(t.file) == [] && t.file.Stored?
    ensures !writable ==> t == s
    ensures t.pending == s.pending && t.writing == s.writing
  {
    if writable then s.(file := Stored([])) else s
  }

  // ---------------------------------------------------------------------------
  // GetLogs
  // ---------------------------------------------------------------------------

  const NullReference: string := "Object reference not set to an instance of an object."
  const RangeOutOfBounds: string := "Specified argument was out of the range of valid values."

  function LowerContains(field: string, filter: string): bool {
    Contains(Lower(field), filter)
  }

  /** The null-safe reading of the search predicate: a missing field never
      matches. */
  predicate MatchesNullSafe(log: TransferLog, filter: string) {
    || (log.sourcePath.Some? && LowerContains(log.sourcePath.value, filter))
    || (log.destinationPath.Some? && LowerContains(log.destinationPath.value, filter))
    || (log.status.Some? && LowerContains(log.status.value, filter))
    || (log.protocol.Some? && LowerContains(log.protocol.value, filter))
    || (log.errorMessage.Some? && LowerContains(log.errorMessage.value, filter))
  }

  function Matcher(filter: string): TransferLog -> bool {
    log => MatchesNullSafe(log, filter)
  }

  /** The `FindAll` predicate as written: the disjuncts are evaluated left to
      right, and dereferencing a null source, destination, status or
      protocol before a match throws. Only the error message is null-checked. */
  function MatchAsWritten(log: TransferLog, filter: string): (r: Result<bool>)
    ensures r.Ok? ==> r.value == MatchesNullSafe(log, filter)
    ensures log.sourcePath.Some? && log.destinationPath.Some? && log.status.Some? && log.protocol.Some? ==> r.Ok?
    ensures log.sourcePath.None? ==> r.Err?
  {
    if log.sourcePath.None? then Err(NullReference)
    else if LowerContains(log.sourcePath.value, filter) then Ok(true)
    else if log.destinationPath.None? then Err(NullReference)
    else if LowerContains(log.destinationPath.value, filter) then Ok(true)
    else if log.status.None? then Err(NullReference)
    else if LowerContains(log.status.value, filter) then Ok(true)
    else if log.protocol.None? then Err(NullReference)
    else if LowerContains(log.protocol.value, filter) then Ok(true)
    else Ok(log.errorMessage.Some? && LowerContains(log.errorMessage.value, filter))
  }

  /** `List.FindAll` with the as-written predicate: the first throwing entry
      aborts the whole search. */
  function FindAllAsWritten(logs: seq<TransferLog>, filter: string): (r: Result<seq<TransferLog>>)
    ensures r.Ok? <==> forall i | 0 <= i < |logs| :: MatchAsWritten(logs[i], filter).Ok?
    ensures r.Ok? ==> r.value == Filter(logs, Matcher(filter))
  {
    if |logs| == 0 then Ok([])
    else
      var head := logs[0];
      match MatchAsWritten(head, filter)
      case Err(m) => Err(m)
      case Ok(keep) =>
        match FindAllAsWritten(logs[1..], filter)
        case Err(m) => Err(m)
        case Ok(rest) =>
          assert Matcher(filter)(head) == keep;
          assert forall i | 1 <= i < |logs| :: logs[i] == logs[1..][i - 1];
          Ok((if keep then [head] else []) + rest)
  }

  function Timestamp(log: TransferLog): int {
    log.timestamp
  }

  /** Sorting newest first, then truncating (`GetRange` throws for a
      negative count). */
  function NewestFirst(logs: seq<TransferLog>, maxResults: int): (r: Result<seq<TransferLog>>)
    ensures maxResults < 0 <==> r.Err?
    ensures r.Ok? ==>
              && SortedDesc(r.value, Timestamp)
              && |r.value| == (if |logs| <= maxResults then |logs| else maxResults)
              && multiset(r.value) <= multiset(logs)
              && (forall x | x in multiset(logs) - multiset(r.value) ::
                    forall i | 0 <= i < |r.value| :: x.timestamp <= r.value[i].timestamp)
  {
    var sorted := SortDesc(logs, Timestamp);
    if |sorted| > maxResults then
      if maxResults < 0 then Err(RangeOutOfBounds)
      else
        TakeIsTop(sorted, maxResults, Timestamp);
        Ok(Take(sorted, maxResults))
    else
      Ok(sorted)
  }

  /** `GetLogs(filter, maxResults)` as written. */
  function GetLogs(file: LogFile, filter: Option<string>, maxResults: int): (r: Result<seq<TransferLog>>)
    ensures (filter.None? || AllWhiteSpace(filter.value)) ==> r == NewestFirst(GetAllLogs(file), maxResults)
    ensures (filter.Some? && !AllWhiteSpace(filter.value)) ==>
              (FindAllAsWritten(GetAllLogs(file), Lower(filter.value)).Err? ==> r.Err?)
              && (FindAllAsWritten(GetAllLogs(file), Lower(filter.value)).Ok? ==>
                    r == NewestFirst(Filter(GetAllLogs(file), Matcher(Lower(filter.value))), maxResults))
  {
    var all := GetAllLogs(file);
    if filter.None? || AllWhiteSpace(filter.value) then NewestFirst(all, maxResults)
    else
      var matches :- FindAllAsWritten(all, Lower(filter.value));
      NewestFirst(matches, maxResults)
  }

  /** The entries `LogTransfer` writes always carry a status and a protocol,
      but carry whatever source the report had: a report without one makes
      every non-blank search throw. */
  lemma NullSourceBreaksSearch(now: int, filter: string)
    requires !AllWhiteSpace(filter)
    ensures GetLogs(Stored([ToLogEntry(NewReport(), now)]), Some(filter), 100).Err?
  {
    var e := ToLogEntry(NewReport(), now);
    assert MatchAsWritten(e, Lower(filter)).Err?;
  }

  /** Corrected `GetLogs`: null fields never match, so the only error left
      is a negative limit. */
  function GetLogsNullSafe(file: LogFile, filter: Option<string>, maxResults: int): (r: Result<seq<TransferLog>>)
    ensures r.Ok? <==> maxResults >= 0
    ensures r.Ok? ==>
              && SortedDesc(r.value, Timestamp)
              && (forall i | 0 <= i < |r.value| ::
                    r.value[i] in GetAllLogs(file)
                    && (filter.None? || AllWhiteSpace(filter.value) || MatchesNullSafe(r.value[i], Lower(filter.value))))
  {
    var all := GetAllLogs(file);
    var matches := if filter.None? || AllWhiteSpace(filter.value) then all else Filter(all, Matcher(Lower(filter.value)));
    var r := NewestFirst(matches, maxResults);
    if r.Ok? then
      assert forall i | 0 <= i < |r.value| :: r.value[i] in multiset(matches);
      r
    else r
  }

  /** Wherever the as-written search succeeds, the corrected one agrees. */
  lemma NullSafeAgrees(file: LogFile, filter: Option<string>, maxResults: int)
    requires GetLogs(file, filter, maxResults).Ok?
    ensures GetLogsNullSafe(file, filter, maxResults) == GetLogs(file, filter, maxResults)
  {
  }

  /** A blank search with a large enough limit returns every stored entry,
      newest first. */
  lemma BlankSearchKeepsAll(file: LogFile, maxResults: int)
    requires maxResults >= |GetAllLogs(file)|
    ensures GetLogs(file, None, maxResults).Ok?
    ensures multiset(GetLogs(file, None, maxResults).value) == multiset(GetAllLogs(file))
  {
  }
}

=== FILE: paths.dfy ===
/** Stand-ins for System.IO.Path on Windows: separators, rooted paths,
    file-name and extension extraction, and Combine. */
module Paths {
  import opened Text

  predicate IsDirectorySeparator(c: char) {
    c == '\\' || c == '/'
  }

  predicate HasNoSeparator(s: string) {
    forall i | 0 <= i < |s| :: !IsDirectorySeparator(s[i])
  }

  /** A drive letter followed by the volume separator, as in `C:` or `C:\`. */
  predicate HasDriveRoot(p: string) {
    |p| >= 2 && IsLetter(p[0]) && p[1] == ':'
  }

  /** `Path.IsPathRooted` with Windows rules: a leading separator, or a drive
      letter followed by the volume separator. */
  predicate IsPathRooted(p: string) {
    (|p| >= 1 && IsDirectorySeparator(p[0])) || HasDriveRoot(p)
  }

  /** `Path.Combine(a, b)`. */
  function Combine(a: string, b: string): (r: string)
    ensures |b| == 0 ==> r == a
    ensures |b| > 0 && (|a| == 0 || IsPathRooted(b)) ==> r == b
    ensures |a| > 0 && |b| > 0 && !IsPathRooted(b) ==>
              StartsWith(r, a) && EndsWith(r, b) && |a| + |b| <= |r| <= |a| + |b| + 1
              && (IsDirectorySeparator(a[|a| - 1]) || IsDirectorySeparator(r[|a|]))
    ensures |a| > 0 && |b| > 0 && !IsPathRooted(b) && IsDirectorySeparator(a[|a| - 1]) ==> r == a + b
  {
    if |b| == 0 then a
    else if |a| == 0 || IsPathRooted(b) then b
    else if IsDirectorySeparator(a[|a| - 1]) then a + b
    else a + "\\" + b
  }

  /** Index just after the last separator of `p[..i]`, or 0. */
  function NameStart(p: string, i: nat): (k: nat)
    requires i <= |p|
    ensures k <= i
    ensures forall j | k <= j < i :: !IsDirectorySeparator(p[j])
    ensures k == 0 || IsDirectorySeparator(p[k - 1])
  {
    if i == 0 then 0
    else if IsDirectorySeparator(p[i - 1]) then i
    else NameStart(p, i - 1)
  }

  /** `Path.GetFileName`: the part after the last separator, which never
      reaches back into a drive root, so `C:data` gives `data`. */
  function GetFileName(p: string): (r: string)
    ensures EndsWith(p, r)
    ensures HasNoSeparator(r)
    ensures HasDriveRoot(p) ==> |r| <= |p| - 2
    ensures r == p || IsDirectorySeparator(p[|p| - |r| - 1]) || (HasDriveRoot(p) && |r| == |p| - 2)
  {
    var k := NameStart(p, |p|);
    var k' := if k == 0 && HasDriveRoot(p) then 2 else k;
    assert HasDriveRoot(p) ==> k' >= 2 by {
      if HasDriveRoot(p) && k != 0 {
        assert IsDirectorySeparator(p[k - 1]);
        assert k - 1 != 0 && k - 1 != 1;
      }
    }
    assert forall j | 0 <= j < |p| - k' :: p[k'..][j] == p[k' + j];
    p[k'..]
  }

  /** A drive-relative path with no separator keeps only what follows the
      drive: `C:a.txt` gives `a.txt`. */
  lemma DriveRelativeFileName(p: string)
    requires HasDriveRoot(p) && HasNoSeparator(p)
    ensures GetFileName(p) == p[2..]
  {
  }

  /** The file name of a folder (ending in a separator) joined with a name
      without separators is that name; with no folder, the name must not
      start with a drive. */
  lemma FileNameOfJoined(folder: string, name: string)
    requires HasNoSeparator(name)
    requires |folder| == 0 || IsDirectorySeparator(folder[|folder| - 1])
    requires |folder| > 0 || !HasDriveRoot(name)
    ensures GetFileName(folder + name) == name
  {
    var p := folder + name;
    var r := GetFileName(p);
    assert |r| == |name| by {
      if |folder| > 0 {
        assert IsDirectorySeparator(p[|folder| - 1]);
        assert forall j | |folder| <= j < |p| :: p[j] == name[j - |folder|];
      } else {
        assert p == name;
      }
    }
    assert p[|folder|..] == name;
  }

  /** Scans `p[..i]` backwards for the dot that starts the extension. */
  function ExtensionScan(p: string, i: nat): (r: string)
    requires i <= |p|
    requires forall j | i <= j < |p| :: p[j] != '.' && !IsDirectorySeparator(p[j])
    ensures r == "" || (|r| >= 2 && r[0] == '.' && EndsWith(p, r))
    ensures forall j | 1 <= j < |r| :: r[j] != '.' && !IsDirectorySeparator(r[j])
  {
    if i == 0 then ""
    else if p[i - 1] == '.' then (if i == |p| then "" else p[i - 1..])
    else if IsDirectorySeparator(p[i - 1]) then ""
    else ExtensionScan(p, i - 1)
  }

  /** `Path.GetExtension`: the final ".xyz" of the last path segment, or ""
      when the segment has no dot or ends in one. */
  function GetExtension(p: string): (r: string)
    ensures r == "" || (|r| >= 2 && r[0] == '.' && EndsWith(p, r))
    ensures forall j | 1 <= j < |r| :: r[j] != '.' && !IsDirectorySeparator(r[j])
  {
    ExtensionScan(p, |p|)
  }
}

=== FILE: records.dfy ===
/** The records that flow through the Windows service: the protocol enum,
    file items, filter settings, transfer-log entries, the transfer report a
    backend returns, the service-side connection settings, and the file system
    as the service observes it. Nullable strings are `Option<string>`; clock
    readings and durations are opaque integers. */
module Records {
  import opened Wrappers
  import Text

  /** `ProtocolType` as the service uses it. Besides the named members a C#
      enum variable can hold any other number; `Undefined` is such a value. */
  datatype ProtocolType = FTP | SFTP | LOCAL | Undefined(code: int)

  /** `Enum.ToString()`: the member's name, or the number of an unnamed value. */
  function ProtocolName(p: ProtocolType): string {
    match p
    case FTP => "FTP"
    case SFTP => "SFTP"
    case LOCAL => "LOCAL"
    case Undefined(c) => Text.IntToString(c)
  }

  const StatusSuccess: string := "Success"
  const StatusFailed: string := "Failed"

  /** A file chosen for transfer (`FileItem`). */
  datatype FileItem = FileItem(fileName: string, fullPath: string, sizeBytes: int, lastModified: int)

  /** `FilterSettings`: extension allow-list, size bounds in bytes, and the
      options the filter dialog edits. */
  datatype FilterSettings = FilterSettings(
    includeFileTypes: seq<string>,
    minFileSizeBytes: int,
    maxFileSizeBytes: int,
    includeSubfolders: bool,
    minAgeMinutes: int,
    deleteAfterTransfer: bool,
    moveToArchiveAfterTransfer: bool,
    archivePath: string)

  /** `new FilterSettings()`. */
  function DefaultFilters(): FilterSettings {
    FilterSettings([], 0, 0, false, 0, false, false, "")
  }

  /** One transfer-log entry with every field any component reads or writes. */
  datatype TransferLog = TransferLog(
    timestamp: int,
    fileName: Option<string>,
    sourcePath: Option<string>,
    destinationPath: Option<string>,
    status: Option<string>,
    message: Option<string>,
    errorMessage: Option<string>,
    fileSize: int,
    durationMs: int,
    protocol: Option<string>)

  /** `new TransferLog { Timestamp = now }`: every other field at its default. */
  function NewLog(now: int): TransferLog {
    TransferLog(now, None, None, None, None, None, None, 0, 0, None)
  }

  /** The transfer report a backend returns (`TransferResultDto`). */
  datatype TransferReport = TransferReport(
    success: bool,
    logs: seq<TransferLog>,
    sourcePath: Option<string>,
    destinationPath: Option<string>,
    protocol: ProtocolType,
    errorMessage: Option<string>,
    fileSize: int,
    durationMs: int)

  /** `new TransferResultDto()`: not successful, no logs, protocol FTP (the
      enum's zero value). */
  function NewReport(): TransferReport {
    TransferReport(false, [], None, None, FTP, None, 0, 0)
  }

  /** The service-side `ConnectionSettings`. */
  datatype ServiceConnection = ServiceConnection(
    protocol: ProtocolType,
    host: Option<string>,
    port: int,
    username: Option<string>,
    password: Option<string>,
    sourcePath: Option<string>,
    destinationPath: Option<string>)

  /** What `FileInfo` reports about an existing file. */
  datatype FileStat = FileStat(name: string, length: int, lastWriteTime: int)

  /** The file system as observed: each existing directory with the files
      `Directory.GetFiles` lists at its top level, and each existing file. */
  datatype FileSystem = FileSystem(dirs: map<string, seq<FileItem>>, files: map<string, FileStat>)

  /** How a session with a remote server went: whether connecting and
      disconnecting threw, and with which message. */
  datatype Session = Session(connectError: Option<string>, disconnectError: Option<string>)
}

=== FILE: remote_engines.dfy ===
/** `FtpTransferEngine` and `SftpTransferEngine`: batch transfers over one
    client session that count transferred and failed files and sum the bytes
    of the successful ones. The client libraries are oracles: a `Session`
    says whether connecting and disconnecting threw, and a per-file call
    outcome says what the upload or download did. */
module RemoteEngines {
  import opened Wrappers
  import opened Text
  import opened Paths
  import opened Seqs
  import opened Records
  import opened Settings

  /** A local file as `FileInfo` describes it; `length` is `None` when the
      file does not exist, where reading `Length` throws. */
  datatype LocalFile = LocalFile(name: string, fullName: string, length: Option<int>)

  /** `FileTransferResult`. */
  datatype FileResult = FileResult(
    fileName: string,
    localPath: string,
    remotePath: string,
    success: bool,
    message: string,
    fileSize: int,
    transferTime: int)

  /** `TransferResult`. */
  datatype EngineResult = EngineResult(
    success: bool,
    message: string,
    filesTransferred: int,
    filesSkipped: int,
    filesFailed: int,
    totalBytesTransferred: int,
    durationMs: int,
    fileResults: seq<FileResult>)

  function NewEngineResult(): EngineResult {
    EngineResult(false, "", 0, 0, 0, 0, 0, [])
  }

  // ---------------------------------------------------------------------------
  // Remote paths and client configuration
  // ---------------------------------------------------------------------------

  /** The remote path of a file: the remote directory combined with the
      file's name, with every backslash turned into a slash. */
  function RemotePathFor(remoteDir: string, name: string): (r: string)
    ensures |r| == |Combine(remoteDir, name)|
    ensures forall i | 0 <= i < |r| :: r[i] != '\\'
    ensures forall i | 0 <= i < |r| :: Combine(remoteDir, name)[i] != '\\' ==> r[i] == Combine(remoteDir, name)[i]
  {
    ReplaceChar(Combine(remoteDir, name), '\\', '/')
  }

  /** Below the default remote directory "/", a plain name is simply
      appended. */
  lemma RemotePathUnderRoot(name: string)
    requires |name| > 0 && !IsPathRooted(name)
    requires forall i | 0 <= i < |name| :: name[i] != '\\'
    ensures RemotePathFor("/", name) == "/" + name
  {
    assert Combine("/", name) == "/" + name;
    var r := RemotePathFor("/", name);
    assert forall i | 0 <= i < |r| :: r[i] == ("/" + name)[i];
  }

  datatype DataConnectionType = PASV | PORT

  datatype FtpClientConfig = FtpClientConfig(dataConnectionType: DataConnectionType, connectTimeoutMs: int)

  /** C# `int` multiplication wraps modulo 2^32 into [-2^31, 2^31). */
  function Wrap32(x: int): (r: int)
    ensures -0x8000_0000 <= r < 0x8000_0000
    ensures (r - x) % 0x1_0000_0000 == 0
  {
    var m := x % 0x1_0000_0000;
    if m >= 0x8000_0000 then m - 0x1_0000_0000 else m
  }

  /** The FTP client's data-connection mode and timeout. */
  function FtpConfig(cs: ConnectionSettings): (c: FtpClientConfig)
    ensures c.dataConnectionType == PASV <==> cs.usePassiveMode
    ensures 0 <= cs.timeoutSeconds <= 2147483 ==> c.connectTimeoutMs == cs.timeoutSeconds * 1000
    ensures -0x8000_0000 <= c.connectTimeoutMs < 0x8000_0000
  {
    FtpClientConfig(if cs.usePassiveMode then PASV else PORT, Wrap32(cs.timeoutSeconds * 1000))
  }

  /** A timeout beyond 2147483 seconds wraps to a negative number of
      milliseconds. */
  lemma LargeTimeoutWraps()
    ensures FtpConfig(DefaultConnection().(timeoutSeconds := 2147484)).connectTimeoutMs < 0
  {
  }

  // ---------------------------------------------------------------------------
  // Single-file transfers
  // ---------------------------------------------------------------------------

  datatype FtpStatus = StatusOk | StatusFailure | StatusSkipped

  /** What a FluentFTP upload/download call did: returned a status or threw. */
  datatype FtpCall = FtpReturned(status: FtpStatus) | FtpThrew(message: string)

  /** The message of the `FileNotFoundException` that `FileInfo.Length`
      throws for a file that does not exist. */
  function MissingFileMessage(fullName: string): string {
    "Could not find file '" + fullName + "'."
  }

  /** The result as initialised before the per-file `try`: reading the
      length of a missing file throws out of the method. */
  function StartResult(f: LocalFile, now: int): (r: Result<FileResult>)
    ensures r.Err? <==> f.length.None?
    ensures r.Err? ==> r.message == MissingFileMessage(f.fullName)
    ensures r.Ok? ==> r.value.fileName == f.name && r.value.localPath == f.fullName
                      && r.value.fileSize == f.length.value && !r.value.success
  {
    match f.length
    case None => Err(MissingFileMessage(f.fullName))
    case Some(n) => Ok(FileResult(f.name, f.fullName, "", false, "", n, now))
  }

  /** `FtpTransferEngine.TransferSingleFileAsync`: `Err` is an exception
      leaving the method. Only Upload and Download call the client;
      Bidirectional leaves the result unsuccessful with an empty message. */
  function FtpSingleFile(f: LocalFile, settings: TransferSettings, call: FtpCall, now: int): (r: Result<FileResult>)
    ensures r.Err? <==> f.length.None?
    ensures r.Err? ==> r.message == MissingFileMessage(f.fullName)
    ensures r.Ok? ==> r.value.fileName == f.name && r.value.localPath == f.fullName && r.value.fileSize == f.length.value
    ensures r.Ok? ==> r.value.remotePath == RemotePathFor(settings.remotePath, f.name)
    ensures r.Ok? ==> (r.value.success <==> settings.direction != Bidirectional && call == FtpReturned(StatusOk))
    ensures r.Ok? && settings.direction == Bidirectional ==> r.value.message == ""
    ensures r.Ok? && settings.direction != Bidirectional && call.FtpThrew? ==> r.value.message == "Transfer failed: " + call.message
  {
    match StartResult(f, now)
    case Err(m) => Err(m)
    case Ok(r0) =>
      var r := r0.(remotePath := RemotePathFor(settings.remotePath, f.name));
      if settings.direction == Bidirectional then Ok(r)
      else match call
        case FtpThrew(m) => Ok(r.(success := false, message := "Transfer failed: " + m))
        case FtpReturned(s) =>
          var ok := s == StatusOk;
          var verb := if settings.direction == Upload then "Upload " else "Download ";
          Ok(r.(success := ok, message := verb + (if ok then "successful" else "failed")))
  }

  /** `SftpTransferEngine.TransferSingleFileAsync`: the call succeeds exactly
      when it does not throw (`None`); `Err` is an exception leaving the
      method. */
  function SftpSingleFile(f: LocalFile, settings: TransferSettings, thrown: Option<string>, now: int): (r: Result<FileResult>)
    ensures r.Err? <==> f.length.None?
    ensures r.Err? ==> r.message == MissingFileMessage(f.fullName)
    ensures r.Ok? ==> r.value.fileName == f.name && r.value.localPath == f.fullName && r.value.fileSize == f.length.value
    ensures r.Ok? ==> r.value.remotePath == RemotePathFor(settings.remotePath, f.name)
    ensures r.Ok? ==> (r.value.success <==> settings.direction != Bidirectional && thrown.None?)
    ensures r.Ok? && settings.direction != Bidirectional && thrown.Some? ==> r.value.message == "Transfer failed: " + thrown.value
  {
    match StartResult(f, now)
    case Err(m) => Err(m)
    case Ok(r0) =>
      var r := r0.(remotePath := RemotePathFor(settings.remotePath, f.name));
      if settings.direction == Bidirectional then Ok(r)
      else match thrown
        case Some(m) => Ok(r.(success := false, message := "Transfer failed: " + m))
        case None =>
          Ok(r.(success := true, message := if settings.direction == Upload then "Upload successful" else "Download successful"))
  }

  /** A Bidirectional batch fails every existing file on both engines. */
  lemma BidirectionalFailsEveryFile(f: LocalFile, settings: TransferSettings, call: FtpCall, thrown: Option<string>, now: int)
    requires settings.direction == Bidirectional && f.length.Some?
    ensures FtpSingleFile(f, settings, call, now).Ok? && !FtpSingleFile(f, settings, call, now).value.success
    ensures SftpSingleFile(f, settings, thrown, now).Ok? && !SftpSingleFile(f, settings, thrown, now).value.success
  {
  }

  // ---------------------------------------------------------------------------
  // Batch aggregation
  // ---------------------------------------------------------------------------

  /** The number of successful results, counted from the end. */
  function Succeeded(rs: seq<FileResult>): (n: nat)
    ensures n <= |rs|
  {
    if |rs| == 0 then 0 else Succeeded(rs[..|rs| - 1]) + (if rs[|rs| - 1].success then 1 else 0)
  }

  /** The bytes of the successful results. */
  function SucceededBytes(rs: seq<FileResult>): int {
    if |rs| == 0 then 0
    else SucceededBytes(rs[..|rs| - 1]) + (if rs[|rs| - 1].success then rs[|rs| - 1].fileSize else 0)
  }

  /** No result failed exactly when every result succeeded. */
  lemma {:induction false} SucceededAll(rs: seq<FileResult>)
    ensures Succeeded(rs) == |rs| <==> forall i | 0 <= i < |rs| :: rs[i].success
  {
    if |rs| > 0 {
      var init := rs[..|rs| - 1];
      SucceededAll(init);
      assert forall i | 0 <= i < |init| :: init[i] == rs[i];
    }
  }

  /** The counting loop of `TransferFilesAsync` after connecting: each result
      adds to `transferred` and the byte total, or to `failed`. */
  method Tally(rs: seq<FileResult>) returns (transferred: int, failed: int, bytes: int)
    ensures transferred == Succeeded(rs)
    ensures failed == |rs| - Succeeded(rs)
    ensures bytes == SucceededBytes(rs)
  {
    transferred, failed, bytes := 0, 0, 0;
    var i := 0;
    while i < |rs|
      invariant 0 <= i <= |rs|
      invariant transferred == Succeeded(rs[..i])
      invariant failed == i - Succeeded(rs[..i])
      invariant bytes == SucceededBytes(rs[..i])
    {
      assert rs[..i + 1][..i] == rs[..i];
      if rs[i].success {
        transferred := transferred + 1;
        bytes := bytes + rs[i].fileSize;
      } else {
        failed := failed + 1;
      }
      i := i + 1;
    }
    assert rs[..i] == rs;
  }

  /** The per-file results the loop collects before the first file whose
      transfer threw out of `TransferSingleFileAsync`. */
  function Completed(outs: seq<Result<FileResult>>): (rs: seq<FileResult>)
    ensures |rs| <= |outs|
    ensures forall i | 0 <= i < |rs| :: outs[i] == Ok(rs[i])
    ensures |rs| < |outs| ==> outs[|rs|].Err?
  {
    if |outs| == 0 || outs[0].Err? then []
    else [outs[0].value] + Completed(outs[1..])
  }

  /** A batch aborts exactly when some file's transfer threw. */
  lemma CompletedAll(outs: seq<Result<FileResult>>)
    ensures |Completed(outs)| == |outs| <==> forall i | 0 <= i < |outs| :: outs[i].Ok?
  {
  }

  function CompletedMessage(transferred: int, failed: int, skipped: int): string {
    "Transfer completed. Files: " + IntToString(transferred) + " transferred, "
    + IntToString(failed) + " failed, " + IntToString(skipped) + " skipped"
  }

  /** The shared shape of both engines' `TransferFilesAsync`, given each
      file's outcome on the connected session. A connect failure leaves no
      results; a file whose transfer threw stops the loop with the results
      and counters gathered so far; a disconnect failure keeps results and
      counters but reports failure. */
  method RunBatch(prefix: string, session: Session, outs: seq<Result<FileResult>>, elapsedMs: int) returns (r: EngineResult)
    ensures session.connectError.Some? ==>
              r == NewEngineResult().(message := prefix + session.connectError.value)
    ensures session.connectError.None? ==>
              && r.fileResults == Completed(outs)
              && r.filesTransferred == Succeeded(r.fileResults)
              && r.filesTransferred + r.filesFailed == |r.fileResults|
              && r.filesSkipped == 0
              && r.totalBytesTransferred == SucceededBytes(r.fileResults)
    ensures session.connectError.None? && |r.fileResults| < |outs| ==>
              !r.success && r.message == prefix + outs[|r.fileResults|].message && r.durationMs == 0
    ensures session.connectError.None? && |r.fileResults| == |outs| && session.disconnectError.Some? ==>
              !r.success && r.message == prefix + session.disconnectError.value && r.durationMs == 0
    ensures session.connectError.None? && |r.fileResults| == |outs| && session.disconnectError.None? ==>
              && (r.success <==> forall i | 0 <= i < |outs| :: outs[i].Ok? && outs[i].value.success)
              && r.message == CompletedMessage(r.filesTransferred, r.filesFailed, 0)
              && r.durationMs == elapsedMs
  {
    r := NewEngineResult();
    if session.connectError.Some? {
      r := r.(message := prefix + session.connectError.value);
      return;
    }
    var rs := Completed(outs);
    var transferred, failed, bytes := Tally(rs);
    r := r.(fileResults := rs, filesTransferred := transferred, filesFailed := failed, totalBytesTransferred := bytes);
    if |rs| < |outs| {
      r := r.(success := false, message := prefix + outs[|rs|].message);
      return;
    }
    if session.disconnectError.Some? {
      r := r.(success := false, message := prefix + session.disconnectError.value);
      return;
    }
    SucceededAll(rs);
    r := r.(success := failed == 0, durationMs := elapsedMs,
            message := CompletedMessage(transferred, failed, r.filesSkipped));
  }

  /** Every file of the batch exists, so reading its length cannot throw. */
  predicate AllExist(files: seq<LocalFile>) {
    forall i | 0 <= i < |files| :: files[i].length.Some?
  }

  /** Outcomes that fail exactly for the missing files, with the missing
      file's message, stop the batch exactly at the first missing file. */
  lemma {:induction false} OutcomesOfFiles(files: seq<LocalFile>, outs: seq<Result<FileResult>>)
    requires |outs| == |files|
    requires forall i | 0 <= i < |files| :: outs[i].Err? <==> files[i].length.None?
    requires forall i | 0 <= i < |files| :: outs[i].Err? ==> outs[i].message == MissingFileMessage(files[i].fullName)
    ensures |Completed(outs)| == |files| <==> AllExist(files)
    ensures |Completed(outs)| < |files| ==>
              var k := |Completed(outs)|;
              files[k].length.None? && outs[k].message == MissingFileMessage(files[k].fullName)
  {
    CompletedAll(outs);
  }

  /** `FtpTransferFiles`' per-file outcomes. */
  function FtpOutcomes(settings: TransferSettings, files: seq<LocalFile>, call: LocalFile -> FtpCall, now: int): (outs: seq<Result<FileResult>>)
    ensures |outs| == |files|
    ensures forall i | 0 <= i < |files| :: outs[i] == FtpSingleFile(files[i], settings, call(files[i]), now)
  {
    seq(|files|, i requires 0 <= i < |files| => FtpSingleFile(files[i], settings, call(files[i]), now))
  }

  /** `SftpTransferFiles`' per-file outcomes. */
  function SftpOutcomes(settings: TransferSettings, files: seq<LocalFile>, thrown: LocalFile -> Option<string>, now: int): (outs: seq<Result<FileResult>>)
    ensures |outs| == |files|
    ensures forall i | 0 <= i < |files| :: outs[i] == SftpSingleFile(files[i], settings, thrown(files[i]), now)
  {
    seq(|files|, i requires 0 <= i < |files| => SftpSingleFile(files[i], settings, thrown(files[i]), now))
  }

  /** With every file present, every FTP outcome succeeds exactly when every
      call returned Success in a one-way direction. */
  lemma FtpAllSucceed(settings: TransferSettings, files: seq<LocalFile>, call: LocalFile -> FtpCall, now: int)
    requires AllExist(files)
    ensures var outs := FtpOutcomes(settings, files, call, now);
            (forall i | 0 <= i < |outs| :: outs[i].Ok? && outs[i].value.success)
            <==> forall i | 0 <= i < |files| :: call(files[i]) == FtpReturned(StatusOk) && settings.direction != Bidirectional
  {
    var outs := FtpOutcomes(settings, files, call, now);
    assert forall i | 0 <= i < |files| ::
             outs[i].Ok? && (outs[i].value.success <==> call(files[i]) == FtpReturned(StatusOk) && settings.direction != Bidirectional);
  }

  /** With every file present, every SFTP outcome succeeds exactly when no
      call threw in a one-way direction. */
  lemma SftpAllSucceed(settings: TransferSettings, files: seq<LocalFile>, thrown: LocalFile -> Option<string>, now: int)
    requires AllExist(files)
    ensures var outs := SftpOutcomes(settings, files, thrown, now);
            (forall i | 0 <= i < |outs| :: outs[i].Ok? && outs[i].value.success)
            <==> forall i | 0 <= i < |files| :: thrown(files[i]).None? && settings.direction != Bidirectional
  {
    var outs := SftpOutcomes(settings, files, thrown, now);
    assert forall i | 0 <= i < |files| ::
             outs[i].Ok? && (outs[i].value.success <==> thrown(files[i]).None? && settings.direction != Bidirectional);
  }

  /** `FtpTransferEngine.TransferFilesAsync`. */
  method FtpTransferFiles(settings: TransferSettings, files: seq<LocalFile>, session: Session,
                          call: LocalFile -> FtpCall, now: int, elapsedMs: int) returns (r: EngineResult)
    ensures session.connectError.Some? ==>
              !r.success && r.fileResults == [] && r.message == "FTP transfer failed: " + session.connectError.value
    ensures session.connectError.None? ==>
              && |r.fileResults| <= |files|
              && (forall i | 0 <= i < |r.fileResults| :: FtpSingleFile(files[i], settings, call(files[i]), now) == Ok(r.fileResults[i]))
              && r.filesTransferred + r.filesFailed == |r.fileResults| && r.filesSkipped == 0
              && r.filesTransferred == Succeeded(r.fileResults)
              && r.totalBytesTransferred == SucceededBytes(r.fileResults)
              && (|r.fileResults| == |files| <==> AllExist(files))
    ensures session.connectError.None? && |r.fileResults| < |files| ==>
              && files[|r.fileResults|].length.None? && !r.success && r.durationMs == 0
              && r.message == "FTP transfer failed: " + MissingFileMessage(files[|r.fileResults|].fullName)
    ensures session.connectError.None? && AllExist(files) && session.disconnectError.Some? ==>
              !r.success && r.message == "FTP transfer failed: " + session.disconnectError.value && r.durationMs == 0
    ensures session.connectError.None? && AllExist(files) && session.disconnectError.None? ==>
              r.message == CompletedMessage(r.filesTransferred, r.filesFailed, 0) && r.durationMs == elapsedMs
    ensures session.connectError.None? && AllExist(files) && session.disconnectError.None? ==>
              (r.success <==> r.filesFailed == 0)
              && (r.success <==> forall i | 0 <= i < |files| :: call(files[i]) == FtpReturned(StatusOk) && settings.direction != Bidirectional)
  {
    var outs := FtpOutcomes(settings, files, call, now);
    r := RunBatch("FTP transfer failed: ", session, outs, elapsedMs);
    if session.connectError.None? {
      OutcomesOfFiles(files, outs);
      if |r.fileResults| == |files| && session.disconnectError.None? {
        SucceededAll(r.fileResults);
        FtpAllSucceed(settings, files, call, now);
      }
    }
  }

  /** `SftpTransferEngine.TransferFilesAsync`; `thrown` gives each file's
      upload/download exception, if any. */
  method SftpTransferFiles(settings: TransferSettings, files: seq<LocalFile>, session: Session,
                           thrown: LocalFile -> Option<string>, now: int, elapsedMs: int) returns (r: EngineResult)
    ensures session.connectError.Some? ==>
              !r.success && r.fileResults == [] && r.message == "SFTP transfer failed: " + session.connectError.value
    ensures session.connectError.None? ==>
              && |r.fileResults| <= |files|
              && (forall i | 0 <= i < |r.fileResults| :: SftpSingleFile(files[i], settings, thrown(files[i]), now) == Ok(r.fileResults[i]))
              && r.filesTransferred + r.filesFailed == |r.fileResults| && r.filesSkipped == 0
              && r.filesTransferred == Succeeded(r.fileResults)
              && r.totalBytesTransferred == SucceededBytes(r.fileResults)
              && (|r.fileResults| == |files| <==> AllExist(files))
    ensures session.connectError.None? && |r.fileResults| < |files| ==>
              && files[|r.fileResults|].length.None? && !r.success && r.durationMs == 0
              && r.message == "SFTP transfer failed: " + MissingFileMessage(files[|r.fileResults|].fullName)
    ensures session.connectError.None? && AllExist(files) && session.disconnectError.Some? ==>
              !r.success && r.message == "SFTP transfer failed: " + session.disconnectError.value && r.durationMs == 0
    ensures session.connectError.None? && AllExist(files) && session.disconnectError.None? ==>
              r.message == CompletedMessage(r.filesTransferred, r.filesFailed, 0) && r.durationMs == elapsedMs
    ensures session.connectError.None? && AllExist(files) && session.disconnectError.None? ==>
              (r.success <==> r.filesFailed == 0)
              && (r.success <==> forall i | 0 <= i < |files| :: thrown(files[i]).None? && settings.direction != Bidirectional)
  {
    var outs := SftpOutcomes(settings, files, thrown, now);
    r := RunBatch("SFTP transfer failed: ", session, outs, elapsedMs);
    if session.connectError.None? {
      OutcomesOfFiles(files, outs);
      if |r.fileResults| == |files| && session.disconnectError.None? {
        SucceededAll(r.fileResults);
        SftpAllSucceed(settings, files, thrown, now);
      }
    }
  }

  /** A missing file in the middle of a batch: the files before it are
      transferred and counted, the files after it are never tried. */
  lemma MissingFileStopsBatch(settings: TransferSettings, before: seq<LocalFile>, missing: LocalFile,
                              after: seq<LocalFile>, call: LocalFile -> FtpCall, now: int)
    requires AllExist(before) && missing.length.None?
    ensures var outs := FtpOutcomes(settings, before + [missing] + after, call, now);
            |Completed(outs)| == |before|
  {
    var files := before + [missing] + after;
    var outs := FtpOutcomes(settings, files, call, now);
    StopsAt(outs, |before|);
  }

  lemma {:induction false} StopsAt(outs: seq<Result<FileResult>>, k: nat)
    requires k < |outs| && outs[k].Err?
    requires forall i | 0 <= i < k :: outs[i].Ok?
    ensures |Completed(outs)| == k
  {
    if k > 0 {
      StopsAt(outs[1..], k - 1);
    }
  }

  /** `TestConnectionAsync` of either engine: true exactly when connecting
      and disconnecting both complete. */
  function TestConnection(session: Session): (ok: bool)
    ensures ok <==> session.connectError.None? && session.disconnectError.None?
  {
    match session.connectError
    case Some(_) => false
    case None => session.disconnectError.None?
  }
}

=== FILE: retry_policy.dfy ===
/** `RetryPolicy`: runs an action until it succeeds or the attempt that
    fails is not below `maxRetries`, waiting a fixed delay between attempts.
    Whether the k-th attempt (counting from 1) succeeds is an oracle; the
    delay itself is not awaited here but counted, except that `Task.Delay`
    rejects a delay below -1 ms or above the timer maximum, and never
    completes one of -1 ms. */
module RetryPolicy {
  import opened Wrappers

  datatype Policy = Policy(maxRetries: int, delayMs: int)

  /** The constructor: 3 attempts and 2 seconds unless given. */
  function NewPolicy(maxRetries: Option<int>, delayMs: Option<int>): (p: Policy)
    ensures maxRetries.None? ==> p.maxRetries == 3
    ensures delayMs.None? ==> p.delayMs == 2000
    ensures maxRetries.Some? ==> p.maxRetries == maxRetries.value
    ensures delayMs.Some? ==> p.delayMs == delayMs.value
  {
    Policy(maxRetries.GetOr(3), delayMs.GetOr(2000))
  }

  /** The longest delay `Task.Delay` accepts: `Timer.MaxSupportedTimeout`,
      2^32 - 2 ms, on .NET 6 and later. */
  const MaxDelayMs: int := 0xFFFF_FFFE

  /** A delay `Task.Delay` throws `ArgumentOutOfRangeException` for. */
  predicate DelayOutOfRange(delayMs: int) {
    delayMs < -1 || delayMs > MaxDelayMs
  }

  function AttemptBound(maxRetries: int): nat {
    if maxRetries < 1 then 1 else maxRetries
  }

  /** How `ExecuteAsync` ends: the action succeeded; its exception
      propagated; `Task.Delay` rejected a delay below -1 ms or above
      `MaxDelayMs` with an `ArgumentOutOfRangeException`; or it waits forever on a delay of
      exactly -1 ms (`Timeout.InfiniteTimeSpan`). */
  datatype Outcome = ActionSucceeded | ActionFailed | DelayRejected | WaitsForever

  /** `ExecuteAsync`. Returns how many attempts ran, how many delays
      completed, and how the call ends. */
  method Execute(p: Policy, succeeds: nat -> bool) returns (attempts: nat, delays: nat, outcome: Outcome)
    ensures 1 <= attempts <= AttemptBound(p.maxRetries)
    ensures delays == attempts - 1
    ensures forall k | 1 <= k < attempts :: !succeeds(k)
    ensures outcome == ActionSucceeded <==> succeeds(attempts)
    ensures outcome == ActionFailed ==> attempts == AttemptBound(p.maxRetries)
    ensures 0 <= p.delayMs <= MaxDelayMs ==> outcome == ActionSucceeded || outcome == ActionFailed
    ensures DelayOutOfRange(p.delayMs) ==>
              attempts == 1 && (outcome == DelayRejected <==> !succeeds(1) && 1 < p.maxRetries)
    ensures p.delayMs == -1 ==> attempts == 1 && (outcome == WaitsForever <==> !succeeds(1) && 1 < p.maxRetries)
  {
    attempts, delays := 0, 0;
    while true
      invariant attempts < AttemptBound(p.maxRetries)
      invariant delays == attempts
      invariant forall k | 1 <= k <= attempts :: !succeeds(k)
      invariant !(0 <= p.delayMs <= MaxDelayMs) ==> attempts == 0
      decreases AttemptBound(p.maxRetries) - attempts
    {
      attempts := attempts + 1;
      if succeeds(attempts) {
        outcome := ActionSucceeded;
        return;
      }
      if !(attempts < p.maxRetries) {
        outcome := ActionFailed;
        return;
      }
      if DelayOutOfRange(p.delayMs) {
        outcome := DelayRejected;
        return;
      }
      if p.delayMs == -1 {
        outcome := WaitsForever;
        return;
      }
      delays := delays + 1;
    }
  }

  /** With the defaults, an action that always fails runs three times and
      waits twice. */
  method DefaultGivesUpAfterThree() returns (attempts: nat, delays: nat, outcome: Outcome)
    ensures attempts == 3 && delays == 2 && outcome == ActionFailed
  {
    attempts, delays, outcome := Execute(NewPolicy(None, None), k => false);
  }

  /** A negative delay such as -5 ms ends the first retry with the range
      error of `Task.Delay`: one attempt, no completed delay. */
  method NegativeDelayThrows() returns (attempts: nat, delays: nat, outcome: Outcome)
    ensures attempts == 1 && delays == 0 && outcome == DelayRejected
  {
    attempts, delays, outcome := Execute(NewPolicy(None, Some(-5)), k => false);
  }

  /** A delay one past the timer maximum is rejected the same way. */
  method OversizedDelayThrows() returns (attempts: nat, delays: nat, outcome: Outcome)
    ensures attempts == 1 && delays == 0 && outcome == DelayRejected
  {
    attempts, delays, outcome := Execute(NewPolicy(None, Some(MaxDelayMs + 1)), k => false);
  }

  /** With `maxRetries` of 1 or less the action runs exactly once. */
  method SingleAttempt(maxRetries: int, succeeds: nat -> bool) returns (attempts: nat, ok: bool)
    requires maxRetries <= 1
    ensures attempts == 1
    ensures ok <==> succeeds(1)
  {
    var delays, outcome;
    attempts, delays, outcome := Execute(Policy(maxRetries, 0), succeeds);
    ok := outcome == ActionSucceeded;
  }
}

=== FILE: seqs.dfy ===
/** Sequence helpers: order-preserving filtering (`Where`, `FindAll`),
    newest-first ordering by an integer key (`List.Sort` with the comparison
    `b.Timestamp.CompareTo(a.Timestamp)`) and truncation (`GetRange(0, n)`). */
module Seqs {

  /** `sub` is `s` with some elements left out, the rest kept in order. */
  ghost predicate IsSubsequence<T>(sub: seq<T>, s: seq<T>)
    decreases |s|
  {
    if |sub| == 0 then true
    else if |s| == 0 then false
    else if sub[0] == s[0] then IsSubsequence(sub[1..], s[1..])
    else IsSubsequence(sub, s[1..])
  }

  /** The elements of `s` satisfying `p`, in their original order. */
  function Filter<T>(s: seq<T>, p: T -> bool): (r: seq<T>)
    ensures |r| <= |s|
    ensures forall i | 0 <= i < |r| :: p(r[i]) && r[i] in s
    ensures forall i | 0 <= i < |s| :: p(s[i]) ==> s[i] in r
    ensures multiset(r) <= multiset(s)
  {
    if |s| == 0 then []
    else
      assert s == [s[0]] + s[1..];
      (if p(s[0]) then [s[0]] else []) + Filter(s[1..], p)
  }

  /** Filtering keeps every occurrence of a kept element and none of the
      others: each element appears as often as in `s`, or not at all. */
  lemma {:induction false} FilterCount<T>(s: seq<T>, p: T -> bool, x: T)
    ensures multiset(Filter(s, p))[x] == if p(x) then multiset(s)[x] else 0
  {
    if |s| > 0 {
      FilterCount(s[1..], p, x);
      assert s == [s[0]] + s[1..];
      var head := if p(s[0]) then [s[0]] else [];
      assert Filter(s, p) == head + Filter(s[1..], p);
      assert multiset(Filter(s, p)) == multiset(head) + multiset(Filter(s[1..], p));
      assert multiset(s) == multiset([s[0]]) + multiset(s[1..]);
    }
  }

  lemma FilterCountAll<T>(s: seq<T>, p: T -> bool)
    ensures forall x | x in s :: multiset(Filter(s, p))[x] == if p(x) then multiset(s)[x] else 0
  {
    forall x | x in s
      ensures multiset(Filter(s, p))[x] == if p(x) then multiset(s)[x] else 0
    {
      FilterCount(s, p, x);
    }
  }

  lemma {:induction false} FilterIsSubsequence<T>(s: seq<T>, p: T -> bool)
    ensures IsSubsequence(Filter(s, p), s)
  {
    if |s| > 0 {
      FilterIsSubsequence(s[1..], p);
      var rest := Filter(s[1..], p);
      if p(s[0]) {
        assert Filter(s, p) == [s[0]] + rest;
        assert Filter(s, p)[1..] == rest;
      } else {
        assert Filter(s, p) == rest;
      }
    }
  }

  /** Filtering with a predicate that holds everywhere keeps everything. */
  lemma {:induction false} FilterAll<T>(s: seq<T>, p: T -> bool)
    requires forall i | 0 <= i < |s| :: p(s[i])
    ensures Filter(s, p) == s
  {
    if |s| > 0 {
      assert s == [s[0]] + s[1..];
      FilterAll(s[1..], p);
    }
  }

  /** `Select`: `f` applied to every element, in order. */
  function Map<T, U>(s: seq<T>, f: T -> U): (r: seq<U>)
    ensures |r| == |s|
    ensures forall i | 0 <= i < |s| :: r[i] == f(s[i])
  {
    seq(|s|, i requires 0 <= i < |s| => f(s[i]))
  }

  lemma MapAppend<T, U>(a: seq<T>, b: seq<T>, f: T -> U)
    ensures Map(a + b, f) == Map(a, f) + Map(b, f)
  {
    var l := Map(a + b, f);
    var r := Map(a, f) + Map(b, f);
    assert |l| == |r|;
    forall i | 0 <= i < |l|
      ensures l[i] == r[i]
    {
      if i < |a| {
        assert (a + b)[i] == a[i];
      } else {
        assert (a + b)[i] == b[i - |a|];
      }
    }
  }

  /** Filtering then mapping a non-empty sequence, one head at a time. */
  lemma MapFilterCons<T, U>(s: seq<T>, p: T -> bool, f: T -> U)
    requires |s| > 0
    ensures Map(Filter(s, p), f) == (if p(s[0]) then [f(s[0])] else []) + Map(Filter(s[1..], p), f)
  {
    var tail := Filter(s[1..], p);
    var head: seq<T> := if p(s[0]) then [s[0]] else [];
    assert Filter(s, p) == head + tail;
    MapAppend(head, tail, f);
    assert Map(head, f) == (if p(s[0]) then [f(s[0])] else []);
  }

  /** The number of elements of `s` satisfying `p`. */
  function Count<T>(s: seq<T>, p: T -> bool): nat {
    |Filter(s, p)|
  }

  /** Counting a non-empty sequence, head first. */
  lemma CountCons<T>(s: seq<T>, p: T -> bool)
    requires |s| > 0
    ensures Count(s, p) == (if p(s[0]) then 1 else 0) + Count(s[1..], p)
  {
  }

  predicate SortedDesc<T>(s: seq<T>, key: T -> int) {
    forall i, j | 0 <= i < j < |s| :: key(s[i]) >= key(s[j])
  }

  /** A bound on every key of `s` and on `x` bounds every key of a
      rearrangement of `s` with `x` added. */
  lemma KeysBounded<T>(r: seq<T>, s: seq<T>, x: T, key: T -> int, b: int)
    requires multiset(r) == multiset(s) + multiset{x}
    requires key(x) <= b && forall j | 0 <= j < |s| :: key(s[j]) <= b
    ensures forall j | 0 <= j < |r| :: key(r[j]) <= b
  {
    forall j | 0 <= j < |r|
      ensures key(r[j]) <= b
    {
      assert r[j] in multiset(r);
      assert r[j] == x || r[j] in multiset(s);
    }
  }

  /** Inserts `x` before the first element whose key is smaller. */
  function InsertDesc<T>(x: T, s: seq<T>, key: T -> int): (r: seq<T>)
    requires SortedDesc(s, key)
    ensures SortedDesc(r, key)
    ensures multiset(r) == multiset(s) + multiset{x}
    ensures |r| == |s| + 1
  {
    if |s| == 0 then [x]
    else if key(x) >= key(s[0]) then [x] + s
    else
      var rest := InsertDesc(x, s[1..], key);
      assert s == [s[0]] + s[1..];
      KeysBounded(rest, s[1..], x, key, key(s[0]));
      [s[0]] + rest
  }

  /** Insertion sort, newest (largest key) first. */
  function SortDesc<T>(s: seq<T>, key: T -> int): (r: seq<T>)
    ensures SortedDesc(r, key)
    ensures multiset(r) == multiset(s)
    ensures |r| == |s|
  {
    if |s| == 0 then []
    else
      assert s == [s[0]] + s[1..];
      InsertDesc(s[0], SortDesc(s[1..], key), key)
  }

  /** The longest prefix of length at most `n` (List.GetRange(0, n) guarded
      by `Count > n`). */
  function Take<T>(s: seq<T>, n: nat): (r: seq<T>)
    ensures |r| == if |s| <= n then |s| else n
    ensures r == s[..|r|]
    ensures multiset(r) <= multiset(s)
  {
    if |s| > n then
      assert s == s[..n] + s[n..];
      s[..n]
    else s
  }

  lemma TakeKeepsOrder<T>(s: seq<T>, n: nat, key: T -> int)
    requires SortedDesc(s, key)
    ensures SortedDesc(Take(s, n), key)
  {
  }

  /** Removing a prefix's elements leaves the elements after it. */
  lemma PrefixRemoved<T>(s: seq<T>, k: nat)
    requires k <= |s|
    ensures multiset(s) - multiset(s[..k]) == multiset(s[k..])
  {
    assert s == s[..k] + s[k..];
  }

  /** In a newest-first sequence, everything from position `k` on is no
      newer than anything before it. */
  lemma SuffixBelowPrefix<T>(s: seq<T>, k: nat, key: T -> int)
    requires SortedDesc(s, key) && k <= |s|
    ensures forall x | x in multiset(s[k..]) :: forall i | 0 <= i < k :: key(x) <= key(s[..k][i])
  {
    forall x | x in multiset(s[k..])
      ensures forall i | 0 <= i < k :: key(x) <= key(s[..k][i])
    {
      var j :| 0 <= j < |s[k..]| && s[k..][j] == x;
      assert s[k + j] == x;
    }
  }

  /** What truncating a newest-first sequence leaves out is no newer than
      anything it keeps. */
  lemma TakeIsTop<T>(s: seq<T>, n: nat, key: T -> int)
    requires SortedDesc(s, key)
    ensures forall x | x in multiset(s) - multiset(Take(s, n)) ::
              forall i | 0 <= i < |Take(s, n)| :: key(x) <= key(Take(s, n)[i])
  {
    var k := |Take(s, n)|;
    PrefixRemoved(s, k);
    SuffixBelowPrefix(s, k, key);
  }
}

=== FILE: service_factory.dfy ===
/** `FileTransferServiceFactory`: picks the transfer backend for a protocol. */
module ServiceFactory {
  import opened Wrappers
  import opened Records
  import LocalPaths

  /** The backends the factory hands out: the FluentFTP client service and
      the local-copy service. No SFTP backend is ever chosen. */
  datatype Backend = FluentFtpBackend | LocalCopyBackend

  /** FTP and SFTP both get the FluentFTP service; LOCAL and every other
      value get the local-copy service, so the mapping is total. */
  function CreateFileTransferService(p: ProtocolType): (b: Backend)
    ensures b == FluentFtpBackend <==> p == FTP || p == SFTP
    ensures b == LocalCopyBackend <==> p == LOCAL || p.Undefined?
  {
    match p
    case FTP => FluentFtpBackend
    case SFTP => FluentFtpBackend
    case LOCAL => LocalCopyBackend
    case Undefined(_) => LocalCopyBackend
  }

  /** The backend the executor ends up with: local copy whenever both paths
      look local, otherwise the declared protocol's backend, which for SFTP is
      the FTP client. */
  lemma SelectedBackend(s: ServiceConnection)
    ensures LocalPaths.IsLocalPath(s.sourcePath) && LocalPaths.IsLocalPath(s.destinationPath) ==>
              CreateFileTransferService(LocalPaths.EffectiveProtocol(s.protocol, s.sourcePath, s.destinationPath)) == LocalCopyBackend
    ensures s.protocol == SFTP && !(LocalPaths.IsLocalPath(s.sourcePath) && LocalPaths.IsLocalPath(s.destinationPath)) ==>
              CreateFileTransferService(LocalPaths.EffectiveProtocol(s.protocol, s.sourcePath, s.destinationPath)) == FluentFtpBackend
  {
  }
}

=== FILE: settings.dfy ===
/** The application settings records of the core library (`AppSettings`),
    with their default values and enums. Clock-derived defaults (the schedule's
    start date) are parameters. */
module Settings {
  import opened Wrappers

  datatype TransferDirection = Upload | Download | Bidirectional

  /** `PostTransferAction`; `NoAction` is the source's `None`. */
  datatype PostTransferAction = NoAction | Delete | Archive

  datatype ScheduleType = Interval | Daily | Weekly

  datatype LogLevel = Debug | Info | Warning | Error

  datatype DayOfWeek = Sunday | Monday | Tuesday | Wednesday | Thursday | Friday | Saturday

  /** The library's `ConnectionSettings`: the protocol is a free string. */
  datatype ConnectionSettings = ConnectionSettings(
    protocol: string,
    host: string,
    port: int,
    username: string,
    password: string,
    usePassiveMode: bool,
    timeoutSeconds: int)

  datatype TransferSettings = TransferSettings(
    localPath: string,
    remotePath: string,
    direction: TransferDirection,
    fileFilters: seq<string>,
    includeSubfolders: bool,
    postAction: PostTransferAction,
    archivePath: string,
    overwriteExisting: bool)

  /** Times of day are minutes after midnight; dates are opaque day numbers. */
  datatype ScheduleSettings = ScheduleSettings(
    enableScheduling: bool,
    scheduleType: ScheduleType,
    intervalMinutes: int,
    dailyTimeMinutes: int,
    weeklyDays: seq<DayOfWeek>,
    startDate: int,
    endDate: Option<int>)

  datatype LoggingSettings = LoggingSettings(
    enableLogging: bool,
    logLevel: LogLevel,
    logFilePath: string,
    maxLogSizeMB: int,
    maxLogFiles: int)

  datatype UISettings = UISettings(
    minimizeToTray: bool,
    startMinimized: bool,
    showNotifications: bool,
    autoStartWithWindows: bool)

  datatype AppSettings = AppSettings(
    connection: ConnectionSettings,
    transfer: TransferSettings,
    schedule: ScheduleSettings,
    logging: LoggingSettings,
    ui: UISettings)

  /** SFTP on port 22 with no host or credentials, passive mode, 30 s timeout. */
  function DefaultConnection(): ConnectionSettings {
    ConnectionSettings("SFTP", "", 22, "", "", true, 30)
  }

  /** Upload everything ("*.*") to "/" and overwrite, no post-transfer action. */
  function DefaultTransfer(): TransferSettings {
    TransferSettings("", "/", Upload, ["*.*"], false, NoAction, "", true)
  }

  /** Scheduling off; every 10 minutes, daily at 09:00, from `today`, no end. */
  function DefaultSchedule(today: int): ScheduleSettings {
    ScheduleSettings(false, Interval, 10, 9 * 60, [], today, None)
  }

  function DefaultLogging(): LoggingSettings {
    LoggingSettings(true, Info, "logs/datasyncer.log", 10, 5)
  }

  function DefaultUI(): UISettings {
    UISettings(true, false, true, false)
  }

  /** `new AppSettings()` on day `today`. */
  function DefaultAppSettings(today: int): AppSettings {
    AppSettings(DefaultConnection(), DefaultTransfer(), DefaultSchedule(today), DefaultLogging(), DefaultUI())
  }
}

=== FILE: settings_manager.dfy ===
/** `SettingsManager`: holds the current `AppSettings`, replaces it on update
    and validates it with an ordered, first-failure-wins list of checks.
    Directory existence is an oracle; the settings file is seen through what
    reading it yields and whether writing it fails. */
module SettingsManager {
  import opened Wrappers
  import opened Text
  import opened Settings

  const HostRequired: string := "Host is required"
  const PortOutOfRange: string := "Port must be between 1 and 65535"
  const UsernameRequired: string := "Username is required"
  const LocalPathRequired: string := "Local path is required"
  const LocalPathMissing: string := "Local path does not exist"
  const IntervalNotPositive: string := "Interval must be greater than 0 minutes"
  const NoWeeklyDays: string := "At least one day must be selected for weekly schedule"
  const SettingsValid: string := "Settings are valid"

  /** The message `ArgumentNullException` carries for `newSettings`. */
  const NullSettingsMessage: string := "Value cannot be null. (Parameter 'newSettings')"

  datatype Manager = Manager(current: AppSettings)

  /** A new manager holds `new AppSettings()`. */
  function NewManager(today: int): (m: Manager)
    ensures GetSettings(m) == DefaultAppSettings(today)
    ensures GetSettings(m).connection.host == "" && GetSettings(m).connection.port == 22
  {
    Manager(DefaultAppSettings(today))
  }

  function GetSettings(m: Manager): AppSettings {
    m.current
  }

  const SaveFailedPrefix: string := "Failed to save settings: "
  const LoadFailedPrefix: string := "Failed to load settings: "

  /** `SaveSettings`: a failed write surfaces as a wrapped exception. */
  function SaveSettings(writeError: Option<string>): (thrown: Option<string>)
    ensures thrown.None? <==> writeError.None?
    ensures writeError.Some? ==> thrown == Some(SaveFailedPrefix + writeError.value)
  {
    match writeError
    case None => None
    case Some(e) => Some(SaveFailedPrefix + e)
  }

  /** The manager after an update and the exception it threw, if any. */
  datatype UpdateOutcome = UpdateOutcome(manager: Manager, thrown: Option<string>)

  /** `UpdateSettings`: a null argument throws and changes nothing; anything
      else becomes the current settings, and then is saved, so a failed
      write throws with the new settings already in place. */
  function UpdateSettings(m: Manager, newSettings: Option<AppSettings>, writeError: Option<string>): (u: UpdateOutcome)
    ensures newSettings.None? ==> u.manager == m && u.thrown == Some(NullSettingsMessage)
    ensures newSettings.Some? ==> GetSettings(u.manager) == newSettings.value
    ensures newSettings.Some? ==> (u.thrown.None? <==> writeError.None?)
  {
    match newSettings
    case None => UpdateOutcome(m, Some(NullSettingsMessage))
    case Some(s) => UpdateOutcome(Manager(s), SaveSettings(writeError))
  }

  /** An update is visible to the next read, and only the last of two
      updates survives. */
  lemma UpdateThenGet(m: Manager, a: AppSettings, b: AppSettings, e: Option<string>)
    ensures GetSettings(UpdateSettings(m, Some(a), e).manager) == a
    ensures GetSettings(UpdateSettings(UpdateSettings(m, Some(a), e).manager, Some(b), None).manager) == b
    ensures UpdateSettings(UpdateSettings(m, Some(a), e).manager, None, None).manager.current == a
  {
  }

  /** What reading the settings file yields: no file, a document that
      deserialises to null, settings, or an exception. */
  datatype SettingsFile = Absent | NullDocument | Document(settings: AppSettings) | Unreadable(message: string)

  /** `LoadSettings`: a missing file installs the defaults and writes them;
      a null document installs the defaults; a failure leaves the current
      settings alone. Every exception is wrapped once more. */
  function LoadSettings(m: Manager, file: SettingsFile, today: int, writeError: Option<string>): (u: UpdateOutcome)
    ensures file.Document? ==> u == UpdateOutcome(Manager(file.settings), None)
    ensures file.NullDocument? ==> u == UpdateOutcome(NewManager(today), None)
    ensures file.Absent? ==> u.manager == NewManager(today)
    ensures file.Absent? ==> (u.thrown.None? <==> writeError.None?)
    ensures file.Absent? && writeError.Some? ==>
              u.thrown == Some(LoadFailedPrefix + SaveFailedPrefix + writeError.value)
    ensures file.Unreadable? ==> u == UpdateOutcome(m, Some(LoadFailedPrefix + file.message))
  {
    match file
    case Absent =>
      var thrown := match SaveSettings(writeError)
                    case None => None
                    case Some(e) => Some(LoadFailedPrefix + e);
      assert writeError.Some? ==>
        LoadFailedPrefix + (SaveFailedPrefix + writeError.value) == LoadFailedPrefix + SaveFailedPrefix + writeError.value;
      UpdateOutcome(NewManager(today), thrown)
    case NullDocument => UpdateOutcome(NewManager(today), None)
    case Document(s) => UpdateOutcome(Manager(s), None)
    case Unreadable(e) => UpdateOutcome(m, Some(LoadFailedPrefix + e))
  }

  /** Without a settings file the manager starts from defaults that fail
      validation on the host, whether or not writing them succeeded. */
  lemma MissingFileNeedsHost(m: Manager, today: int, writeError: Option<string>, dirExists: string -> bool)
    ensures ValidateSettings(LoadSettings(m, Absent, today, writeError).manager, dirExists)
            == Validation(false, HostRequired)
  {
  }

  predicate Blank(s: string) {
    AllWhiteSpace(s)
  }

  predicate PortInRange(port: int) {
    1 <= port <= 65535
  }

  /** The schedule part of validation, which only applies when scheduling is
      enabled; a daily schedule never fails. */
  predicate ScheduleOk(s: ScheduleSettings) {
    !s.enableScheduling
    || (match s.scheduleType
        case Interval => s.intervalMinutes > 0
        case Weekly => |s.weeklyDays| > 0
        case Daily => true)
  }

  /** The host, port and username checks pass. */
  predicate ConnectionChecksPass(s: AppSettings) {
    !Blank(s.connection.host) && PortInRange(s.connection.port) && !Blank(s.connection.username)
  }

  /** The local path is given and names an existing directory. */
  predicate LocalPathChecksPass(s: AppSettings, dirExists: string -> bool) {
    !Blank(s.transfer.localPath) && dirExists(s.transfer.localPath)
  }

  /** Every check passes (the reference the validator is compared with). */
  predicate AllChecksPass(s: AppSettings, dirExists: string -> bool) {
    && !Blank(s.connection.host)
    && PortInRange(s.connection.port)
    && !Blank(s.connection.username)
    && !Blank(s.transfer.localPath)
    && dirExists(s.transfer.localPath)
    && ScheduleOk(s.schedule)
  }

  datatype Validation = Validation(valid: bool, message: string)

  /** `ValidateSettings`: the checks run in a fixed order and the first one
      that fails decides the message. */
  function ValidateSettings(m: Manager, dirExists: string -> bool): (v: Validation)
    ensures v.valid <==> AllChecksPass(m.current, dirExists)
    ensures v.valid ==> v.message == SettingsValid
    ensures v.message == HostRequired <==> Blank(m.current.connection.host)
    ensures v.message == PortOutOfRange <==>
              !Blank(m.current.connection.host) && !PortInRange(m.current.connection.port)
    ensures v.message == UsernameRequired <==>
              !Blank(m.current.connection.host) && PortInRange(m.current.connection.port)
              && Blank(m.current.connection.username)
    ensures v.message == LocalPathRequired <==>
              ConnectionChecksPass(m.current) && Blank(m.current.transfer.localPath)
    ensures v.message == LocalPathMissing <==>
              ConnectionChecksPass(m.current) && !Blank(m.current.transfer.localPath)
              && !dirExists(m.current.transfer.localPath)
    ensures v.message == IntervalNotPositive <==>
              ConnectionChecksPass(m.current) && LocalPathChecksPass(m.current, dirExists)
              && m.current.schedule.enableScheduling && m.current.schedule.scheduleType == Interval
              && m.current.schedule.intervalMinutes <= 0
    ensures v.message == NoWeeklyDays <==>
              ConnectionChecksPass(m.current) && LocalPathChecksPass(m.current, dirExists)
              && m.current.schedule.enableScheduling && m.current.schedule.scheduleType == Weekly
              && |m.current.schedule.weeklyDays| == 0
  {
    var c := m.current.connection;
    var t := m.current.transfer;
    var sc := m.current.schedule;
    if Blank(c.host) then Validation(false, HostRequired)
    else if c.port <= 0 || c.port > 65535 then Validation(false, PortOutOfRange)
    else if Blank(c.username) then Validation(false, UsernameRequired)
    else if Blank(t.localPath) then Validation(false, LocalPathRequired)
    else if !dirExists(t.localPath) then Validation(false, LocalPathMissing)
    else if sc.enableScheduling && sc.scheduleType == Interval && sc.intervalMinutes <= 0 then
      Validation(false, IntervalNotPositive)
    else if sc.enableScheduling && sc.scheduleType == Weekly && |sc.weeklyDays| == 0 then
      Validation(false, NoWeeklyDays)
    else Validation(true, SettingsValid)
  }

  /** The password is never checked: changing it never changes the verdict. */
  lemma PasswordIgnored(m: Manager, dirExists: string -> bool, password: string)
    ensures ValidateSettings(Manager(m.current.(connection := m.current.connection.(password := password))), dirExists)
            == ValidateSettings(m, dirExists)
  {
  }

  /** Fresh settings fail on the host, because the host defaults to "". */
  lemma DefaultSettingsNeedHost(today: int, dirExists: string -> bool)
    ensures ValidateSettings(NewManager(today), dirExists) == Validation(false, HostRequired)
  {
  }

  /** The default port lies in the accepted range, so fixing the host is the
      first step that moves validation past the port check. */
  lemma DefaultPortAccepted(today: int)
    ensures PortInRange(GetSettings(NewManager(today)).connection.port)
  {
  }
}

=== FILE: simulated_service.dfy ===
/** The simulated `FileTransferService` of the core library: it applies the
    extension allow-list and the size bounds of a `FilterSettings`, and logs
    one successful entry per file that passes, in input order. The simulated
    delay is not modelled and cannot fail, so the per-file failure branch is
    never taken. */
module SimulatedService {
  import opened Wrappers
  import opened Paths
  import opened Seqs
  import opened Records

  const TransferredMessage: string := "Transferred successfully"

  /** The allow-list is empty or contains the file's extension exactly
      (`List.Contains` is ordinal and case-sensitive). */
  predicate TypeAllowed(f: FileItem, filters: FilterSettings) {
    |filters.includeFileTypes| == 0 || GetExtension(f.fileName) in filters.includeFileTypes
  }

  /** The size lies within [min, max]; a maximum of 0 is an upper bound like
      any other. */
  predicate SizeAllowed(f: FileItem, filters: FilterSettings) {
    !(f.sizeBytes < filters.minFileSizeBytes || f.sizeBytes > filters.maxFileSizeBytes)
  }

  /** Both checks of the loop body pass, so the file is not skipped. */
  function PassesFilters(f: FileItem, filters: FilterSettings): (p: bool)
    ensures p <==> && (|filters.includeFileTypes| == 0 || GetExtension(f.fileName) in filters.includeFileTypes)
                   && filters.minFileSizeBytes <= f.sizeBytes <= filters.maxFileSizeBytes
    ensures filters.maxFileSizeBytes < filters.minFileSizeBytes ==> !p
  {
    TypeAllowed(f, filters) && SizeAllowed(f, filters)
  }

  function Keep(filters: FilterSettings): FileItem -> bool {
    f => PassesFilters(f, filters)
  }

  /** The log entry written for a file that passed the filters. */
  function TransferredEntry(f: FileItem, now: int): TransferLog {
    NewLog(now).(fileName := Some(f.fileName), status := Some(StatusSuccess), message := Some(TransferredMessage))
  }

  function EntryAt(now: int): FileItem -> TransferLog {
    f => TransferredEntry(f, now)
  }

  /** The `foreach` loop: skipped files add nothing, every other file adds
      one entry. Its log is the entries of exactly the files that pass the
      filters, in input order. */
  function TransferLoop(files: seq<FileItem>, filters: FilterSettings, now: int): (logs: seq<TransferLog>)
    ensures logs == Map(Filter(files, Keep(filters)), EntryAt(now))
  {
    if |files| == 0 then []
    else
      var f := files[0];
      var rest := TransferLoop(files[1..], filters, now);
      MapFilterCons(files, Keep(filters), EntryAt(now));
      assert Keep(filters)(f) == PassesFilters(f, filters);
      if !TypeAllowed(f, filters) then rest
      else if !SizeAllowed(f, filters) then rest
      else [TransferredEntry(f, now)] + rest
  }

  /** `TransferFilesAsync`: the loop's entries, and success regardless. */
  function TransferFiles(files: seq<FileItem>, filters: FilterSettings, now: int): (r: TransferReport)
    ensures r.success
    ensures |r.logs| == Count(files, Keep(filters)) <= |files|
    ensures forall i | 0 <= i < |r.logs| :: r.logs[i] == TransferredEntry(Filter(files, Keep(filters))[i], now)
    ensures forall i | 0 <= i < |r.logs| :: r.logs[i].status == Some(StatusSuccess)
  {
    NewReport().(logs := TransferLoop(files, filters, now), success := true)
  }

  /** Under `new FilterSettings()` (no types, min 0, max 0) a file passes
      exactly when it is empty. */
  lemma DefaultFiltersKeepOnlyEmptyFiles(f: FileItem)
    ensures PassesFilters(f, DefaultFilters()) <==> f.sizeBytes == 0
  {
  }

  /** The as-written filter drops a one-byte file under default filters. */
  lemma DefaultFiltersDropNonEmptyFile(now: int)
    ensures TransferFiles([FileItem("a.txt", "C:\\in\\a.txt", 1, 0)], DefaultFilters(), now).logs == []
  {
    var files := [FileItem("a.txt", "C:\\in\\a.txt", 1, 0)];
    assert !PassesFilters(files[0], DefaultFilters());
    assert Filter(files[1..], Keep(DefaultFilters())) == [];
  }

  // ---------------------------------------------------------------------------
  // Corrected filter: a maximum of 0 means "no maximum", as the filter dialog
  // stores it.
  // ---------------------------------------------------------------------------

  predicate SizeAllowedIntended(f: FileItem, filters: FilterSettings) {
    f.sizeBytes >= filters.minFileSizeBytes
    && (filters.maxFileSizeBytes == 0 || f.sizeBytes <= filters.maxFileSizeBytes)
  }

  predicate PassesFiltersIntended(f: FileItem, filters: FilterSettings) {
    TypeAllowed(f, filters) && SizeAllowedIntended(f, filters)
  }

  function KeepIntended(filters: FilterSettings): FileItem -> bool {
    f => PassesFiltersIntended(f, filters)
  }

  function TransferFilesIntended(files: seq<FileItem>, filters: FilterSettings, now: int): (r: TransferReport)
    ensures r.success
    ensures |r.logs| <= |files|
    ensures forall i | 0 <= i < |r.logs| :: r.logs[i].status == Some(StatusSuccess)
  {
    NewReport().(logs := Map(Filter(files, KeepIntended(filters)), EntryAt(now)), success := true)
  }

  /** With the corrected filter, default settings keep every file, one entry
      per file in input order. */
  lemma IntendedDefaultsKeepEverything(files: seq<FileItem>, now: int)
    requires forall i | 0 <= i < |files| :: files[i].sizeBytes >= 0
    ensures |TransferFilesIntended(files, DefaultFilters(), now).logs| == |files|
    ensures forall i | 0 <= i < |files| ::
              TransferFilesIntended(files, DefaultFilters(), now).logs[i].fileName == Some(files[i].fileName)
  {
    FilterAll(files, KeepIntended(DefaultFilters()));
  }

  /** The corrected filter differs from the as-written one only when the
      maximum is 0: otherwise both keep the same files. */
  lemma IntendedAgreesWhenMaxSet(f: FileItem, filters: FilterSettings)
    requires filters.maxFileSizeBytes != 0
    ensures PassesFiltersIntended(f, filters) <==> PassesFilters(f, filters)
  {
  }
}

=== FILE: text.dfy ===
/** String helpers standing in for the .NET string API used by the service:
    case mapping (ASCII only), substring search, white-space tests, trimming,
    prefix/suffix tests, character replacement and decimal rendering. */
module Text {

  // ---------------------------------------------------------------------------
  // Case mapping (ToLower, ToLowerInvariant, ToUpper), restricted to ASCII
  // ---------------------------------------------------------------------------

  function LowerChar(c: char): char {
    if 'A' <= c <= 'Z' then (c as int + 32) as char else c
  }

  function UpperChar(c: char): char {
    if 'a' <= c <= 'z' then (c as int - 32) as char else c
  }

  function Lower(s: string): (r: string)
    ensures |r| == |s|
    ensures forall i :: 0 <= i < |s| ==> r[i] == LowerChar(s[i])
  {
    if |s| == 0 then "" else [LowerChar(s[0])] + Lower(s[1..])
  }

  function Upper(s: string): (r: string)
    ensures |r| == |s|
    ensures forall i :: 0 <= i < |s| ==> r[i] == UpperChar(s[i])
  {
    if |s| == 0 then "" else [UpperChar(s[0])] + Upper(s[1..])
  }

  /** Lower-casing twice is lower-casing once. */
  lemma LowerIdempotent(s: string)
    ensures Lower(Lower(s)) == Lower(s)
  {
    assert forall i :: 0 <= i < |s| ==> LowerChar(LowerChar(s[i])) == LowerChar(s[i]);
  }

  // ---------------------------------------------------------------------------
  // Substring search (String.Contains, ordinal)
  // ---------------------------------------------------------------------------

  /** `sub` occurs in `s` starting at offset `i`. */
  predicate OccursAt(s: string, sub: string, i: int) {
    0 <= i && i + |sub| <= |s| && s[i..i + |sub|] == sub
  }

  /** `sub` occurs somewhere in `s`; the empty string occurs in every string. */
  predicate Contains(s: string, sub: string) {
    exists i | 0 <= i <= |s| - |sub| :: OccursAt(s, sub, i)
  }

  lemma ContainsEmpty(s: string)
    ensures Contains(s, "")
  {
    assert OccursAt(s, "", 0);
  }

  lemma ContainsSelf(s: string)
    ensures Contains(s, s)
  {
    assert OccursAt(s, s, 0);
  }

  // ---------------------------------------------------------------------------
  // White space (char.IsWhiteSpace, string.IsNullOrWhiteSpace, IsNullOrEmpty)
  // ---------------------------------------------------------------------------

  /** ASCII white space plus NEL and NO-BREAK SPACE. */
  predicate IsWhiteSpace(c: char) {
    c == ' ' || c == '\t' || c == '\n' || c == '\r' || c == '\U{000B}' || c == '\U{000C}'
    || c == '\U{0085}' || c == '\U{00A0}'
  }

  predicate AllWhiteSpace(s: string) {
    forall i | 0 <= i < |s| :: IsWhiteSpace(s[i])
  }

  predicate IsLetter(c: char) {
    'A' <= c <= 'Z' || 'a' <= c <= 'z'
  }

  // ---------------------------------------------------------------------------
  // Trimming (Trim(), Trim(char))
  // ---------------------------------------------------------------------------

  /** Drops the longest prefix of characters satisfying `p`. */
  function TrimStartBy(s: string, p: char -> bool): (r: string)
    ensures |r| <= |s|
    ensures |r| == 0 || !p(r[0])
  {
    if |s| == 0 || !p(s[0]) then s else TrimStartBy(s[1..], p)
  }

  /** Drops the longest suffix of characters satisfying `p`. */
  function TrimEndBy(s: string, p: char -> bool): (r: string)
    ensures |r| <= |s|
    ensures |r| == 0 || !p(r[|r| - 1])
    ensures |r| > 0 ==> r[0] == s[0]
  {
    if |s| == 0 || !p(s[|s| - 1]) then s else TrimEndBy(s[..|s| - 1], p)
  }

  function TrimBy(s: string, p: char -> bool): (r: string)
    ensures |r| == 0 || (!p(r[0]) && !p(r[|r| - 1]))
    ensures |r| <= |s|
  {
    TrimEndBy(TrimStartBy(s, p), p)
  }

  /** `String.Trim()`: removes leading and trailing white space. */
  function Trim(s: string): (r: string)
    ensures |r| == 0 || (!IsWhiteSpace(r[0]) && !IsWhiteSpace(r[|r| - 1]))
    ensures |r| <= |s|
  {
    TrimBy(s, IsWhiteSpace)
  }

  /** `String.Trim(c)`: removes leading and trailing occurrences of `c`. */
  function TrimChar(s: string, c: char): (r: string)
    ensures |r| == 0 || (r[0] != c && r[|r| - 1] != c)
    ensures |r| <= |s|
  {
    TrimBy(s, x => x == c)
  }

  /** `TrimStartBy` removes a prefix, and only characters satisfying `p`. */
  lemma {:induction false} TrimStartByDrops(s: string, p: char -> bool)
    ensures var r := TrimStartBy(s, p);
            r == s[|s| - |r|..] && forall i | 0 <= i < |s| - |r| :: p(s[i])
  {
    if |s| > 0 && p(s[0]) {
      TrimStartByDrops(s[1..], p);
      var r := TrimStartBy(s, p);
      assert r == TrimStartBy(s[1..], p);
      assert s[1..][|s| - 1 - |r|..] == s[|s| - |r|..];
      forall i | 0 <= i < |s| - |r| ensures p(s[i]) {
        if i > 0 {
          assert s[i] == s[1..][i - 1];
        }
      }
    }
  }

  /** `TrimEndBy` removes a suffix, and only characters satisfying `p`. */
  lemma {:induction false} TrimEndByDrops(s: string, p: char -> bool)
    ensures var r := TrimEndBy(s, p);
            r == s[..|r|] && forall i | |r| <= i < |s| :: p(s[i])
  {
    if |s| > 0 && p(s[|s| - 1]) {
      TrimEndByDrops(s[..|s| - 1], p);
      var r := TrimEndBy(s, p);
      assert r == TrimEndBy(s[..|s| - 1], p);
      assert s[..|s| - 1][..|r|] == s[..|r|];
      forall i | |r| <= i < |s| ensures p(s[i]) {
        if i < |s| - 1 {
          assert s[i] == s[..|s| - 1][i];
        }
      }
    }
  }

  /** Trimming leaves a string alone when neither end needs trimming. */
  lemma TrimByUntouched(s: string, p: char -> bool)
    requires |s| > 0 && !p(s[0]) && !p(s[|s| - 1])
    ensures TrimBy(s, p) == s
  {
    assert TrimStartBy(s, p) == s;
  }

  lemma TrimUntouched(s: string)
    requires |s| > 0 && !IsWhiteSpace(s[0]) && !IsWhiteSpace(s[|s| - 1])
    ensures Trim(s) == s
  {
    TrimByUntouched(s, IsWhiteSpace);
  }

  lemma TrimCharUntouched(s: string, c: char)
    requires |s| > 0 && s[0] != c && s[|s| - 1] != c
    ensures TrimChar(s, c) == s
  {
    TrimByUntouched(s, x => x == c);
  }

  /** Trimming the surrounding quotes of a quoted text gives the text back. */
  lemma TrimCharOfQuoted(body: string, c: char)
    requires |body| > 0 && body[0] != c && body[|body| - 1] != c
    ensures TrimChar([c] + body + [c], c) == body
  {
    var q := [c] + body + [c];
    var p := (x: char) => x == c;
    assert TrimStartBy(q[1..], p) == q[1..];
    assert TrimStartBy(q, p) == q[1..];
    assert q[1..][..|q[1..]| - 1] == body;
    assert TrimEndBy(body, p) == body;
  }

  // ---------------------------------------------------------------------------
  // Prefix / suffix and replacement
  // ---------------------------------------------------------------------------

  predicate StartsWith(s: string, prefix: string) {
    |prefix| <= |s| && s[..|prefix|] == prefix
  }

  predicate EndsWith(s: string, suffix: string) {
    |suffix| <= |s| && s[|s| - |suffix|..] == suffix
  }

  /** `String.Replace(from, to)` on characters. */
  function ReplaceChar(s: string, from: char, to: char): (r: string)
    ensures |r| == |s|
    ensures forall i :: 0 <= i < |s| ==> r[i] == (if s[i] == from then to else s[i])
  {
    if |s| == 0 then "" else [if s[0] == from then to else s[0]] + ReplaceChar(s[1..], from, to)
  }

  lemma ReplaceCharRemoves(s: string, from: char, to: char)
    requires from != to
    ensures forall i :: 0 <= i < |s| ==> ReplaceChar(s, from, to)[i] != from
  {
  }

  // ---------------------------------------------------------------------------
  // Decimal rendering of integers (ToString() on int / long)
  // ---------------------------------------------------------------------------

  function DigitChar(d: nat): (c: char)
    requires d < 10
    ensures '0' <= c <= '9'
  {
    ('0' as int + d) as char
  }

  predicate IsDigit(c: char) {
    '0' <= c <= '9'
  }

  function DigitValue(c: char): (d: nat)
    requires IsDigit(c)
    ensures d < 10
  {
    c as int - '0' as int
  }

  function NatToString(n: nat): (r: string)
    ensures |r| >= 1
    ensures forall i :: 0 <= i < |r| ==> IsDigit(r[i])
  {
    if n < 10 then [DigitChar(n)] else NatToString(n / 10) + [DigitChar(n % 10)]
  }

  function IntToString(n: int): (r: string)
    ensures |r| >= 1
  {
    if n < 0 then "-" + NatToString(-n) else NatToString(n)
  }

  /** Reads a run of decimal digits. */
  function ParseNat(s: string): (n: nat)
    requires forall i :: 0 <= i < |s| ==> IsDigit(s[i])
  {
    if |s| == 0 then 0 else ParseNat(s[..|s| - 1]) * 10 + DigitValue(s[|s| - 1])
  }

  /** Decimal rendering is inverted by decimal parsing. */
  lemma {:induction false} ParseNatToString(n: nat)
    ensures ParseNat(NatToString(n)) == n
  {
    if n >= 10 {
      var s := NatToString(n / 10) + [DigitChar(n % 10)];
      assert s[..|s| - 1] == NatToString(n / 10);
      ParseNatToString(n / 10);
    }
  }

  /** Distinct numbers render differently. */
  lemma NatToStringInjective(a: nat, b: nat)
    requires NatToString(a) == NatToString(b)
    ensures a == b
  {
    ParseNatToString(a);
    ParseNatToString(b);
  }

  function Pow10(w: nat): (p: nat)
    ensures p >= 1
  {
    if w == 0 then 1 else 10 * Pow10(w - 1)
  }

  /** The last `w` decimal digits of `n`, zero-padded (a fixed-width custom
      format such as "yyyy" or "MM"). */
  function PadDigits(n: nat, w: nat): (r: string)
    ensures |r| == w
    ensures forall i | 0 <= i < |r| :: IsDigit(r[i])
  {
    if w == 0 then "" else PadDigits(n / 10, w - 1) + [DigitChar(n % 10)]
  }

  /** A number that fits the width is read back from its padded digits. */
  lemma {:induction false} ParsePadDigits(n: nat, w: nat)
    requires n < Pow10(w)
    ensures ParseNat(PadDigits(n, w)) == n
  {
    if w > 0 {
      var s := PadDigits(n, w);
      assert s[..|s| - 1] == PadDigits(n / 10, w - 1);
      ParsePadDigits(n / 10, w - 1);
    }
  }
}

=== FILE: transfer_log_manager.dfy ===
/** The core library's `TransferLogManager`: one JSON file per day named
    "transfer_log_yyyyMMdd.json" in a fixed folder. The folder is a map from
    file name to what reading and parsing the file yields; the order in which
    `Directory.GetFiles` lists it is an oracle parameter. */
module TransferLogManager {
  import opened Wrappers
  import opened Text
  import opened Seqs
  import opened Records

  /** A calendar date as `DateTime` holds it. */
  datatype Date = Date(year: nat, month: nat, day: nat)

  predicate ValidDate(d: Date) {
    1 <= d.year <= 9999 && 1 <= d.month <= 12 && 1 <= d.day <= 31
  }

  const FilePrefix: string := "transfer_log_"
  const FileSuffix: string := ".json"

  /** `$"transfer_log_{date:yyyyMMdd}.json"`. */
  function LogFileName(d: Date): (name: string)
    ensures |name| == |FilePrefix| + 8 + |FileSuffix|
    ensures StartsWith(name, FilePrefix) && EndsWith(name, FileSuffix)
  {
    FilePrefix + PadDigits(d.year, 4) + PadDigits(d.month, 2) + PadDigits(d.day, 2) + FileSuffix
  }

  /** The date is read back from the file name. */
  lemma LogFileNameDecodes(d: Date)
    requires ValidDate(d)
    ensures ParseNat(LogFileName(d)[13..17]) == d.year
    ensures ParseNat(LogFileName(d)[17..19]) == d.month
    ensures ParseNat(LogFileName(d)[19..21]) == d.day
  {
    var name := LogFileName(d);
    assert name[13..17] == PadDigits(d.year, 4);
    assert name[17..19] == PadDigits(d.month, 2);
    assert name[19..21] == PadDigits(d.day, 2);
    ParsePadDigits(d.year, 4);
    ParsePadDigits(d.month, 2);
    ParsePadDigits(d.day, 2);
  }

  /** Distinct dates use distinct files. */
  lemma LogFileNameInjective(a: Date, b: Date)
    requires ValidDate(a) && ValidDate(b)
    requires LogFileName(a) == LogFileName(b)
    ensures a == b
  {
    LogFileNameDecodes(a);
    LogFileNameDecodes(b);
  }

  /** What reading one day file yields: a list, the JSON document `null`, or
      an exception (unreadable or not a list). */
  datatype DayFile = Entries(logs: seq<TransferLog>) | NullDocument | Corrupt

  /** The folder and the file the manager appends to. */
  datatype DayStore = DayStore(currentFile: string, files: map<string, DayFile>)

  /** The static constructor fixes the current file once, from the day the
      manager was first used; later calls never recompute it. */
  function NewStore(today: Date, files: map<string, DayFile>): (s: DayStore)
    ensures s.currentFile == LogFileName(today) && s.files == files
  {
    DayStore(LogFileName(today), files)
  }

  /** The list a day file parses to, `?? new List()` included. */
  function Parsed(f: DayFile): seq<TransferLog> {
    match f
    case Entries(logs) => logs
    case _ => []
  }

  /** `LogTransfer`: append to the current file. A corrupt current file makes
      the read throw, and a failed write throws too; the exception is
      swallowed and the entry is lost. */
  function LogTransfer(s: DayStore, log: TransferLog, writable: bool): (t: DayStore)
    ensures t.currentFile == s.currentFile
    ensures forall k | k in s.files && k != s.currentFile :: k in t.files && t.files[k] == s.files[k]
    ensures forall k | k in t.files :: k in s.files || k == s.currentFile
    ensures writable && !(s.currentFile in s.files && s.files[s.currentFile].Corrupt?) ==>
              s.currentFile in t.files
              && t.files[s.currentFile] == Entries(
                   (if s.currentFile in s.files then Parsed(s.files[s.currentFile]) else []) + [log])
    ensures !writable || (s.currentFile in s.files && s.files[s.currentFile].Corrupt?) ==> t == s
  {
    if s.currentFile in s.files && s.files[s.currentFile].Corrupt? then s
    else if !writable then s
    else
      var existing := if s.currentFile in s.files then Parsed(s.files[s.currentFile]) else [];
      s.(files := s.files[s.currentFile := Entries(existing + [log])])
  }

  /** `GetLogs(date)`: that day's list, or empty when its file is missing,
      holds `null` or cannot be parsed. */
  function GetLogs(s: DayStore, date: Date): (logs: seq<TransferLog>)
    ensures LogFileName(date) !in s.files ==> logs == []
    ensures LogFileName(date) in s.files && s.files[LogFileName(date)].Entries? ==>
              logs == s.files[LogFileName(date)].logs
    ensures LogFileName(date) in s.files && !s.files[LogFileName(date)].Entries? ==> logs == []
  {
    var name := LogFileName(date);
    if name in s.files then Parsed(s.files[name]) else []
  }

  /** A manager created on day `d` keeps appending to day `d`'s file. */
  lemma LogTransferGoesToStartDay(d: Date, files: map<string, DayFile>, log: TransferLog)
    requires !(LogFileName(d) in files && files[LogFileName(d)].Corrupt?)
    ensures GetLogs(LogTransfer(NewStore(d, files), log, true), d) == GetLogs(NewStore(d, files), d) + [log]
  {
  }

  /** Logging leaves every other day's logs unchanged. */
  lemma LogTransferKeepsOtherDays(s: DayStore, log: TransferLog, writable: bool, other: Date)
    requires LogFileName(other) != s.currentFile
    ensures GetLogs(LogTransfer(s, log, writable), other) == GetLogs(s, other)
  {
  }

  // ---------------------------------------------------------------------------
  // GetAllLogs and ClearLogs
  // ---------------------------------------------------------------------------

  /** The listing names every file of the folder exactly once. */
  predicate ListsFolder(s: DayStore, listing: seq<string>) {
    && (forall i | 0 <= i < |listing| :: listing[i] in s.files)
    && (forall k | k in s.files :: k in listing)
    && (forall i, j | 0 <= i < j < |listing| :: listing[i] != listing[j])
  }

  /** The loop of `GetAllLogs`: `AddRange` of every file that parses to a
      list, in listing order; a `null` document or a parse error adds
      nothing. */
  function Gathered(s: DayStore, listing: seq<string>): seq<TransferLog> {
    if |listing| == 0 then []
    else
      var name := listing[0];
      (if name in s.files then Parsed(s.files[name]) else []) + Gathered(s, listing[1..])
  }

  /** The total number of entries in the parseable files of `listing`. */
  function ParseableCount(s: DayStore, listing: seq<string>): nat {
    if |listing| == 0 then 0
    else
      var name := listing[0];
      (if name in s.files && s.files[name].Entries? then |s.files[name].logs| else 0)
      + ParseableCount(s, listing[1..])
  }

  lemma {:induction false} GatheredLength(s: DayStore, listing: seq<string>)
    ensures |Gathered(s, listing)| == ParseableCount(s, listing)
  {
    if |listing| > 0 {
      GatheredLength(s, listing[1..]);
    }
  }

  /** Every entry of a parseable listed file is gathered. */
  lemma {:induction false} GatheredContains(s: DayStore, listing: seq<string>, i: nat, k: nat)
    requires i < |listing| && listing[i] in s.files && s.files[listing[i]].Entries?
    requires k < |s.files[listing[i]].logs|
    ensures s.files[listing[i]].logs[k] in Gathered(s, listing)
  {
    var head := if listing[0] in s.files then Parsed(s.files[listing[0]]) else [];
    assert Gathered(s, listing) == head + Gathered(s, listing[1..]);
    if i == 0 {
      assert head[k] == s.files[listing[i]].logs[k];
    } else {
      GatheredContains(s, listing[1..], i - 1, k);
    }
  }

  function Timestamp(log: TransferLog): int {
    log.timestamp
  }

  /** `GetAllLogs`: every entry of every parseable day, newest first. */
  function GetAllLogs(s: DayStore, listing: seq<string>): (logs: seq<TransferLog>)
    ensures SortedDesc(logs, Timestamp)
    ensures multiset(logs) == multiset(Gathered(s, listing))
    ensures |logs| == ParseableCount(s, listing)
  {
    GatheredLength(s, listing);
    SortDesc(Gathered(s, listing), Timestamp)
  }

  /** Each day's own logs appear in the combined list. */
  lemma DayLogsAppearInAll(s: DayStore, listing: seq<string>, d: Date, k: nat)
    requires ListsFolder(s, listing)
    requires k < |GetLogs(s, d)|
    ensures GetLogs(s, d)[k] in GetAllLogs(s, listing)
  {
    var name := LogFileName(d);
    var i :| 0 <= i < |listing| && listing[i] == name;
    GatheredContains(s, listing, i, k);
    assert GetLogs(s, d)[k] in multiset(Gathered(s, listing));
    assert GetLogs(s, d)[k] in multiset(GetAllLogs(s, listing));
  }

  /** `ClearLogs`: deletes every listed file; a file whose deletion throws
      stays and the loop carries on. */
  function ClearLogs(s: DayStore, undeletable: set<string>): (t: DayStore)
    ensures t.currentFile == s.currentFile
    ensures forall k :: k in t.files <==> k in s.files && k in undeletable
    ensures forall k | k in t.files :: t.files[k] == s.files[k]
  {
    s.(files := map k | k in s.files && k in undeletable :: s.files[k])
  }

  /** A folder with no files has no parseable entries, whatever the listing. */
  lemma {:induction false} NoFilesNoEntries(s: DayStore, listing: seq<string>)
    requires s.files == map[]
    ensures ParseableCount(s, listing) == 0
  {
    if |listing| > 0 {
      NoFilesNoEntries(s, listing[1..]);
    }
  }

  /** When every deletion succeeds no day remains and nothing is read back,
      whatever the folder listing says. */
  lemma ClearedStoreIsEmpty(s: DayStore, d: Date, listing: seq<string>)
    ensures ClearLogs(s, {}).files == map[]
    ensures GetLogs(ClearLogs(s, {}), d) == []
    ensures GetAllLogs(ClearLogs(s, {}), listing) == []
  {
    NoFilesNoEntries(ClearLogs(s, {}), listing);
  }
}

=== FILE: upload_services.dfy ===
/** `FluentFtpTransfer` and `SshNetTransfer`: the service's upload backends.
    Each logs one entry per file and reports success once the session closes,
    however many files failed; a session-level exception replaces that with
    failure and one extra entry that names no file. SSH.NET's client
    constructor runs before that handler, so the arguments it rejects make
    the whole call throw. */
module UploadServices {
  import opened Wrappers
  import opened Seqs
  import opened Records
  import opened Settings
  import opened Text

  const UploadedMessage: string := "Uploaded"
  const UploadFailedMessage: string := "Upload failed"

  /** What uploading one file did: returned a success flag (FluentFTP) or
      threw (opening the file or the upload itself). */
  datatype UploadOutcome = Returned(ok: bool) | Threw(message: string)

  /** The entry for one file, named after `FileItem.FileName`. */
  function UploadEntry(f: FileItem, o: UploadOutcome, now: int): (e: TransferLog)
    ensures e.fileName == Some(f.fileName)
    ensures e.status == Some(StatusSuccess) <==> o == Returned(true)
    ensures e.status == Some(StatusSuccess) || e.status == Some(StatusFailed)
    ensures o == Returned(true) ==> e.message == Some(UploadedMessage)
    ensures o == Returned(false) ==> e.message == Some(UploadFailedMessage)
    ensures o.Threw? ==> e.message == Some(o.message)
  {
    var log := NewLog(now).(fileName := Some(f.fileName));
    match o
    case Returned(true) => log.(status := Some(StatusSuccess), message := Some(UploadedMessage))
    case Returned(false) => log.(status := Some(StatusFailed), message := Some(UploadFailedMessage))
    case Threw(m) => log.(status := Some(StatusFailed), message := Some(m))
  }

  /** The entry a session-level exception adds: an empty file name. */
  function SessionFailure(message: string, now: int): (e: TransferLog)
    ensures e.fileName == Some("") && e.status == Some(StatusFailed) && e.message == Some(message)
  {
    NewLog(now).(fileName := Some(""), status := Some(StatusFailed), message := Some(message))
  }

  function UploadLoop(files: seq<FileItem>, upload: FileItem -> UploadOutcome, now: int): (logs: seq<TransferLog>)
    ensures |logs| == |files|
    ensures forall i | 0 <= i < |files| :: logs[i] == UploadEntry(files[i], upload(files[i]), now)
  {
    if |files| == 0 then [] else [UploadEntry(files[0], upload(files[0]), now)] + UploadLoop(files[1..], upload, now)
  }

  /** The shared `TransferFilesAsync` of both services. A connect failure
      logs only the session entry; a disconnect failure logs it after the
      per-file entries. */
  function UploadFiles(files: seq<FileItem>, session: Session, upload: FileItem -> UploadOutcome, now: int): (r: TransferReport)
    ensures session.connectError.Some? ==>
              !r.success && r.logs == [SessionFailure(session.connectError.value, now)]
    ensures session.connectError.None? && session.disconnectError.Some? ==>
              && !r.success
              && r.logs == UploadLoop(files, upload, now) + [SessionFailure(session.disconnectError.value, now)]
    ensures session.connectError.None? && session.disconnectError.None? ==>
              r.success && r.logs == UploadLoop(files, upload, now)
  {
    var result := NewReport();
    match session.connectError
    case Some(m) => result.(success := false, logs := [SessionFailure(m, now)])
    case None =>
      var logs := UploadLoop(files, upload, now);
      match session.disconnectError
      case Some(m) => result.(success := false, logs := logs + [SessionFailure(m, now)])
      case None => result.(success := true, logs := logs)
  }

  /** `FluentFtpTransfer.TransferFilesAsync`. */
  function FluentFtpTransferFiles(files: seq<FileItem>, session: Session, upload: FileItem -> UploadOutcome, now: int): (r: TransferReport)
    ensures session.connectError.None? && session.disconnectError.None? ==>
              && r.success && |r.logs| == |files|
              && forall i | 0 <= i < |files| ::
                   r.logs[i].fileName == Some(files[i].fileName)
                   && (r.logs[i].status == Some(StatusSuccess) <==> upload(files[i]) == Returned(true))
                   && (upload(files[i]) == Returned(true) ==> r.logs[i].message == Some(UploadedMessage))
                   && (upload(files[i]) == Returned(false) ==> r.logs[i].message == Some(UploadFailedMessage))
                   && (upload(files[i]).Threw? ==> r.logs[i].message == Some(upload(files[i]).message))
    ensures session.connectError.Some? ==> !r.success && |r.logs| == 1 && r.logs[0].fileName == Some("")
  {
    UploadFiles(files, session, upload, now)
  }

  /** SSH.NET's `UploadFile` returns nothing: a file succeeds exactly when
      nothing was thrown. */
  function SshOutcome(thrown: Option<string>): UploadOutcome {
    match thrown
    case None => Returned(true)
    case Some(m) => Threw(m)
  }

  /** The argument SSH.NET's `SftpClient(host, port, username, password)`
      rejects, named as the exception's `ParamName`: the password
      authentication method is built first and refuses a blank user name,
      then `ConnectionInfo` refuses a port outside 0..65535. Null strings do
      not occur in the model. */
  function ClientRejects(conn: ConnectionSettings): (param: Option<string>)
    ensures param.None? <==> !AllWhiteSpace(conn.username) && 0 <= conn.port <= 65535
    ensures AllWhiteSpace(conn.username) ==> param == Some("username")
    ensures !AllWhiteSpace(conn.username) && !(0 <= conn.port <= 65535) ==> param == Some("port")
  {
    if AllWhiteSpace(conn.username) then Some("username")
    else if !(0 <= conn.port <= 65535) then Some("port")
    else None
  }

  /** `SshNetTransfer.TransferFilesAsync`. `Err` is the constructor's
      exception escaping the call, which then returns no report. */
  function SshNetTransferFiles(files: seq<FileItem>, conn: ConnectionSettings, session: Session,
                               thrown: FileItem -> Option<string>, now: int): (r: Result<TransferReport>)
    ensures r.Err? <==> ClientRejects(conn).Some?
    ensures r.Err? ==> r.message == ClientRejects(conn).value
    ensures r.Ok? && session.connectError.None? && session.disconnectError.None? ==>
              && r.value.success && |r.value.logs| == |files|
              && forall i | 0 <= i < |files| ::
                   r.value.logs[i].fileName == Some(files[i].fileName)
                   && (r.value.logs[i].status == Some(StatusSuccess) <==> thrown(files[i]).None?)
                   && (thrown(files[i]).None? ==> r.value.logs[i].message == Some(UploadedMessage))
                   && (thrown(files[i]).Some? ==> r.value.logs[i].message == thrown(files[i]))
    ensures r.Ok? && session.connectError.Some? ==>
              !r.value.success && |r.value.logs| == 1 && r.value.logs[0].fileName == Some("")
  {
    match ClientRejects(conn)
    case Some(param) => Err(param)
    case None => Ok(UploadFiles(files, session, f => SshOutcome(thrown(f)), now))
  }

  /** The default connection settings have an empty user name, so the SFTP
      upload throws before connecting, whatever the session would do. */
  lemma DefaultConnectionThrows(files: seq<FileItem>, session: Session, thrown: FileItem -> Option<string>, now: int)
    ensures SshNetTransferFiles(files, DefaultConnection(), session, thrown, now) == Err("username")
  {
  }

  /** Success does not depend on the per-file outcomes, only on the session. */
  lemma SuccessIgnoresFileOutcomes(files: seq<FileItem>, session: Session,
                                   a: FileItem -> UploadOutcome, b: FileItem -> UploadOutcome, now: int)
    ensures UploadFiles(files, session, a, now).success == UploadFiles(files, session, b, now).success
    ensures UploadFiles(files, session, a, now).success <==> session.connectError.None? && session.disconnectError.None?
  {
  }

  /** The number of failed entries of a completed session equals the number
      of files whose upload did not return true. */
  lemma {:induction false} FailedEntriesMatchFailedFiles(files: seq<FileItem>, upload: FileItem -> UploadOutcome, now: int)
    ensures Count(UploadLoop(files, upload, now), (e: TransferLog) => e.status == Some(StatusFailed))
            == Count(files, (f: FileItem) => upload(f) != Returned(true))
  {
    var isFailed := (e: TransferLog) => e.status == Some(StatusFailed);
    var fails := (f: FileItem) => upload(f) != Returned(true);
    if |files| > 0 {
      var logs := UploadLoop(files, upload, now);
      FailedEntriesMatchFailedFiles(files[1..], upload, now);
      assert logs[1..] == UploadLoop(files[1..], upload, now);
      assert isFailed(logs[0]) == fails(files[0]);
      CountCons(logs, isFailed);
      CountCons(files, fails);
    }
  }
}

=== FILE: wrappers.dfy ===
/** Failure-compatible wrappers used across the model.
    `Option` stands for the C# program's nullable references and
    `Result` for an operation that either returns a value or throws an
    exception carrying a message. */
module Wrappers {

  datatype Option<+T> = None | Some(value: T) {

    /** The value, or `default` when absent (the `??` operator). */
    function GetOr(default: T): T {
      match this
      case Some(v) => v
      case None => default
    }
  }

  datatype Result<+T> = Ok(value: T) | Err(message: string) {

    predicate IsFailure() {
      Err?
    }

    function PropagateFailure<U>(): Result<U>
      requires Err?
    {
      Err(message)
    }

    function Extract(): T
      requires Ok?
    {
      value
    }
  }
}
